=== FILE: README.md ===
# nls-node-boilerplate: a Dafny model of the file pipeline and query engine

This project models the core of the nls-node-boilerplate Express back end and proves properties of that model.

**The file pipeline.**
- `FileUtils.enqueueFileJob` stages an in-memory upload in a temp directory and queues the job with the staged path instead of the bytes.
- The file worker handles the four job types: `UPLOAD_SINGLE`, `UPLOAD_MULTIPLE`, `UPLOAD_FIELDS` and `DELETE_FILE`.
- It calls `fileService`, which selects the local or the S3 storage provider.
- Each provider uploads under a `<Date.now()>-<originalname>` name and deletes by name or key.

**The request-side utilities.**
- `QueryEngine` turns a query string into a Mongo filter, a search `$or`, a sort, a projection and pagination arithmetic.
- `FileUtils` provides extension, category, MIME type, allow-list and unique-name helpers.
- Bearer-token extraction and the `auth` middleware.
- The Redis cache-key builder.
- The JSON response builders.

**Modules.** There is one module per source component:
- `QuerySchema`, `QueryFilter`, `QueryEngine`: `src/services/query.service.js`;
- `FileTypes`, `JobStaging`: `src/utils/file.util.js`;
- `FileWorker`: `src/workers/file_worker.js`;
- `FileService`: `src/services/file.service.js`;
- `Providers`, `LocalProvider`, `S3Provider`: `src/providers/`;
- `Jwt`: `src/utils/jwt.util.js`;
- `Auth`: `src/middlewares/auth.js`;
- `CacheKey`: `src/services/redis.service.js`;
- `ApiResponse`: `src/utils/response.util.js`.

`Pipeline` joins staging, the worker, the service and the local provider into one end-to-end statement.

**Shared helpers.**
- `Wrappers` provides `Option` and `Result`.
- `Seqs` provides filtering, flattening, positions in a list, and the fact that filtering keeps order.
- `Strings` provides splitting, joining, trimming, ASCII case mapping and decimal rendering.
- `JsObject` models a plain JavaScript object as an ordered list of entries. Assignment keeps the first position of a key, the spread overwrites, and `delete` removes.
- `Files` holds the values that travel between the pipeline's stages.

**What the environment becomes.**
- **Outside world:** the temp directory, the public folder and the S3 bucket are maps from path or key to bytes.
- **Clock:** `Date.now()` is a parameter, or a clock function read once per upload.
- **External libraries:** `Number(...)`, `new Date(...)`, sharp's resize, the AWS calls and JWT verification are functions supplied by the caller.
- **Worker trace:** every file read, upload, unlink and deletion the worker performs is recorded in a trace, so ordering properties can be stated.

## Model

| member | source | states |
|---|---|---|
| QuerySchema.InstanceName | src/services/query.service.js:259 | the instance name is the path's `instance`, else its declared type's name, else `"Mixed"`; it is never empty |
| QuerySchema.TypeOf | src/services/query.service.js:261-265 | a field is `objectId` exactly when its instance is ObjectID/ObjectId or its name ends in "Id"; otherwise it is `number`, `boolean` or `date` exactly for the instances Number, Boolean and Date, and `string` in every other case |
| QuerySchema.ExtractSchemaInfo | src/services/query.service.js:254-269 | the schema info has exactly the schema's paths other than `_id` and `__v` as keys, each once |
| QuerySchema.ExtractSchemaInfoGet | src/services/query.service.js:257-266 | each kept path reads as the description of its last entry; `_id`, `__v` and unknown paths read as absent |
| QuerySchema.StringFields | src/services/query.service.js:273-275 | `available` holds exactly the string-typed fields |
| QuerySchema.AutoDetectStringFields | src/services/query.service.js:271-280 | the auto-detected search fields are exactly the string-typed fields, and every well-known candidate name comes before every other field |
| QuerySchema.AutoDetectOrder | src/services/query.service.js:271-280 | each group keeps its order: the well-known names come in the candidate list's order, and the other string fields follow in schema key order |
| QuerySchema.CandidatesDistinct | src/services/query.service.js:272 | the six candidate names are distinct |
| QuerySchema.AutoDetectNoDuplicates | src/services/query.service.js:276-279 | no field is listed twice when the schema's keys are distinct |
| QuerySchema.EntryOf | src/services/query.service.js:230-231 | a filterable entry has `enum` exactly when the field has enum values, and then carries them |
| QuerySchema.Filterable | src/services/query.service.js:227-234 | the filterable object lists only schema fields of the five filterable instances and never an empty `enum` |
| QuerySchema.FilterableGet | src/services/query.service.js:227-234 | a field is reported as filterable exactly when its instance is String, Number, Boolean, Date or ObjectId, and then with its own type, instance and enum |
| QuerySchema.GetFilterSchema | src/services/query.service.js:222-251 | `searchable` is the configured list when there is one, else exactly the string fields with the well-known names first; `sortable` is every schema key in order; a key is filterable exactly when its instance is one of the five, with its own type, instance and enum |
| QuerySchema.FilterSchemaOfPaths | src/services/query.service.js:222-270 | from the schema paths: a field is filterable exactly when it is not `_id`/`__v` and its described instance is one of the five, and it is reported with the type and instance it was described with |
| QueryFilter.CastValue | src/services/query.service.js:282-296 | string and objectId values pass through; a boolean is `true`/`false` exactly when the lower-cased text is "true"/"false"; a number or date is `undefined` exactly when parsing gives NaN; every defined result has the field type's kind |
| QueryFilter.BooleanCastIgnoresCase | src/services/query.service.js:285-290 | boolean casting does not depend on letter case |
| QueryFilter.LcFirst | src/services/query.service.js:298-300 | only the first character is lower-cased; the length and the rest are kept |
| QueryFilter.OperatorMatch | src/services/query.service.js:137 | a key matches `^(.+)\[(.+)\]$` exactly when it has no line terminator, ends in `]` and has a `[` with text on both sides; the key is then `field[op]`, split at the last such `[` |
| QueryFilter.OperatorMatchOf | src/services/query.service.js:137-140 | a key written as `field[op]` is matched back into that field and operator |
| QueryFilter.RangeMatchOf | src/services/query.service.js:147-148 | `min<Rest>`/`max<Rest>`, with the prefix in any letter case, yields `Rest` |
| QueryFilter.Classify | src/services/query.service.js:135-158 | a key is reserved exactly when it is one of the five parameters, and an operator key exactly when it is not reserved and matches the operator pattern; any other key is a `$gte` range on `lcFirst(Rest)` when it reads `min<Rest>` and that field is in the schema, else a `$lte` range when it reads `max<Rest>` and that field is, else a plain key |
| QueryFilter.AddOperator | src/services/query.service.js:142-143 | merging an operator fails, with the strict-mode TypeError, exactly when the field already holds a truthy primitive; otherwise it adds at most the field as a new key |
| QueryFilter.AddOperatorGet | src/services/query.service.js:142-143 | the operator joins the field's existing operators, replacing one of the same name; a falsy plain value is replaced; a Date absorbs it unseen; other fields are untouched |
| QueryFilter.CastPieces | src/services/query.service.js:164-167 | the `$in` list has at most one value per comma-separated piece |
| QueryFilter.CastPiecesFit | src/services/query.service.js:166-167 | every `$in` value has the field type's kind, because `undefined` casts are dropped |
| QueryFilter.TextPiecesAt | src/services/query.service.js:164-166 | the reference list of trimmed pieces holds, at each position, that piece trimmed |
| QueryFilter.CastPiecesText | src/services/query.service.js:164-167 | on a string or objectId field the `$in` list is exactly the trimmed pieces, none dropped |
| QueryFilter.CastPiecesOne | src/services/query.service.js:164-167 | one piece contributes its trimmed value cast to the field type, or nothing when that cast is `undefined` |
| QueryFilter.CastPiecesAppend | src/services/query.service.js:164-167 | casting two lists of pieces one after the other gives the casts of the first followed by the casts of the second, so the `$in` list keeps the pieces' order |
| QueryFilter.Step | src/services/query.service.js:134-172 | one query entry only ever sets keys the filter had or schema fields |
| QueryFilter.BuildFilters | src/services/query.service.js:129-176 | every key of a built filter is a schema field |
| QueryFilter.IgnoredKey | src/services/query.service.js:135-162 | reserved keys, operator keys on unknown fields and plain keys outside the schema leave the filter unchanged |
| QueryFilter.OperatorKeyStep | src/services/query.service.js:137-144 | `field[op]=raw` on a schema field adds `$op` with the cast value |
| QueryFilter.RangeKeyStep | src/services/query.service.js:146-158 | `min<Rest>=raw` (`max<Rest>=raw`), with the prefix in any letter case, on a schema field `lcFirst(Rest)` and not operator-shaped, adds `$gte` (`$lte`) with the raw value cast to that field's type |
| QueryFilter.PlainKeyStep | src/services/query.service.js:160-172 | a schema key whose value has no comma sets that field to the value cast to its type, replacing its condition, and every other field reads as before |
| QueryFilter.InListStep | src/services/query.service.js:163-169 | a schema key whose value has a comma and some piece that casts sets that field to exactly `{ $in: casts }`, and every other field reads as before |
| QueryFilter.EmptyInListSkipped | src/services/query.service.js:163-169 | a comma value whose pieces all cast to `undefined` sets nothing |
| QueryFilter.TextInList | src/services/query.service.js:163-169 | a comma value on a string field becomes `{ $in: trimmed pieces }`, replacing the field's condition and leaving every other field alone |
| QueryEngine.MergeOptions | src/services/query.service.js:17-22 | the fallbacks apply only to options left out; a given option, even empty or `undefined`, wins through the spread |
| QueryEngine.Tokens | src/services/query.service.js:112-115 | search tokens are non-empty and hold no comma or whitespace |
| QueryEngine.TokensOfWords | src/services/query.service.js:112-115 | separator-free words joined by spaces tokenize back to the same words |
| QueryEngine.TokenClauses | src/services/query.service.js:121-123 | one regex clause per field for a token, in field order |
| QueryEngine.SearchClauses | src/services/query.service.js:119-124 | there is one `$or` clause for every token and field |
| QueryEngine.SearchClauseAt | src/services/query.service.js:120-123 | the clause at position `i*|fields|+j` searches field `j` for token `i`: token-major order |
| QueryEngine.BuildSearchQuery | src/services/query.service.js:110-126 | the search is `{}` exactly when the term is falsy, there are no fields or there are no tokens; otherwise it is the full clause list |
| QueryEngine.SortClauses | src/services/query.service.js:181-184 | sort clauses are non-empty and hold no comma |
| QueryEngine.SortClausesOfJoin | src/services/query.service.js:181-184 | comma-joined clauses that are non-empty, trimmed and comma-free split back into exactly those clauses |
| QueryEngine.ApplySorting | src/services/query.service.js:179-190 | no sort exactly when the parameter is falsy or has no clauses; otherwise the sort keys are exactly the clause names without `-` |
| QueryEngine.SortPairsKeys | src/services/query.service.js:187-188 | a key is sorted on exactly when some clause names it |
| QueryEngine.SortDirectionOf | src/services/query.service.js:186-188 | a key's direction is the one its last clause gives |
| QueryEngine.SortDirectionsAreUnit | src/services/query.service.js:188 | every sort direction is 1 or -1 |
| QueryEngine.SortKeyOrder | src/services/query.service.js:186-188 | the sort object's keys are the clause names without `-`, each once, in the order they first appear |
| QueryEngine.SelectFields | src/services/query.service.js:88-95 | selected fields are non-empty, and free of spaces when they come from the `select` option |
| QueryEngine.SelectFieldsOfWords | src/services/query.service.js:88-91 | a `select` option of space-joined non-empty words selects exactly those words, whatever the `fields` parameter |
| QueryEngine.SelectFieldsOfFields | src/services/query.service.js:88-95 | with an empty `select` option, a `fields` parameter of comma-joined non-empty, trimmed, comma-free names selects exactly those names |
| QueryEngine.SelectIgnoresFieldsParam | src/services/query.service.js:88-95 | a non-empty `select` option overrides the `fields` parameter |
| QueryEngine.ApplySelect | src/services/query.service.js:193-197 | there is no projection exactly when no field is selected |
| QueryEngine.SelectRoundTrip | src/services/query.service.js:195 | the space-joined projection splits back into the selected fields |
| QueryEngine.CeilDiv | src/services/query.service.js:212 | the result is the least integer at or above the quotient |
| QueryEngine.Paginate | src/services/query.service.js:200-219 | `pages` is the ceiling of total/limit; there is a next page exactly when `page*limit < total` and a previous one exactly when `page > 1`, numbered one away |
| QueryEngine.NextPageIffBeforeLast | src/services/query.service.js:212-213 | there is a next page exactly when the page is before the last |
| QueryEngine.PagesOfTotal | src/services/query.service.js:212 | no documents means no pages; otherwise there is at least one |
| QueryEngine.SkipAdjacent | src/services/query.service.js:201 | page 1 skips nothing, and each further page skips one more limit |
| QueryEngine.NumberParam | src/services/query.service.js:64-65 | a page or limit is the parsed parameter when it is a non-zero number, else the configured default |
| QueryEngine.Assemble | src/services/query.service.js:55-107 | the plan keeps the filter and joins it with the `$or` of the search exactly when the search has clauses, and then with exactly those clauses; page and limit are the query's numbers, else the configured defaults; the sort comes from `sort`, else the default sort; the projection is the selected fields; skip matches page and limit |
| QueryEngine.AssembleSearch | src/services/query.service.js:63-126 | for a term with tokens and a non-empty field list, the plan joins the filter with an `$or` of one clause per token and field, token-major: the clause at token index i and field index j searches that token in that field |
| QueryEngine.BuildAll | src/services/query.service.js:55-107 | building fails exactly when the filter build fails, with its error, and otherwise carries the built filter |
| QueryEngine.EmptyDefaultSortUnsorted | src/services/query.service.js:179-180 | an explicitly empty default sort leaves results unsorted when there is no `sort` parameter |
| QueryEngine.Exec | src/services/query.service.js:28-37 | the pagination reports the plan's page and limit and the document count |
| FileTypes.ExtName | src/utils/file.util.js:54 | the extension is empty or a dot followed by dot-free text ending the base name; a dotless base name has none |
| FileTypes.GetExtension | src/utils/file.util.js:53-55 | the extension is lower-case and holds no dot or slash; a base name without a dot has none |
| FileTypes.ExtensionOfName | src/utils/file.util.js:53-55 | `stem.e` has the extension `e` lower-cased |
| FileTypes.NoExtension | src/utils/file.util.js:53-55 | a name without a dot has the empty extension |
| FileTypes.IsType | src/utils/file.util.js:60-63 | `isType` throws exactly for inherited `Object.prototype` names; otherwise it is true exactly when the category exists and lists the extension |
| FileTypes.FirstMatch | src/utils/file.util.js:138-140 | the index found is the first entry listing the extension, and there is none exactly when no entry lists it |
| FileTypes.CategoryIn | src/utils/file.util.js:135-142 | the category is the name of the first entry listing the extension, or "unknown" when none does |
| FileTypes.CategoryUnknownIff | src/utils/file.util.js:135-142 | "unknown" is returned exactly when no category lists the extension |
| FileTypes.CategoryInListed | src/utils/file.util.js:135-142 | for a table with distinct names none of which is "unknown", a known category lists the extension, and an extension some category lists gets a known category |
| FileTypes.CategoryKnownIffSomeType | src/utils/file.util.js:59-142 | `getCategory` gives a known category exactly when `isType` holds for some category, and it then holds for that category |
| FileTypes.CategoryAt | src/utils/file.util.js:138-139 | the first listing entry determines the category |
| FileTypes.CategoryOfName | src/utils/file.util.js:135-142 | a name's category is that of its lower-cased extension |
| FileTypes.PdfCategory | src/utils/file.util.js:10-48 | "pdf", also listed under document and ebook, is categorised as pdf |
| FileTypes.TxtCategory | src/utils/file.util.js:10-48 | "txt", also listed under text, is categorised as document |
| FileTypes.CategoryNamesDistinct | src/utils/file.util.js:10-48 | the twenty-one category names are distinct |
| FileTypes.CategoryNamesOwn | src/utils/file.util.js:10-48 | no category name is an inherited `Object.prototype` member or "unknown" |
| FileTypes.NoExtensionUnknown | src/utils/file.util.js:135-142 | a name without a dot has the unknown category |
| FileTypes.MimeIn | src/utils/file.util.js:165 | an own entry wins; an inherited member appears exactly for unmapped prototype names; everything else gets octet-stream |
| FileTypes.LowerCasePrototypeMembers | src/utils/file.util.js:165 | of the inherited names, only `constructor` and `__proto__` can be a lower-case extension |
| FileTypes.OctetStreamIff | src/utils/file.util.js:147-166 | the octet-stream default is returned exactly when the extension is neither mapped nor `constructor`/`__proto__` |
| FileTypes.MimeTypeIgnoresCase | src/utils/file.util.js:147-166 | the MIME type does not depend on the extension's letter case |
| FileTypes.IsAllowed | src/utils/file.util.js:180-183 | a file is allowed exactly when its extension is listed; nothing passes the default empty list |
| FileTypes.UniqueFilename | src/utils/file.util.js:171-175 | as written, the name ends with `-<now>.<ext>` |
| FileTypes.UniqueFilenameAsWritten | src/utils/file.util.js:171-175 | as written, the extension is cut from the name only when it is already lower case |
| FileTypes.UpperCaseExtensionKept | src/utils/file.util.js:171-175 | "Photo.JPG" becomes "Photo.JPG-<now>.jpg" |
| FileTypes.MissingExtensionLeavesDot | src/utils/file.util.js:171-175 | a dotless name gets a trailing dot: "README" becomes "README-<now>." |
| FileTypes.UniqueFilenameIntended | src/utils/file.util.js:171-175 | the corrected name ends with `-<now>`, plus `.<ext>` only when there is an extension |
| FileTypes.UniqueFilenameIntendedShape | src/utils/file.util.js:171-175 | the corrected name of `stem.e` is `stem-<now>.<lower-case e>`, whatever the case of `e` |
| FileTypes.UniqueFilenameIntendedNoExtension | src/utils/file.util.js:171-175 | the corrected name of a dotless name is `name-<now>` |
| JobStaging.StagedPathInjective | src/utils/file.util.js:191-194 | two uploads share a staged path only when staged at the same millisecond under the same name |
| JobStaging.RewriteGet | src/utils/file.util.js:186-202 | the staged payload reads the staged path and metadata in place of `file`, and every other key as given |
| JobStaging.Stage | src/utils/file.util.js:186-203 | a buffered file is written to `<cwd>/tmp/<now>-<name>` and replaced by its path and metadata, other keys kept; any other payload is queued unchanged with nothing written |
| JobStaging.StageTwice | src/utils/file.util.js:189 | staging a staged payload changes nothing |
| Files.StampedNameInjective | src/providers/local.provider.js:31 | two stored names coincide only for the same millisecond and original name |
| Files.StampedNameEndsWith | src/providers/local.provider.js:31 | a stored name ends with `-<originalname>` |
| Providers.ProviderType | src/providers/index.js:11 | the argument wins if non-empty, then the configured storage, then "local" |
| Providers.GetFileProvider | src/providers/index.js:10-20 | S3 is selected exactly when the type lower-cases to "s3" |
| Providers.LowersToS3 | src/providers/index.js:13-14 | only "s3" and "S3" lower-case to "s3" |
| Providers.SelectByName | src/providers/index.js:10-20 | a named provider is S3 exactly for "s3"/"S3", and local for every other name |
| Providers.DefaultIsLocal | src/providers/index.js:11-18 | with no argument and no configuration, storage is local |
| LocalProvider.UrlIsPublicPath | src/providers/local.provider.js:23-48 | the URL is the stored file's path below `public` |
| LocalProvider.Upload | src/providers/local.provider.js:15-52 | the upload fails exactly when resizing a compressed image is rejected, with the resize error; otherwise it stores the buffer, resized only for compressed images, under `<now>-<name>` in the folder, changes no other file and reports the caller's size and type |
| LocalProvider.Delete | src/providers/local.provider.js:61-70 | deletion fails with "File not found" exactly when the file is missing; otherwise it removes that file only |
| LocalProvider.DeleteUndoesUpload | src/providers/local.provider.js:15-70 | deleting a successful upload by its record's name restores the disk when the path was free |
| S3Provider.KeyFolder | src/providers/s3.provider.js:12 | the folder is the given non-empty folder, else "uploads" |
| S3Provider.KeyInjective | src/providers/s3.provider.js:13 | within a folder, keys coincide only for the same millisecond and name |
| S3Provider.Upload | src/providers/s3.provider.js:11-29 | the upload fails exactly when the store fails; otherwise the buffer is stored under the key, and the record has that key, the store's Location and the caller's size and type |
| S3Provider.Delete | src/providers/s3.provider.js:37-46 | a missing or empty key fails with "S3 key is required"; otherwise the object is removed unless the store fails |
| S3Provider.DeleteUndoesUpload | src/providers/s3.provider.js:11-46 | deleting by the reported key restores the bucket when the key was free |
| FileService.ProviderUpload | src/services/file.service.js:5 | each upload reads the clock once; it succeeds exactly when the backend accepts the file at that reading (local: no compressed image whose resize is rejected; S3: the store accepts the put), and then it is that provider's upload with its new disk or bucket; a failed upload stores nothing; records carry the selected provider, the caller's size and type and a name ending in the original name |
| FileService.UploadSingle | src/services/file.service.js:3-6 | without a file the upload fails with "File is required" and changes nothing; otherwise it is the selected provider's upload |
| FileService.DeleteFile | src/services/file.service.js:8-10 | a local deletion looks directly below `public`, fails exactly when the file is missing and otherwise removes just that file; an S3 deletion refuses an empty id, and otherwise fails exactly when the store's remove fails, with its error, and else removes just that key |
| FileService.UploadEach | src/services/file.service.js:14-16 | there is one attempt per file, in order, each reading the clock once; the records carry the selected provider and match their files' size, type and name |
| FileService.UploadEachAcceptsAt | src/services/file.service.js:14-16 | attempt `i` succeeds exactly when the backend accepts file `i` at the clock reading `ticks + i` |
| FileService.UploadEachAccepts | src/services/file.service.js:14-16 | for every file, its attempt succeeds exactly when the backend accepts it at its own clock reading |
| FileService.UploadEachOne | src/services/file.service.js:14-16 | a batch of one file is exactly that file's provider upload, its answer and its world |
| FileService.UploadEachAppend | src/services/file.service.js:14-16 | uploading `xs + ys` is uploading `xs` and then `ys` from the world `xs` left: the answers concatenate and the final world is the second batch's |
| FileService.UploadEachAt | src/services/file.service.js:14-16 | attempt `i` is the provider upload of file `i` started in the world the first `i` uploads left |
| FileService.FirstError | src/services/file.service.js:14-16 | there is no error exactly when every attempt succeeded |
| FileService.UploadMultiple | src/services/file.service.js:12-17 | no files gives `[]` and changes nothing; otherwise the call ends in the world the whole batch leaves; success gives one record per file in input order, each the batch's answer for that file; failure reports the first failed attempt's error; on either backend it succeeds exactly when every file is accepted at its clock reading: locally, when every needed resize is accepted, and on S3 when the store accepts every put |
| FileService.UploadMultipleRecords | src/services/file.service.js:12-17 | record `i` of a successful `uploadMultiple` is the provider's answer for file `i` uploaded in the world the earlier files left, and the call ends in the world the whole batch leaves |
| FileService.MultipleOfOne | src/services/file.service.js:3-17 | `uploadMultiple([f])` resolves to `[uploadSingle(f)]` with the same effect |
| FileWorker.UploadOne | src/workers/file_worker.js:42-58 | a file is read, then uploaded, then unlinked; a missing file stops before the upload, and a failed upload stops before the unlink |
| FileWorker.UploadOneViews | src/workers/file_worker.js:42-58 | one item reads its path, uploads with its options unless the file is missing, and unlinks only when uploaded |
| FileWorker.UploadItems | src/workers/file_worker.js:42-59 | the loop finishes exactly when every item was uploaded, fails only with a missing staged file or the service's error, and the temp store loses exactly the paths of the uploaded items |
| FileWorker.UploadItemsReads | src/workers/file_worker.js:42-43 | the loop reads the staged files of the items it attempted, in order |
| FileWorker.UploadItemsUnlinks | src/workers/file_worker.js:57 | the loop unlinks the staged files of the uploaded items, in order |
| FileWorker.UploadItemsOptions | src/workers/file_worker.js:51-55 | the service receives each read item with its own options, in order |
| FileWorker.UploadItemsRecords | src/workers/file_worker.js:42-58 | the loop's records are exactly the service's answers, in order, and the service receives each submitted item's staged bytes with that item's metadata, in order |
| FileWorker.UploadItemsCounts | src/workers/file_worker.js:42-59 | the loop's records are the service's answers, and it submits at most one upload per item |
| FileWorker.UploadItemsFileAt | src/workers/file_worker.js:42-58 | the `i`-th submitted upload carries item `i`'s staged bytes and metadata |
| FileWorker.StopsAtFirstFailure | src/workers/file_worker.js:42-59 | a failure at item `i` leaves the earlier items uploaded and unlinked, reads nothing after `i`, and leaves later staged files in place |
| FileWorker.FieldOptions | src/workers/file_worker.js:80 | compression is requested exactly for the "image" field |
| FileWorker.FieldItems | src/workers/file_worker.js:68-80 | the fields job uploads every file of every field, in key order, each with its field's options |
| FileWorker.Tag | src/workers/file_worker.js:88 | each record is tagged with its field name |
| FileWorker.ReadableByKeys | src/workers/file_worker.js:20-21 | a payload with these path, metadata and options keys is read back as those values |
| FileWorker.UploadSingleJob | src/workers/file_worker.js:19-34 | a falsy `tempPath` fails before any read; otherwise the job reads, uploads and resolves to the service's record, unlinking only after a successful upload; a failed job leaves the temp store unchanged |
| FileWorker.SharedItems | src/workers/file_worker.js:42-55 | every staged file is uploaded with the shared options |
| FileWorker.UploadMultipleJob | src/workers/file_worker.js:37-61 | `tempFiles` that is absent, a number, an object without length or an empty list gives `[]` with nothing touched; a non-empty string or field map fails with a bad payload before any read; a non-empty list is the upload loop over its files with the shared options, failing with the loop's error or resolving to its records |
| FileWorker.UploadMultipleTrace | src/workers/file_worker.js:37-61 | a successful multiple upload reads, uploads and unlinks every file in input order, uploads each file's staged bytes and metadata with the shared options, removes every staged path, and resolves to the service's records in that order |
| FileWorker.UploadFieldsJob | src/workers/file_worker.js:64-92 | `fields` with nothing to walk gives `[]` with nothing touched; a non-empty string or staged-file list fails with a bad payload before any read; a field map is the upload loop over its files field by field, failing with the loop's error or resolving to its records tagged with their fields |
| FileWorker.UploadFieldsTrace | src/workers/file_worker.js:64-92 | a successful fields upload reads, uploads and unlinks every file field by field, uploads each file's staged bytes and metadata, compresses exactly the "image" ones, removes every staged path, and tags the service's records with their fields in order |
| FileWorker.DeleteJob | src/workers/file_worker.js:95-101 | a falsy `filename` fails with "Filename is required" and does nothing; otherwise the job performs exactly one deletion of that name, succeeds exactly when the service deletes it and reports the name, and on failure passes the service's error on with the world unchanged; the temp store is never touched |
| FileWorker.Handle | src/workers/file_worker.js:16-105 | an unknown job type fails with "Unknown job type: <type>" and touches nothing |
| Pipeline.StagedUploadLandsLocally | src/workers/file_worker.js:19-34 | a staged single upload handled on local storage succeeds exactly when the resize accepts it (or none is needed); then it stores the buffer (resized only for compressed images) under the record's name and the temp directory ends as it began; otherwise the staged file stays and the disk is unchanged |
| Pipeline.StagedPayloadReadable | src/utils/file.util.js:189-202 | the queued payload carries the staged path, the file's metadata and the original options, and the temp directory holds the buffer there |
| Pipeline.RewriteReadable | src/utils/file.util.js:198-202 | the rewritten payload reads back as exactly the staged path and metadata the worker expects |
| Jwt.SplitBearer | src/utils/jwt.util.js:50-51 | a Bearer header splits into "Bearer" followed by the pieces of the rest |
| Jwt.BearerPiece | src/utils/jwt.util.js:51 | the token is the space-free text after "Bearer ", up to the next space or the end |
| Jwt.ExtractBearerToken | src/utils/jwt.util.js:48-52 | there is a token exactly for headers starting with "Bearer ", and it is that piece |
| Jwt.ExtractsBetweenSpaces | src/utils/jwt.util.js:48-52 | "Bearer " + t, followed by nothing or a space, yields exactly `t` |
| Jwt.TokenHasNoSpace | src/utils/jwt.util.js:51 | an extracted token holds no space, so it is never itself a Bearer header |
| Auth.Token | src/middlewares/auth.js:15-17 | a Bearer header gives its extracted token; any other header is used whole |
| Auth.Authenticate | src/middlewares/auth.js:4-40 | every refusal is a 401 with `success: false`; a missing header, an empty token and a failed verification each get their own message; `next` runs exactly when the token verifies, with the decoded user |
| Auth.BearerPrefixOptional | src/middlewares/auth.js:15-17 | "Bearer t" is decided exactly like "t" |
| Auth.EmptyBearerRefused | src/middlewares/auth.js:15-25 | "Bearer " with nothing before the next space is refused as an invalid format |
| CacheKey.Render | src/services/redis.service.js:61-62 | each entry renders as `k=v`, in entry order |
| CacheKey.GenerateKey | src/services/redis.service.js:60-65 | the key starts with the prefix; it is the prefix alone exactly when there are no entries, and a colon follows otherwise |
| CacheKey.ParseRendered | src/services/redis.service.js:62 | a rendered `k=v` parses back into `k` and `v` |
| CacheKey.DecodeGenerate | src/services/redis.service.js:60-65 | parameters without `:` (and keys without `=`) are recovered from their key |
| CacheKey.GenerateKeyInjective | src/services/redis.service.js:60-65 | under one prefix, distinct such parameter lists give distinct keys |
| ApiResponse.Body | src/utils/response.util.js:16-21 | the body starts with statusCode, isSuccess and message, and has exactly those keys plus the data's |
| ApiResponse.BodyGet | src/utils/response.util.js:16-21 | each body key reads as the data's last value for it, else as the header field |
| ApiResponse.BodyGetData | src/utils/response.util.js:16-21 | a key the data holds reads as the data's last value for it, whatever the header field |
| ApiResponse.Generate | src/utils/response.util.js:11-22 | the status is kept; the body has exactly statusCode, isSuccess, message and the data's keys; each data key reads as the data's last value for it; otherwise statusCode and message are as given, an explicit boolean flag wins, and without one the flag is true exactly for a 2xx status |
| ApiResponse.Segments | src/utils/response.util.js:32 | the path segments are non-empty and slash-free |
| ApiResponse.SegmentsOfPath | src/utils/response.util.js:32 | the segments of `/a/b/c`, with or without a query string, are exactly `a`, `b`, `c` |
| ApiResponse.FindStatic | src/utils/response.util.js:35-36 | the segment found is the first static one, and there is none exactly when no segment is static |
| ApiResponse.LastStaticIsLast | src/utils/response.util.js:35-36 | searching the reversed segments finds the last static segment |
| ApiResponse.LowerAfterCapitalize | src/utils/response.util.js:39-46 | lower-casing undoes the word capitalisation |
| ApiResponse.Describe | src/utils/response.util.js:35-46 | the description is the last static segment, lower-cased with hyphens as spaces, or "unknown" |
| ApiResponse.ErrorMessage | src/utils/response.util.js:43-46 | a string error is the message verbatim; anything else gives "Error occurred while <description>" |
| ApiResponse.GenerateError | src/utils/response.util.js:30-56 | the status is always 500; the body has exactly statusCode, isSuccess, message and the extra data's keys; each extra key reads as the extra data's last value for it; otherwise statusCode is 500, the flag is false and the message is as described |
| JsObject.SetGet | src/services/query.service.js:266 | after `o[k] = v`, `k` reads `v` and every other key reads as before |
| JsObject.SetKeepsDistinct | src/services/query.service.js:266 | assignment never duplicates a key |
| JsObject.AssignGet | src/utils/response.util.js:16-21 | after a spread, a key reads as the source's last value for it, else as before |
| JsObject.AssignKeys | src/utils/response.util.js:16-21 | after a spread, the keys are the target's keys followed by the source's new keys, in first-occurrence order |
| JsObject.RemoveGet | src/utils/file.util.js:202 | after `delete o[k]`, `k` is absent and every other key reads as before |

## Left out

- **The queue layer.** The BullMQ queue, `QueueEvents`, the five-second wait in `enqueueFileJob` and the worker's concurrency of five are not modelled. `Pipeline` hands the staged payload straight to the worker, and each job is handled on its own.
- **Worker lifecycle.** The worker's startup logging and its `completed`/`failed` listeners are console output only.
- **Real I/O.** The temp directory, the public folder and the S3 bucket are maps.
  - `mkdirSync` always succeeds.
  - Write failures are not modelled.
  - Deleting a directory path is not modelled.
- **External calls.** These are functions supplied by the caller:
  - sharp's resize, without the `width` option, as a function that returns resized bytes or rejects its input;
  - the AWS `upload`/`deleteObject` calls;
  - `Number(...)` and `new Date(...)`, as partial functions to integers;
  - JWT verification.
- **auth.js and the jwt utilities.**
  - `auth.js` imports a named export `verifyToken` that `jwt.util.js` does not have. The model takes verification as a parameter, with a failure meaning a throw.
  - Token signing, decoding, expiry and refresh in `jwt.util.js` are library calls and are not modelled.
  - `admin.middleware.js` is not part of this model.
- **Redis.** `get`, `set`, `del` and `clearByPattern` in `redis.service.js` are client calls and are not modelled. Parameter values of `generateKey` are taken as already rendered strings.
- **Text handling.**
  - Letter case is mapped for ASCII letters only.
  - `path.join` normalisation of `..` and repeated slashes is not modelled; `cwd` is assumed to have no trailing slash.
  - Integer-like object keys are kept in insertion order, not moved to the front.
  - Query-string values are strings; array values such as `?a=1&a=2` are not modelled.
- **Prototype lookups.** Inherited `Object.prototype` members are modelled only where `isType` and `getMimeType` can reach them. For schema fields and query keys such as `constructor`, `schemaInfo[...]` lookups are taken as own properties only.
- **Query engine omissions.**
  - `getFilterSchema`'s `includeDistinct` branch and the Mongo `find`, `countDocuments` and `distinct` calls are not modelled; `Exec` takes the document count as input.
  - `QueryEngine.Paginate`: requires a non-zero limit. With a limit of 0, JavaScript gives `Infinity` or `NaN` pages; `Number(limit) || default` can only produce 0 through a configured default limit of 0.
  - `QueryEngine.Exec`: the `includeFilterSchema` result fields are not modelled; only the pagination is.
- **API responses.**
  - `ApiResponse.Static`: `isNaN(seg)` is approximated as "not a run of decimal digits". JavaScript also treats `""`, whitespace, hex (`0x1f`), exponent and `Infinity` forms as numbers.
  - `ApiResponse.Generate`: any non-boolean `isSuccess` is `None`. `data` and `extraData` values are JSON values without `undefined` or functions.
  - The `console.error` of `generateErrorApiResponse` is not modelled.
- **Rare failure paths.**
  - `FileWorker.Handle`: a payload value of a type the job does not expect fails with `BadPayload` where JavaScript would behave otherwise.
    - For `tempFiles`, an absent or falsy value, a number, an object without `length` and an empty list give `[]`, as in JavaScript.
    - For `fields`, an absent value, `null`, a number, `""` and an empty list give `[]`, as in JavaScript.
    - Under `tempFiles`, a non-empty string or an object with a `length` fails with `BadPayload` before any read. JavaScript would throw too: `readFileSync` gets the `undefined` path of a character, and a plain object is not iterable.
    - For `fields`, a value that is a single file or an options object fails with `BadPayload` before any read. JavaScript iterates its keys: an empty options object gives `[]`, and any other such value throws at its first key.
  - Promise rejection order under `Promise.all` is not modelled: `FileService.UploadMultiple` reports the first failed upload in input order.
  - A `next()` that throws inside `auth`'s `try` is not modelled.
- **Not part of the core.** Backup, seeding, migrations, email, controllers, routes and the upload middleware are not part of this model.

## Where the code and the expected behaviour differ

- **Temp-file release.** One would expect the staged file to be released even when processing fails. The worker unlinks it only after a successful upload. The model follows the code: `FileWorker.UploadSingleJob` and `FileWorker.StopsAtFirstFailure` leave the staged file of a failed item in place.
- **Local not-found deletes.** One would expect a not-found delete to count as success. The local provider throws "File not found" and the worker lets the job fail. `FileWorker.DeleteJob` models the failure.
- **Missing temp path.** One would expect a missing `tempPath` to be rejected as a validation error before enqueueing. In the code the worker throws "File path is required", and that is what is modelled.

## Findings

| source | as written | input that shows it | evidently intended | confidence | as-written member | corrected member |
|---|---|---|---|---|---|---|
| src/utils/file.util.js:171-175 | `path.basename(original, "." + ext)` uses the lower-cased extension, so an upper-case extension is not cut | "Photo.JPG" gives "Photo.JPG-<now>.jpg" | "Photo-<now>.jpg" | not executed | FileTypes.UpperCaseExtensionKept | FileTypes.UniqueFilenameIntendedShape |
| src/utils/file.util.js:171-175 | the template always appends `.${ext}`, even when the extension is empty | "README" gives "README-<now>." | "README-<now>" | not executed | FileTypes.MissingExtensionLeavesDot | FileTypes.UniqueFilenameIntendedNoExtension |

=== FILE: api_response.dfy ===
/** `generateApiResponse` and `generateErrorApiResponse`
    (src/utils/response.util.js): the status and JSON body a handler sends.
    The Express `res` object is replaced by the returned `Response`. */
module ApiResponse {
  import opened Wrappers
  import opened Strings
  import JsObject

  /** A JSON value as `res.json` serialises it. */
  datatype Json =
    | JNumber(n: int)
    | JBool(b: bool)
    | JString(s: string)
    | JNull
    | JArray(items: seq<Json>)
    | JObject(fields: JsObject.Entries<Json>)

  datatype Response = Response(status: int, body: JsObject.Entries<Json>)

  /** `{ statusCode, isSuccess, message }`, the fields every body starts with. */
  function Header(status: int, success: bool, message: string): JsObject.Entries<Json> {
    [("statusCode", JNumber(status)), ("isSuccess", JBool(success)), ("message", JString(message))]
  }

  /** The body `{ statusCode, isSuccess, message, ...data }`. */
  function Body(status: int, success: bool, message: string, data: JsObject.Entries<Json>): (body: JsObject.Entries<Json>)
    ensures |body| >= 3 && JsObject.Keys(body)[..3] == ["statusCode", "isSuccess", "message"]
    ensures forall k :: k in JsObject.Keys(body) <==>
      k == "statusCode" || k == "isSuccess" || k == "message" || k in JsObject.Keys(data)
  {
    var h := Header(status, success, message);
    assert JsObject.Keys(h) == ["statusCode", "isSuccess", "message"];
    JsObject.Assign(h, data)
  }

  /** Each key of the body reads as the last value `data` gives it, and the
      three header keys read as set unless `data` overrides them. */
  lemma BodyGet(status: int, success: bool, message: string, data: JsObject.Entries<Json>, k: string)
    ensures JsObject.Get(Body(status, success, message, data), k) ==
      if k in JsObject.Keys(data) then JsObject.GetLast(data, k)
      else if k == "statusCode" then Some(JNumber(status))
      else if k == "isSuccess" then Some(JBool(success))
      else if k == "message" then Some(JString(message))
      else None
  {
    JsObject.AssignGet(Header(status, success, message), data, k);
    HeaderGet(status, success, message, k);
  }

  /** `BodyGet` for every key of `data` at once. */
  lemma BodyGetData(status: int, success: bool, message: string, data: JsObject.Entries<Json>)
    ensures forall k :: k in JsObject.Keys(data) ==>
      JsObject.Get(Body(status, success, message, data), k) == JsObject.GetLast(data, k)
  {
    forall k | k in JsObject.Keys(data)
      ensures JsObject.Get(Body(status, success, message, data), k) == JsObject.GetLast(data, k)
    {
      BodyGet(status, success, message, data, k);
    }
  }

  lemma HeaderGet(status: int, success: bool, message: string, k: string)
    ensures JsObject.Get(Header(status, success, message), k) ==
      if k == "statusCode" then Some(JNumber(status))
      else if k == "isSuccess" then Some(JBool(success))
      else if k == "message" then Some(JString(message))
      else None
  {
    var h := Header(status, success, message);
    assert h == [h[0]] + ([h[1]] + ([h[2]] + []));
    JsObject.GetCons(h[2], [], k);
    JsObject.GetCons(h[1], [h[2]], k);
    JsObject.GetCons(h[0], [h[1], h[2]], k);
  }

  // ---------------------------------------------------------------- success responses

  /** `typeof isSuccess === "boolean" ? isSuccess : 200 <= statusCode < 300`;
      `None` stands for any value that is not a boolean. */
  function SuccessFlag(status: int, isSuccess: Option<bool>): bool {
    isSuccess.GetOr(200 <= status < 300)
  }

  /** `generateApiResponse(res, statusCode, message, data, isSuccess)`. An
      absent `data` is the empty object. */
  function Generate(status: int, message: string, data: JsObject.Entries<Json>, isSuccess: Option<bool>): (r: Response)
    ensures r.status == status
    ensures r.body == Body(status, SuccessFlag(status, isSuccess), message, data)
    ensures forall k :: k in JsObject.Keys(r.body) <==>
      k == "statusCode" || k == "isSuccess" || k == "message" || k in JsObject.Keys(data)
    ensures forall k :: k in JsObject.Keys(data) ==> JsObject.Get(r.body, k) == JsObject.GetLast(data, k)
    ensures "statusCode" !in JsObject.Keys(data) ==> JsObject.Get(r.body, "statusCode") == Some(JNumber(status))
    ensures "message" !in JsObject.Keys(data) ==> JsObject.Get(r.body, "message") == Some(JString(message))
    ensures isSuccess.Some? && "isSuccess" !in JsObject.Keys(data) ==>
      JsObject.Get(r.body, "isSuccess") == Some(JBool(isSuccess.value))
    ensures isSuccess.None? && "isSuccess" !in JsObject.Keys(data) ==>
      (JsObject.Get(r.body, "isSuccess") == Some(JBool(true)) <==> 200 <= status < 300)
  {
    var success := SuccessFlag(status, isSuccess);
    BodyGet(status, success, message, data, "isSuccess");
    BodyGet(status, success, message, data, "statusCode");
    BodyGet(status, success, message, data, "message");
    BodyGetData(status, success, message, data);
    Response(status, Body(status, success, message, data))
  }

  // ---------------------------------------------------------------- error responses

  /** The `error` argument: a string, or anything else (an `Error`, say). */
  datatype ErrorArg = Message(text: string) | Raised

  /** `apiPath.split("?")[0].split("/").filter(Boolean)`. */
  function Segments(url: string): (segs: seq<string>)
    ensures forall i :: 0 <= i < |segs| ==> segs[i] != "" && '/' !in segs[i]
  {
    var path := Split(url, '?')[0];
    var segs := Compact(Split(path, '/'));
    assert forall i :: 0 <= i < |segs| ==> segs[i] in segs && segs[i] in Split(path, '/');
    segs
  }

  /** The segments of a path are the pieces it was built from: a path
      `/a/b/c`, with or without a query string, has segments `a`, `b`, `c`. */
  lemma SegmentsOfPath(segs: seq<string>, rest: string)
    requires |segs| >= 1
    requires forall i :: 0 <= i < |segs| ==> segs[i] != "" && '/' !in segs[i] && '?' !in segs[i]
    requires rest == "" || rest[0] == '?'
    ensures Segments("/" + Join(segs, "/") + rest) == segs
  {
    var joined := Join(segs, "/");
    var path := "/" + joined;
    JoinLacks(segs, "/", '?');
    CutQuery(path, rest);
    SplitRooted(joined);
    SplitJoin(segs, '/');
    var pieces := Split(path, '/');
    assert pieces[1..] == segs;
    CompactNonEmpty(segs);
  }

  /** A path starting with `/` splits into an empty piece and the rest's pieces. */
  lemma SplitRooted(s: string)
    ensures Split("/" + s, '/') == [""] + Split(s, '/')
  {
    assert "/" + s == [] + ['/'] + s;
    SplitByAtSeparator([], '/', s, CharIs('/'));
  }

  /** Cutting at the first `?` keeps exactly the text before the query string. */
  lemma CutQuery(path: string, rest: string)
    requires '?' !in path
    requires rest == "" || rest[0] == '?'
    ensures Split(path + rest, '?')[0] == path
  {
    assert NoSeparator(path, CharIs('?'));
    if rest == "" {
      assert path + rest == path;
      SplitByNoSeparator(path, CharIs('?'));
    } else {
      assert path + rest == path + ['?'] + rest[1..];
      SplitByAtSeparator(path, '?', rest[1..], CharIs('?'));
    }
  }

  /** `!seg.startsWith(":") && isNaN(seg)`, with `isNaN` read as "not a run of
      decimal digits". */
  predicate Static(seg: string) {
    !StartsWith(seg, ":") && !IsDigits(seg)
  }

  function Reversed(xs: seq<string>): (ys: seq<string>)
    ensures |ys| == |xs|
    ensures forall i :: 0 <= i < |xs| ==> ys[i] == xs[|xs| - 1 - i]
  {
    seq(|xs|, i requires 0 <= i < |xs| => xs[|xs| - 1 - i])
  }

  /** `xs.find(isStatic)`, as the index found. */
  function FindStatic(xs: seq<string>): (r: Option<nat>)
    ensures r.None? <==> forall i :: 0 <= i < |xs| ==> !Static(xs[i])
    ensures r.Some? ==> r.value < |xs| && Static(xs[r.value])
    ensures r.Some? ==> forall i :: 0 <= i < r.value ==> !Static(xs[i])
  {
    if |xs| == 0 then None
    else if Static(xs[0]) then Some(0)
    else match FindStatic(xs[1..])
      case None => None
      case Some(i) => Some(i + 1)
  }

  /** `pathSegments.reverse().find(isStatic)`. */
  function LastStatic(segs: seq<string>): Option<string> {
    var rev := Reversed(segs);
    match FindStatic(rev)
    case None => None
    case Some(i) => Some(rev[i])
  }

  /** Searching the reversed segments from the front finds the last static
      segment: none when no segment is static, otherwise one with no static
      segment after it. */
  lemma LastStaticIsLast(segs: seq<string>) returns (i: int)
    ensures LastStatic(segs).None? <==> forall j :: 0 <= j < |segs| ==> !Static(segs[j])
    ensures LastStatic(segs).Some? ==>
      && 0 <= i < |segs| && segs[i] == LastStatic(segs).value && Static(segs[i])
      && forall j :: i < j < |segs| ==> !Static(segs[j])
  {
    var rev := Reversed(segs);
    i := 0;
    match FindStatic(rev)
    case None =>
      forall j | 0 <= j < |segs| ensures !Static(segs[j]) {
        assert segs[j] == rev[|segs| - 1 - j];
      }
    case Some(k) =>
      i := |segs| - 1 - k;
      forall j | i < j < |segs| ensures !Static(segs[j]) {
        assert segs[j] == rev[|segs| - 1 - j];
      }
  }

  /** `\w`: an ASCII letter, a digit or `_`. */
  predicate IsWordChar(c: char) {
    IsUpper(c) || IsLower(c) || IsDigit(c) || c == '_'
  }

  /** `s.replace(/\b\w/g, c => c.toUpperCase())`: every word character that
      starts a word is upper-cased. */
  function CapitalizeWords(s: string): (t: string)
    ensures |t| == |s|
  {
    seq(|s|, i requires 0 <= i < |s| =>
      if IsWordChar(s[i]) && (i == 0 || !IsWordChar(s[i - 1])) then UpperChar(s[i]) else s[i])
  }

  /** Lower-casing undoes the capitalisation: the message ends up lower-case
      whatever the segment's case was. */
  lemma LowerAfterCapitalize(s: string)
    ensures ToLower(CapitalizeWords(s)) == ToLower(s)
  {
    forall i | 0 <= i < |s| ensures ToLower(CapitalizeWords(s))[i] == ToLower(s)[i] {
      LowerUpper(s[i]);
    }
  }

  /** The formatted, lower-cased description of a URL: its last static
      segment with hyphens as spaces, or "unknown". */
  function Describe(url: string): (d: string)
    ensures LastStatic(Segments(url)).None? ==> d == "unknown"
    ensures LastStatic(Segments(url)).Some? ==> d == ToLower(ReplaceChar(LastStatic(Segments(url)).value, '-', ' '))
    ensures '-' !in d
    ensures forall i :: 0 <= i < |d| ==> !IsUpper(d[i])
  {
    var segment := LastStatic(Segments(url)).GetOr("unknown");
    var spaced := ReplaceChar(segment, '-', ' ');
    LowerAfterCapitalize(spaced);
    ToLowerNonLetter(spaced, '-');
    ToLower(CapitalizeWords(spaced))
  }

  /** The message: a string error verbatim, otherwise derived from
      `res.req?.originalUrl || ""`. */
  function ErrorMessage(url: Option<string>, error: ErrorArg): (m: string)
    ensures error.Message? ==> m == error.text
    ensures error.Raised? ==> m == "Error occurred while " + Describe(url.GetOr(""))
  {
    match error
    case Message(text) => text
    case Raised => "Error occurred while " + Describe(url.GetOr(""))
  }

  /** `generateErrorApiResponse(res, error, extraData)`: always status 500
      and a failure flag, unless `extraData` overrides the body's fields. */
  function GenerateError(url: Option<string>, error: ErrorArg, extra: JsObject.Entries<Json>): (r: Response)
    ensures r.status == 500
    ensures forall k :: k in JsObject.Keys(r.body) <==>
      k == "statusCode" || k == "isSuccess" || k == "message" || k in JsObject.Keys(extra)
    ensures forall k :: k in JsObject.Keys(extra) ==> JsObject.Get(r.body, k) == JsObject.GetLast(extra, k)
    ensures "statusCode" !in JsObject.Keys(extra) ==> JsObject.Get(r.body, "statusCode") == Some(JNumber(500))
    ensures "isSuccess" !in JsObject.Keys(extra) ==> JsObject.Get(r.body, "isSuccess") == Some(JBool(false))
    ensures "message" !in JsObject.Keys(extra) ==>
      JsObject.Get(r.body, "message") == Some(JString(ErrorMessage(url, error)))
  {
    var message := ErrorMessage(url, error);
    BodyGet(500, false, message, extra, "isSuccess");
    BodyGet(500, false, message, extra, "message");
    BodyGet(500, false, message, extra, "statusCode");
    BodyGetData(500, false, message, extra);
    Response(500, Body(500, false, message, extra))
  }
}

=== FILE: auth.dfy ===
/** The `auth` middleware (src/middlewares/auth.js): from the
    `Authorization` header to either a 401 reply or a call to `next` with
    the decoded user. Token verification is a partial function given by the
    caller: `None` stands for `verifyToken` throwing. */
module Auth {
  import opened Wrappers
  import opened Strings
  import Jwt

  /** What the middleware does with a request: answer it with a status and a
      `{ success, message }` body, or set `req.user` and call `next` once. */
  datatype Decision<U> =
    | Reply(status: int, success: bool, message: string)
    | Proceed(user: U)

  const Unauthorized := 401

  /** The token the middleware verifies: the second space-separated piece
      of a `"Bearer "` header, or the whole header otherwise. */
  function Token(h: string): (t: string)
    ensures StartsWith(h, Jwt.BearerPrefix) ==> Jwt.ExtractBearerToken(Some(h)) == Some(t)
    ensures !StartsWith(h, Jwt.BearerPrefix) ==> t == h
  {
    if StartsWith(h, Jwt.BearerPrefix) then
      Jwt.SplitBearer(h);
      Split(h, ' ')[1]
    else h
  }

  /** `auth(req, res, next)` on the header value. */
  function Authenticate<U>(header: Option<string>, verify: string -> Option<U>): (d: Decision<U>)
    ensures d.Reply? ==> d.status == Unauthorized && !d.success
    ensures header.None? || header.value == "" ==> d == Reply(Unauthorized, false, "Unauthorized: Token missing")
    ensures d.Proceed? <==>
      header.Some? && Token(header.value) != "" && verify(Token(header.value)).Some?
    ensures d.Proceed? ==> d.user == verify(Token(header.value)).value
    ensures header.Some? && header.value != "" && Token(header.value) == "" ==>
      d.message == "Unauthorized: Invalid token format"
    ensures header.Some? && Token(header.value) != "" && verify(Token(header.value)).None? ==>
      d.message == "Invalid or expired token"
  {
    if header.None? || header.value == "" then Reply(Unauthorized, false, "Unauthorized: Token missing")
    else
      var token := Token(header.value);
      if token == "" then Reply(Unauthorized, false, "Unauthorized: Invalid token format")
      else match verify(token)
        case None => Reply(Unauthorized, false, "Invalid or expired token")
        case Some(user) => Proceed(user)
  }

  /** A Bearer header is decided like its bare token: the prefix is optional. */
  lemma BearerPrefixOptional<U>(t: string, verify: string -> Option<U>)
    requires t != "" && ' ' !in t
    ensures Authenticate(Some(Jwt.BearerPrefix + t), verify) == Authenticate(Some(t), verify)
  {
    Jwt.ExtractsBetweenSpaces(t, "");
    assert Jwt.BearerPrefix + t + "" == Jwt.BearerPrefix + t;
    Jwt.CharOf(t, 0, Jwt.BearerPrefix, 6);
    assert Token(t) == t;
  }

  /** A Bearer header with nothing between its first and second space, such
      as `"Bearer "` or `"Bearer  x"`, is refused as malformed. */
  lemma EmptyBearerRefused<U>(rest: string, verify: string -> Option<U>)
    requires rest == "" || rest[0] == ' '
    ensures Authenticate(Some(Jwt.BearerPrefix + rest), verify) ==
      Reply(Unauthorized, false, "Unauthorized: Invalid token format")
  {
    Jwt.ExtractsBetweenSpaces("", rest);
    assert Jwt.BearerPrefix + "" + rest == Jwt.BearerPrefix + rest;
  }
}

=== FILE: cache_key.dfy ===
/** `redisService.generateKey` (src/services/redis.service.js): a cache key
    built from a prefix and the entries of a parameter object. Parameter
    values are taken as already rendered by template interpolation. */
module CacheKey {
  import opened Wrappers
  import opened Strings
  import JsObject

  /** `${k}=${v}` for each entry, in entry order. */
  function Render(params: JsObject.Entries<string>): (pieces: seq<string>)
    ensures |pieces| == |params|
    ensures forall i :: 0 <= i < |params| ==> pieces[i] == params[i].0 + "=" + params[i].1
  {
    seq(|params|, i requires 0 <= i < |params| => params[i].0 + "=" + params[i].1)
  }

  /** `generateKey(prefix, params)`: the prefix alone for no entries,
      otherwise the prefix, a colon and the rendered entries joined by
      colons. Every rendered entry holds `=`, so the joined string is empty
      only when there are no entries. */
  function GenerateKey(prefix: string, params: JsObject.Entries<string>): (key: string)
    ensures StartsWith(key, prefix)
    ensures key == prefix <==> |params| == 0
    ensures |params| > 0 ==> key[|prefix|] == ':'
  {
    var paramString := Join(Render(params), ":");
    assert |params| > 0 ==> |Render(params)[0]| > 0 && paramString != "";
    if paramString != "" then prefix + ":" + paramString else prefix
  }

  /** A key or value the key format can carry unambiguously: no key holds
      `:` or `=`, and no value holds `:`. */
  predicate Plain(params: JsObject.Entries<string>) {
    forall i :: 0 <= i < |params| ==>
      ':' !in params[i].0 && '=' !in params[i].0 && ':' !in params[i].1
  }

  /** One `k=v` piece read back: the text before the first `=` and the rest. */
  function ParseEntry(piece: string): (e: (string, string))
    ensures '=' !in e.0
  {
    var parts := Split(piece, '=');
    (parts[0], Join(parts[1..], "="))
  }

  /** The parameters a key was generated from, read back. */
  function DecodeKey(prefix: string, key: string): (r: Option<JsObject.Entries<string>>)
    ensures r.Some? ==> StartsWith(key, prefix)
  {
    if !StartsWith(key, prefix) then None
    else if |key| == |prefix| then Some([])
    else if key[|prefix|] != ':' then None
    else
      var pieces := Split(key[|prefix| + 1..], ':');
      Some(seq(|pieces|, i requires 0 <= i < |pieces| => ParseEntry(pieces[i])))
  }

  lemma ParseRendered(k: string, v: string)
    requires '=' !in k
    ensures ParseEntry(k + "=" + v) == (k, v)
  {
    assert NoSeparator(k, CharIs('='));
    assert k + "=" + v == k + ['='] + v;
    SplitByAtSeparator(k, '=', v, CharIs('='));
    JoinSplit(v, '=');
  }

  /** Plain parameters are recovered from their key. */
  lemma DecodeGenerate(prefix: string, params: JsObject.Entries<string>)
    requires Plain(params)
    ensures DecodeKey(prefix, GenerateKey(prefix, params)) == Some(params)
  {
    var key := GenerateKey(prefix, params);
    if |params| > 0 {
      var pieces := Render(params);
      forall i | 0 <= i < |pieces| ensures ':' !in pieces[i] {
        assert pieces[i] == params[i].0 + "=" + params[i].1;
      }
      SplitJoin(pieces, ':');
      assert key[|prefix| + 1..] == Join(pieces, ":");
      var split := Split(key[|prefix| + 1..], ':');
      assert split == pieces;
      var decoded := seq(|split|, i requires 0 <= i < |split| => ParseEntry(split[i]));
      forall i | 0 <= i < |pieces| ensures decoded[i] == params[i] {
        ParseRendered(params[i].0, params[i].1);
      }
      assert decoded == params;
    }
  }

  /** Under one prefix, distinct plain parameter lists give distinct keys. */
  lemma GenerateKeyInjective(prefix: string, p: JsObject.Entries<string>, q: JsObject.Entries<string>)
    requires Plain(p) && Plain(q)
    ensures GenerateKey(prefix, p) == GenerateKey(prefix, q) <==> p == q
  {
    DecodeGenerate(prefix, p);
    DecodeGenerate(prefix, q);
  }
}

=== FILE: file_service.dfy ===
/** `FileService` (src/services/file.service.js): uploads and deletions
    routed to the provider `getFileProvider` selects. The world is the local
    disk, the S3 bucket and the number of clock readings taken so far; the
    environment supplies the configured storage, the clock, the resize
    transform and the S3 calls. */
module FileService {
  import opened Wrappers
  import opened Strings
  import opened Files
  import Providers
  import LocalProvider
  import S3Provider
  import Seqs

  datatype World = World(disk: LocalProvider.Disk, bucket: S3Provider.Bucket, ticks: nat)

  /** `appConfig.FILE_STORAGE`, `Date.now()` as its `i`-th reading, the
      `sharp` resize and the AWS client. */
  datatype Env = Env(
    fileStorage: Option<string>,
    clock: nat -> nat,
    resize: LocalProvider.Resize,
    s3: S3Provider.S3Api)

  /** The clock reading the next upload takes. */
  function Now(env: Env, w: World): nat {
    env.clock(w.ticks)
  }

  /** Whether the S3 store accepts the object an upload started at `now`
      puts under its generated key. */
  predicate S3Accepts(env: Env, file: UploadFile, options: UploadOptions, now: nat) {
    env.s3.put(S3Provider.Key(S3Provider.KeyFolder(options), now, file.meta.originalname), file.buffer, file.meta.mimetype).Success?
  }

  /** Whether the backend accepts an upload started at `now`: the local disk
      unless the resize rejects a compressed image, S3 when its store does. */
  predicate Accepts(env: Env, kind: ProviderKind, file: UploadFile, options: UploadOptions, now: nat) {
    match kind
    case Local => LocalProvider.Writes(file, options, env.resize)
    case S3 => S3Accepts(env, file, options, now)
  }

  /** `provider.upload(file, options)` on the selected backend. Each upload
      reads the clock once; a local upload fails exactly when the resize
      rejects a compressed image; a failed upload stores nothing. */
  function ProviderUpload(env: Env, w: World, kind: ProviderKind, file: UploadFile, options: UploadOptions): (a: Attempt<World>)
    ensures a.world.ticks == w.ticks + 1
    ensures a.result.Success? <==> Accepts(env, kind, file, options, Now(env, w))
    ensures kind == Local ==>
      var u := LocalProvider.Upload(w.disk, file, options, Now(env, w), env.resize);
      && (u.Failure? ==> a.result == Failure(u.error))
      && (u.Success? ==> a.result == Success(u.value.record) && a.world == w.(ticks := w.ticks + 1, disk := u.value.disk))
    ensures kind == S3 ==>
      var u := S3Provider.Upload(w.bucket, env.s3, file, options, Now(env, w));
      && (u.Failure? ==> a.result == Failure(u.error))
      && (u.Success? ==> a.result == Success(u.value.record) && a.world == w.(ticks := w.ticks + 1, bucket := u.value.bucket))
    ensures a.result.Success? ==>
      && a.result.value.provider == kind
      && a.result.value.size == file.meta.size
      && a.result.value.mimetype == file.meta.mimetype
      && EndsWith(a.result.value.locator, "-" + file.meta.originalname)
    ensures a.result.Failure? ==> a.world == w.(ticks := w.ticks + 1)
  {
    var now := Now(env, w);
    var next := w.(ticks := w.ticks + 1);
    StampedNameEndsWith(now, file.meta.originalname);
    match kind
    case Local =>
      (match LocalProvider.Upload(w.disk, file, options, now, env.resize)
       case Failure(e) => Attempt(Failure(e), next)
       case Success(u) => Attempt(Success(u.record), next.(disk := u.disk)))
    case S3 =>
      match S3Provider.Upload(w.bucket, env.s3, file, options, now)
      case Failure(e) => Attempt(Failure(e), next)
      case Success(u) =>
        var key := u.record.locator;
        assert key == S3Provider.KeyFolder(options) + "/" + StampedName(now, file.meta.originalname);
        EndsWithConcat(S3Provider.KeyFolder(options) + "/", StampedName(now, file.meta.originalname));
        EndsWithTrans(key, StampedName(now, file.meta.originalname), "-" + file.meta.originalname);
        Attempt(Success(u.record), next.(bucket := u.bucket))
  }

  /** `uploadSingle({ file, options, provider })`: without a file it fails
      with "File is required" before any provider is involved; otherwise it
      is the selected provider's upload. */
  function UploadSingle(env: Env, w: World, provider: Option<string>, file: Option<UploadFile>, options: UploadOptions): (a: Attempt<World>)
    ensures file.None? ==> a == Attempt(Failure("File is required"), w)
    ensures file.Some? ==>
      a == ProviderUpload(env, w, Providers.GetFileProvider(provider, env.fileStorage), file.value, options)
  {
    if file.None? then Attempt(Failure("File is required"), w)
    else ProviderUpload(env, w, Providers.GetFileProvider(provider, env.fileStorage), file.value, options)
  }

  /** `deleteFile({ fileId, provider })`: only the id reaches the provider,
      so a local deletion always looks directly below `public`. */
  function DeleteFile(env: Env, w: World, fileId: string, provider: Option<string>): (r: Result<World, string>)
    ensures Providers.GetFileProvider(provider, env.fileStorage) == Local ==>
      (r.Failure? <==> LocalProvider.FilePath("", fileId) !in w.disk) &&
      (r.Success? ==> r.value == w.(disk := w.disk - {"public/" + fileId}))
    ensures Providers.GetFileProvider(provider, env.fileStorage) == S3 ==>
      (fileId == "" ==> r == Failure("S3 key is required")) &&
      (r.Success? ==> r.value == w.(bucket := w.bucket - {fileId})) &&
      (fileId != "" ==> (r.Failure? <==> env.s3.remove(fileId).Some?)) &&
      (fileId != "" && r.Failure? ==> r.error == env.s3.remove(fileId).value)
  {
    match Providers.GetFileProvider(provider, env.fileStorage)
    case Local =>
      var disk :- LocalProvider.Delete(w.disk, fileId, "");
      Success(w.(disk := disk))
    case S3 =>
      var bucket :- S3Provider.Delete(w.bucket, env.s3, Some(fileId));
      Success(w.(bucket := bucket))
  }

  /** The uploads `files.map(...)` starts, in order, each reading the clock
      when it starts. */
  function UploadEach(env: Env, w: World, kind: ProviderKind, files: seq<UploadFile>, options: UploadOptions):
    (r: (seq<Result<FileRecord, string>>, World))
    ensures |r.0| == |files|
    ensures r.1.ticks == w.ticks + |files|
    ensures forall i :: 0 <= i < |files| && r.0[i].Success? ==>
      && r.0[i].value.provider == kind
      && r.0[i].value.size == files[i].meta.size
      && r.0[i].value.mimetype == files[i].meta.mimetype
      && EndsWith(r.0[i].value.locator, "-" + files[i].meta.originalname)
    decreases |files|
  {
    if |files| == 0 then ([], w)
    else
      var a := ProviderUpload(env, w, kind, files[0], options);
      var rest := UploadEach(env, a.world, kind, files[1..], options);
      ([a.result] + rest.0, rest.1)
  }

  /** Upload `i` of the batch succeeds exactly when its backend accepts
      it at the `i`-th clock reading after the start. */
  lemma {:induction false} UploadEachAcceptsAt(env: Env, w: World, kind: ProviderKind, files: seq<UploadFile>, options: UploadOptions, i: nat)
    requires i < |files|
    ensures UploadEach(env, w, kind, files, options).0[i].Success? <==> Accepts(env, kind, files[i], options, env.clock(w.ticks + i))
    decreases i
  {
    var a := ProviderUpload(env, w, kind, files[0], options);
    var rest := UploadEach(env, a.world, kind, files[1..], options).0;
    assert UploadEach(env, w, kind, files, options).0 == [a.result] + rest;
    if i > 0 {
      UploadEachAcceptsAt(env, a.world, kind, files[1..], options, i - 1);
      assert files[1..][i - 1] == files[i];
      assert a.world.ticks + (i - 1) == w.ticks + i;
    }
  }

  /** `UploadEachAcceptsAt` for every upload of the batch. */
  lemma UploadEachAccepts(env: Env, w: World, kind: ProviderKind, files: seq<UploadFile>, options: UploadOptions)
    ensures var rs := UploadEach(env, w, kind, files, options).0;
      forall i :: 0 <= i < |files| ==> (rs[i].Success? <==> Accepts(env, kind, files[i], options, env.clock(w.ticks + i)))
  {
    forall i | 0 <= i < |files|
      ensures UploadEach(env, w, kind, files, options).0[i].Success? <==> Accepts(env, kind, files[i], options, env.clock(w.ticks + i))
    {
      UploadEachAcceptsAt(env, w, kind, files, options, i);
    }
  }

  /** A batch of one file is that file's provider upload. */
  lemma UploadEachOne(env: Env, w: World, kind: ProviderKind, file: UploadFile, options: UploadOptions)
    ensures var a := ProviderUpload(env, w, kind, file, options);
      UploadEach(env, w, kind, [file], options) == ([a.result], a.world)
  {
    var a := ProviderUpload(env, w, kind, file, options);
    assert [file][0] == file && [file][1..] == [];
    assert UploadEach(env, a.world, kind, [], options) == ([], a.world);
    assert UploadEach(env, w, kind, [file], options) == ([a.result] + [], a.world);
    assert [a.result] + [] == [a.result];
  }

  /** Uploading `xs + ys` uploads `xs`, then `ys` from the world `xs` left. */
  lemma {:induction false} UploadEachAppend(env: Env, w: World, kind: ProviderKind, xs: seq<UploadFile>, ys: seq<UploadFile>, options: UploadOptions)
    ensures var first := UploadEach(env, w, kind, xs, options);
      var second := UploadEach(env, first.1, kind, ys, options);
      UploadEach(env, w, kind, xs + ys, options) == (first.0 + second.0, second.1)
    decreases |xs|
  {
    if |xs| == 0 {
      assert xs + ys == ys;
      assert UploadEach(env, w, kind, xs, options) == ([], w);
      var second := UploadEach(env, w, kind, ys, options);
      assert [] + second.0 == second.0;
    } else {
      var a := ProviderUpload(env, w, kind, xs[0], options);
      Seqs.DropAppend(xs, ys);
      UploadEachAppend(env, a.world, kind, xs[1..], ys, options);
      var first := UploadEach(env, a.world, kind, xs[1..], options);
      var second := UploadEach(env, first.1, kind, ys, options);
      assert UploadEach(env, w, kind, xs, options) == ([a.result] + first.0, first.1);
      assert UploadEach(env, w, kind, xs + ys, options) == ([a.result] + (first.0 + second.0), second.1);
      Seqs.AppendAssoc([a.result], first.0, second.0);
    }
  }

  /** Upload `i` of the batch is the provider upload of file `i`, started
      in the world the first `i` uploads left. */
  lemma {:induction false} UploadEachAt(env: Env, w: World, kind: ProviderKind, files: seq<UploadFile>, options: UploadOptions, i: nat)
    requires i < |files|
    ensures UploadEach(env, w, kind, files, options).0[i] ==
      ProviderUpload(env, UploadEach(env, w, kind, files[..i], options).1, kind, files[i], options).result
  {
    UploadEachAppend(env, w, kind, files[..i], files[i..], options);
    assert files[..i] + files[i..] == files;
    var before := UploadEach(env, w, kind, files[..i], options);
    var a := ProviderUpload(env, before.1, kind, files[i], options);
    assert files[i..][0] == files[i];
    assert UploadEach(env, before.1, kind, files[i..], options).0[0] == a.result;
  }

  /** The first error among the attempts, if any. */
  function FirstError(rs: seq<Result<FileRecord, string>>): (e: Option<string>)
    ensures e.None? <==> forall i :: 0 <= i < |rs| ==> rs[i].Success?
    ensures e.Some? ==> exists i :: 0 <= i < |rs| && rs[i] == Failure(e.value) && forall j :: 0 <= j < i ==> rs[j].Success?
  {
    if |rs| == 0 then None
    else if rs[0].Failure? then Some(rs[0].error)
    else FirstError(rs[1..])
  }

  /** The records of attempts that all succeeded, in order. */
  function Records(rs: seq<Result<FileRecord, string>>): (vs: seq<FileRecord>)
    requires forall i :: 0 <= i < |rs| ==> rs[i].Success?
    ensures |vs| == |rs| && forall i :: 0 <= i < |rs| ==> Success(vs[i]) == rs[i]
  {
    seq(|rs|, i requires 0 <= i < |rs| => rs[i].value)
  }

  /** `uploadMultiple({ files, options, provider })`: no files gives `[]`;
      otherwise every upload runs, and the call resolves to one record per
      file in input order, or fails when any upload fails; on local storage
      that is exactly when the resize rejects one of the compressed images. */
  function UploadMultiple(env: Env, w: World, provider: Option<string>, files: Option<seq<UploadFile>>, options: UploadOptions):
    (r: (Result<seq<FileRecord>, string>, World))
    ensures files.None? || |files.value| == 0 ==> r == (Success([]), w)
    ensures r.0.Success? && files.Some? ==>
      var kind := Providers.GetFileProvider(provider, env.fileStorage);
      && |r.0.value| == |files.value|
      && forall i :: 0 <= i < |files.value| ==>
        && r.0.value[i].provider == kind
        && r.0.value[i].size == files.value[i].meta.size
        && r.0.value[i].mimetype == files.value[i].meta.mimetype
        && EndsWith(r.0.value[i].locator, "-" + files.value[i].meta.originalname)
    ensures files.Some? ==>
      var kind := Providers.GetFileProvider(provider, env.fileStorage);
      (r.0.Success? <==> forall i :: 0 <= i < |files.value| ==> Accepts(env, kind, files.value[i], options, env.clock(w.ticks + i)))
    ensures files.Some? && Providers.GetFileProvider(provider, env.fileStorage) == Local ==>
      (r.0.Success? <==> forall i :: 0 <= i < |files.value| ==> LocalProvider.Writes(files.value[i], options, env.resize))
    ensures files.Some? && Providers.GetFileProvider(provider, env.fileStorage) == S3 ==>
      (r.0.Success? <==> forall i :: 0 <= i < |files.value| ==> S3Accepts(env, files.value[i], options, env.clock(w.ticks + i)))
    ensures files.Some? && |files.value| > 0 ==>
      var kind := Providers.GetFileProvider(provider, env.fileStorage);
      var each := UploadEach(env, w, kind, files.value, options);
      && r.1 == each.1
      && (r.0.Success? ==> forall i :: 0 <= i < |files.value| ==> Success(r.0.value[i]) == each.0[i])
      && (r.0.Failure? ==> exists i :: 0 <= i < |files.value| && each.0[i] == Failure(r.0.error) && forall j :: 0 <= j < i ==> each.0[j].Success?)
  {
    if files.None? || |files.value| == 0 then (Success([]), w)
    else
      var kind := Providers.GetFileProvider(provider, env.fileStorage);
      var (rs, w') := UploadEach(env, w, kind, files.value, options);
      UploadEachAccepts(env, w, kind, files.value, options);
      match FirstError(rs)
      case Some(e) => (Failure(e), w')
      case None => (Success(Records(rs)), w')
  }

  /** Each record `uploadMultiple` resolves to is the provider's answer for
      that file, uploaded in the world the earlier files left, and the call
      ends in the world the whole batch leaves. */
  lemma UploadMultipleRecords(env: Env, w: World, provider: Option<string>, files: seq<UploadFile>, options: UploadOptions)
    ensures var kind := Providers.GetFileProvider(provider, env.fileStorage);
      var r := UploadMultiple(env, w, provider, Some(files), options);
      && r.1 == UploadEach(env, w, kind, files, options).1
      && (r.0.Success? ==> forall i :: 0 <= i < |files| ==>
            Success(r.0.value[i]) == ProviderUpload(env, UploadEach(env, w, kind, files[..i], options).1, kind, files[i], options).result)
  {
    var kind := Providers.GetFileProvider(provider, env.fileStorage);
    forall i | 0 <= i < |files|
      ensures UploadEach(env, w, kind, files, options).0[i] ==
        ProviderUpload(env, UploadEach(env, w, kind, files[..i], options).1, kind, files[i], options).result
    {
      UploadEachAt(env, w, kind, files, options, i);
    }
  }

  /** On one file the two service operations agree: `uploadMultiple` of
      `[f]` resolves to `[uploadSingle(f)]`, with the same effect. */
  lemma MultipleOfOne(env: Env, w: World, provider: Option<string>, file: UploadFile, options: UploadOptions)
    ensures var single := UploadSingle(env, w, provider, Some(file), options);
      var multiple := UploadMultiple(env, w, provider, Some([file]), options);
      && multiple.1 == single.world
      && (single.result.Success? <==> multiple.0.Success?)
      && (single.result.Success? ==> multiple.0.value == [single.result.value])
  {
    var kind := Providers.GetFileProvider(provider, env.fileStorage);
    var a := ProviderUpload(env, w, kind, file, options);
    var files := [file];
    assert files[0] == file && files[1..] == [];
    var rest := UploadEach(env, a.world, kind, files[1..], options);
    assert rest == ([], a.world);
    assert UploadEach(env, w, kind, files, options) == ([a.result] + rest.0, rest.1);
  }
}

=== FILE: file_types.dfy ===
/** File-name classification of `FileUtils` (src/utils/file.util.js):
    extension extraction, the category table, the MIME map, the allow-list
    check and unique-name generation. Paths are POSIX paths. */
module FileTypes {
  import opened Wrappers
  import opened Strings
  import JsObject

  /** `FILE_TYPES`, in declaration order (the order `Object.entries` yields).
      Each list is its own constant so that a proof about one entry does not
      unfold the others. */
  const Categories: JsObject.Entries<seq<string>> := [
    ("image", ImageExts),
    ("pdf", PdfExts),
    ("video", VideoExts),
    ("audio", AudioExts),
    ("document", DocumentExts),
    ("archive", ArchiveExts),
    ("executable", ExecutableExts),
    ("code", CodeExts),
    ("text", TextExts),
    ("spreadsheet", SpreadsheetExts),
    ("presentation", PresentationExts),
    ("font", FontExts),
    ("cad", CadExts),
    ("gis", GisExts),
    ("model3d", Model3dExts),
    ("ebook", EbookExts),
    ("web", WebExts),
    ("config", ConfigExts),
    ("backup", BackupExts),
    ("database", DatabaseExts),
    ("design", DesignExts)
  ]

  const ImageExts: seq<string> := ["jpg", "jpeg", "png", "webp", "gif", "bmp", "svg", "tiff"]
  const PdfExts: seq<string> := ["pdf"]
  const VideoExts: seq<string> := ["mp4", "mov", "avi", "mkv", "flv", "wmv", "webm"]
  const AudioExts: seq<string> := ["mp3", "wav", "aac", "ogg", "m4a", "flac"]
  const DocumentExts: seq<string> := ["doc", "docx", "xls", "xlsx", "ppt", "pptx", "txt", "pdf", "odt"]
  const ArchiveExts: seq<string> := ["zip", "rar", "7z", "tar", "gz", "bz2"]
  const ExecutableExts: seq<string> := ["exe", "bat", "sh", "bin", "msi", "app"]
  const CodeExts: seq<string> := ["js", "jsx", "ts", "tsx", "html", "css", "java", "py", "rb", "php", "c", "cpp", "cs", "go", "rs"]
  const TextExts: seq<string> := ["txt", "md", "rtf", "log"]
  const SpreadsheetExts: seq<string> := ["xls", "xlsx", "csv", "ods"]
  const PresentationExts: seq<string> := ["ppt", "pptx", "key"]
  const FontExts: seq<string> := ["ttf", "otf", "woff", "woff2"]
  const CadExts: seq<string> := ["dwg", "dxf", "step", "stp"]
  const GisExts: seq<string> := ["shp", "kml", "gpx", "geojson"]
  const Model3dExts: seq<string> := ["obj", "fbx", "stl", "3ds", "blend"]
  const EbookExts: seq<string> := ["epub", "mobi", "azw", "pdf"]
  const WebExts: seq<string> := ["html", "css", "js", "json", "xml"]
  const ConfigExts: seq<string> := ["ini", "cfg", "conf", "yaml", "yml", "env"]
  const BackupExts: seq<string> := ["bak", "tmp", "old"]
  const DatabaseExts: seq<string> := ["sql", "sqlite", "db", "mdb"]
  const DesignExts: seq<string> := ["psd", "xd", "fig", "ai", "sketch"]

  /** The properties every plain object inherits from `Object.prototype`;
      reading one of them from `FILE_TYPES` or the MIME map finds a member
      rather than `undefined`. */
  const ObjectPrototypeMembers: set<string> := {
    "constructor", "__defineGetter__", "__defineSetter__", "hasOwnProperty",
    "__lookupGetter__", "__lookupSetter__", "isPrototypeOf", "propertyIsEnumerable",
    "toString", "valueOf", "__proto__", "toLocaleString"
  }

  /** The local MIME map of `getMimeType`. */
  const MimeTable: JsObject.Entries<string> := [
    ("jpg", "image/jpeg"), ("jpeg", "image/jpeg"), ("png", "image/png"),
    ("webp", "image/webp"), ("gif", "image/gif"), ("svg", "image/svg+xml"),
    ("mp4", "video/mp4"), ("mp3", "audio/mpeg"), ("pdf", "application/pdf"),
    ("json", "application/json"), ("txt", "text/plain"), ("html", "text/html")
  ]

  const OctetStream := "application/octet-stream"

  // ---------------------------------------------------------------- paths

  function DropTrailingSlashes(p: string): (q: string)
    ensures |q| <= |p| && q == p[..|q|]
    ensures |q| == 0 || q[|q| - 1] != '/'
  {
    if |p| > 0 && p[|p| - 1] == '/' then DropTrailingSlashes(p[..|p| - 1]) else p
  }

  /** `path.basename(p)`: the last segment once trailing slashes are dropped. */
  function Basename(p: string): (b: string)
    ensures '/' !in b
  {
    var q := DropTrailingSlashes(p);
    var slash := LastIndexOf(q, '/');
    if slash.None? then q else q[slash.value + 1..]
  }

  /** `path.extname(p)`: from the last dot of the base name to its end; empty
      when there is no dot, when the only dot starts the name, or for `..`. */
  function ExtName(p: string): (e: string)
    ensures e == "" || (e[0] == '.' && '.' !in e[1..] && EndsWith(Basename(p), e))
    ensures '.' !in Basename(p) ==> e == ""
    ensures e != "" ==> |e| < |Basename(p)|
  {
    var b := Basename(p);
    var dot := LastIndexOf(b, '.');
    if dot.None? || dot.value == 0 || b == ".." then ""
    else
      assert b[dot.value..][1..] == b[dot.value + 1..];
      b[dot.value..]
  }

  /** `s.replace(".", "")`: the first dot removed. */
  function RemoveFirstDot(s: string): (t: string)
    ensures '.' in s ==> |t| == |s| - 1
    ensures '.' !in s ==> t == s
  {
    if |s| == 0 then s
    else if s[0] == '.' then s[1..]
    else [s[0]] + RemoveFirstDot(s[1..])
  }

  // ---------------------------------------------------------------- FileUtils

  /** `getExtension`. */
  function GetExtension(filename: string): (ext: string)
    ensures '.' !in ext && '/' !in ext
    ensures '.' !in Basename(filename) ==> ext == ""
    ensures forall i :: 0 <= i < |ext| ==> !IsUpper(ext[i])
    ensures ext != "" ==> |ext| + 1 < |Basename(filename)|
  {
    var e := ExtName(filename);
    var x := RemoveFirstDot(e);
    assert e != "" ==> x == e[1..];
    ToLowerNonLetter(x, '.');
    ToLowerNonLetter(x, '/');
    ToLower(x)
  }

  /** A file name built from a stem and an extension: the extension comes
      back lower-cased, whatever its case. */
  lemma ExtensionOfName(stem: string, e: string)
    requires stem != "" && stem[0] != '.' && '/' !in stem
    requires '.' !in e && '/' !in e
    ensures GetExtension(stem + "." + e) == ToLower(e)
  {
    var name := stem + "." + e;
    PlainBasename(name);
    assert name == stem + ['.'] + e;
    LastIndexOfAfter(stem, '.', e);
    assert name[0] == stem[0];
    assert name[|stem|..] == "." + e;
    assert ExtName(name) == "." + e;
  }

  /** A name without any dot has no extension. */
  lemma NoExtension(name: string)
    requires '.' !in name && '/' !in name
    ensures GetExtension(name) == ""
  {
    assert DropTrailingSlashes(name) == name;
  }

  /** `isType`: `Failure` is the `TypeError` thrown when the category names an
      inherited `Object.prototype` member. */
  function IsType(filename: string, category: string): (r: Result<bool, string>)
    ensures r.Failure? <==> category in ObjectPrototypeMembers
    ensures r.Success? ==>
      (r.value <==> category in JsObject.Keys(Categories)
                    && GetExtension(filename) in JsObject.Get(Categories, category).value)
  {
    if category in ObjectPrototypeMembers then
      Failure("FILE_TYPES[type]?.includes is not a function")
    else
      match JsObject.Get(Categories, category)
      case None => Success(false)
      case Some(exts) => Success(GetExtension(filename) in exts)
  }

  /** The index of the first table entry whose list holds `ext`. */
  function FirstMatch(table: JsObject.Entries<seq<string>>, ext: string): (r: Option<nat>)
    ensures r.None? <==> forall i :: 0 <= i < |table| ==> ext !in table[i].1
    ensures r.Some? ==> r.value < |table| && ext in table[r.value].1
    ensures r.Some? ==> forall j :: 0 <= j < r.value ==> ext !in table[j].1
  {
    if |table| == 0 then None
    else if ext in table[0].1 then Some(0)
    else
      match FirstMatch(table[1..], ext)
      case None => None
      case Some(i) => Some(i + 1)
  }

  /** `getCategory` against a category table: the name of the first entry
      whose list holds the extension, `"unknown"` when none does. */
  function CategoryIn(table: JsObject.Entries<seq<string>>, ext: string): (c: string)
    ensures (forall i :: 0 <= i < |table| ==> ext !in table[i].1) ==> c == "unknown"
    ensures (exists i :: 0 <= i < |table| && ext in table[i].1) ==>
      exists i :: 0 <= i < |table| && c == table[i].0 && ext in table[i].1
        && forall j :: 0 <= j < i ==> ext !in table[j].1
  {
    match FirstMatch(table, ext)
    case None => "unknown"
    case Some(i) => table[i].0
  }

  /** `getCategory`. */
  function GetCategory(filename: string): string {
    CategoryIn(Categories, GetExtension(filename))
  }

  /** No category of the table is called "unknown", so that answer means no
      category lists the extension. */
  lemma CategoryUnknownIff(filename: string)
    ensures GetCategory(filename) == "unknown" <==>
      forall i :: 0 <= i < |Categories| ==> GetExtension(filename) !in Categories[i].1
  {
    assert "unknown" !in JsObject.Keys(Categories);
  }

  /** The position of each category name in the table; -1 for the rest. */
  function CategoryIndex(name: string): int {
    if name == "image" then 0 else if name == "pdf" then 1
    else if name == "video" then 2 else if name == "audio" then 3
    else if name == "document" then 4 else if name == "archive" then 5
    else if name == "executable" then 6 else if name == "code" then 7
    else if name == "text" then 8 else if name == "spreadsheet" then 9
    else if name == "presentation" then 10 else if name == "font" then 11
    else if name == "cad" then 12 else if name == "gis" then 13
    else if name == "model3d" then 14 else if name == "ebook" then 15
    else if name == "web" then 16 else if name == "config" then 17
    else if name == "backup" then 18 else if name == "database" then 19
    else if name == "design" then 20 else -1
  }

  /** The category names are distinct: each one leads back to its own
      position. */
  lemma CategoryNamesDistinct()
    ensures JsObject.DistinctKeys(Categories)
  {
    forall i | 0 <= i < |Categories| ensures CategoryIndex(Categories[i].0) == i {
    }
  }

  /** No category name is an inherited member or "unknown". */
  lemma CategoryNamesOwn()
    ensures forall k :: k in JsObject.Keys(Categories) ==> k !in ObjectPrototypeMembers
    ensures "unknown" !in JsObject.Keys(Categories)
  {
  }

  /** In a table with distinct names, none "unknown", the category found
      for an extension lists it, and an extension some category lists has
      a category. */
  lemma CategoryInListed(table: JsObject.Entries<seq<string>>, ext: string)
    requires JsObject.DistinctKeys(table) && "unknown" !in JsObject.Keys(table)
    ensures CategoryIn(table, ext) != "unknown" ==>
      JsObject.Get(table, CategoryIn(table, ext)).Some? && ext in JsObject.Get(table, CategoryIn(table, ext)).value
    ensures (exists c :: c in JsObject.Keys(table) && ext in JsObject.Get(table, c).value) ==> CategoryIn(table, ext) != "unknown"
  {
    if CategoryIn(table, ext) != "unknown" {
      var i :| 0 <= i < |table| && CategoryIn(table, ext) == table[i].0 && ext in table[i].1
        && forall j :: 0 <= j < i ==> ext !in table[j].1;
      FirstEntryWins(table, i);
    }
    if c :| c in JsObject.Keys(table) && ext in JsObject.Get(table, c).value {
      var exts := JsObject.Get(table, c).value;
      var i :| 0 <= i < |table| && table[i] == (c, exts);
    }
  }

  /** `getCategory` names a category exactly when `isType` accepts the file
      for some category: the one `getCategory` names does. */
  lemma CategoryKnownIffSomeType(filename: string)
    ensures GetCategory(filename) != "unknown" <==> exists c :: IsType(filename, c) == Success(true)
    ensures GetCategory(filename) != "unknown" ==> IsType(filename, GetCategory(filename)) == Success(true)
  {
    var ext := GetExtension(filename);
    CategoryNamesDistinct();
    CategoryNamesOwn();
    CategoryInListed(Categories, ext);
    if GetCategory(filename) != "unknown" {
      assert IsType(filename, GetCategory(filename)) == Success(true);
    }
    if c :| IsType(filename, c) == Success(true) {
      assert c in JsObject.Keys(Categories) && ext in JsObject.Get(Categories, c).value;
    }
  }

  /** The first entry of a key is what `Get` finds. */
  lemma {:induction false} FirstEntryWins<V>(o: JsObject.Entries<V>, i: nat)
    requires i < |o|
    requires forall j :: 0 <= j < i ==> o[j].0 != o[i].0
    ensures JsObject.Get(o, o[i].0) == Some(o[i].1)
  {
    if i > 0 {
      FirstEntryWins(o[1..], i - 1);
    }
  }

  /** The category of an extension is the name of the first entry listing it. */
  lemma CategoryAt(table: JsObject.Entries<seq<string>>, ext: string, i: nat)
    requires i < |table| && ext in table[i].1
    requires forall j :: 0 <= j < i ==> ext !in table[j].1
    ensures CategoryIn(table, ext) == table[i].0
  {
  }

  /** A name built from a stem and an extension falls in the category of
      the lower-cased extension. */
  lemma CategoryOfName(stem: string, e: string)
    requires stem != "" && stem[0] != '.' && '/' !in stem
    requires '.' !in e && '/' !in e
    ensures GetCategory(stem + "." + e) == CategoryIn(Categories, ToLower(e))
  {
    ExtensionOfName(stem, e);
  }

  /** "pdf" is listed under `pdf`, `document` and `ebook`; the first wins. */
  lemma PdfCategory(stem: string)
    requires stem != "" && stem[0] != '.' && '/' !in stem
    ensures GetCategory(stem + "." + "pdf") == "pdf"
  {
    PdfFirstListed();
    CategoryOfName(stem, "pdf");
  }

  lemma PdfFirstListed()
    ensures CategoryIn(Categories, ToLower("pdf")) == "pdf"
  {
    assert ToLower("pdf") == "pdf";
    assert "pdf" !in Categories[0].1;
    CategoryAt(Categories, "pdf", 1);
  }

  /** "txt" is listed under `document` before `text`. */
  lemma TxtCategory(stem: string)
    requires stem != "" && stem[0] != '.' && '/' !in stem
    ensures GetCategory(stem + "." + "txt") == "document"
  {
    TxtFirstListed();
    CategoryOfName(stem, "txt");
  }

  lemma TxtFirstListed()
    ensures CategoryIn(Categories, ToLower("txt")) == "document"
  {
    assert ToLower("txt") == "txt";
    assert "txt" !in Categories[0].1 && "txt" !in Categories[1].1;
    assert "txt" !in Categories[2].1 && "txt" !in Categories[3].1;
    CategoryAt(Categories, "txt", 4);
  }

  /** A name without a dot has the unknown category. */
  lemma NoExtensionUnknown(name: string)
    requires '.' !in name && '/' !in name
    ensures GetCategory(name) == "unknown"
  {
    NoExtension(name);
    EmptyNotListed();
  }

  lemma EmptyNotListed()
    ensures forall i :: 0 <= i < |Categories| ==> "" !in Categories[i].1
  {
  }

  /** What `mimeMap[ext] || "application/octet-stream"` yields: a string, or
      the inherited member found for `constructor` and `__proto__`. */
  datatype MimeLookup = Mime(mime: string) | Inherited(member: string)

  /** `mimeMap[ext] || "application/octet-stream"` for a map `table`: an own
      non-empty entry wins, then an inherited `Object.prototype` member, then
      the octet-stream default. */
  function MimeIn(table: JsObject.Entries<string>, ext: string): (m: MimeLookup)
    ensures m.Inherited? <==> ext !in JsObject.Keys(table) && ext in ObjectPrototypeMembers
    ensures m.Inherited? ==> m.member == ext
    ensures m.Mime? ==> m.mime == OctetStream || (ext, m.mime) in table
    ensures ext !in JsObject.Keys(table) && ext !in ObjectPrototypeMembers ==> m == Mime(OctetStream)
    ensures forall v :: JsObject.Get(table, ext) == Some(v) && v != "" ==> m == Mime(v)
  {
    match JsObject.Get(table, ext)
    case Some(mime) => if mime != "" then Mime(mime) else Mime(OctetStream)
    case None => if ext in ObjectPrototypeMembers then Inherited(ext) else Mime(OctetStream)
  }

  /** `getMimeType`. */
  function GetMimeType(filename: string): MimeLookup {
    MimeIn(MimeTable, GetExtension(filename))
  }

  /** Of the inherited members, only `constructor` and `__proto__` are
      spelled without capitals, so only they can be a lower-cased extension. */
  lemma LowerCasePrototypeMembers(x: string)
    requires forall i :: 0 <= i < |x| ==> !IsUpper(x[i])
    ensures x in ObjectPrototypeMembers <==> x == "constructor" || x == "__proto__"
  {
    CapitalizedMembers();
  }

  predicate HasUpper(m: string) {
    exists i :: 0 <= i < |m| && IsUpper(m[i])
  }

  /** Every inherited member other than `constructor` and `__proto__` has a
      capital letter. */
  lemma CapitalizedMembers()
    ensures forall m :: m in ObjectPrototypeMembers && m != "constructor" && m != "__proto__" ==> HasUpper(m)
  {
    assert IsUpper("__defineGetter__"[8]) && IsUpper("__defineSetter__"[8]);
    assert IsUpper("__lookupGetter__"[8]) && IsUpper("__lookupSetter__"[8]);
    assert IsUpper("hasOwnProperty"[3]) && IsUpper("isPrototypeOf"[2]);
    assert IsUpper("propertyIsEnumerable"[8]) && IsUpper("toString"[2]);
    assert IsUpper("valueOf"[5]) && IsUpper("toLocaleString"[2]);
  }

  /** Every value of the MIME map is a non-empty type other than the default. */
  lemma MimeTableValues()
    ensures forall i :: 0 <= i < |MimeTable| ==> MimeTable[i].1 != "" && MimeTable[i].1 != OctetStream
  {
  }

  /** A file gets the octet-stream default exactly when its extension is
      neither in the MIME map nor one of the two lower-case inherited names. */
  lemma OctetStreamIff(filename: string)
    ensures GetMimeType(filename) == Mime(OctetStream) <==>
      GetExtension(filename) !in JsObject.Keys(MimeTable) + ["constructor", "__proto__"]
  {
    var ext := GetExtension(filename);
    LowerCasePrototypeMembers(ext);
    MimeTableValues();
    var m := MimeIn(MimeTable, ext);
    if ext in JsObject.Keys(MimeTable) {
      var v := JsObject.Get(MimeTable, ext).value;
      assert (ext, v) in MimeTable;
      var i :| 0 <= i < |MimeTable| && MimeTable[i] == (ext, v);
      assert m == Mime(v);
    }
  }

  /** The MIME type does not depend on the letter case of the extension. */
  lemma MimeTypeIgnoresCase(stem: string, e: string)
    requires stem != "" && stem[0] != '.' && '/' !in stem
    requires '.' !in e && '/' !in e
    ensures GetMimeType(stem + "." + e) == GetMimeType(stem + "." + ToLower(e))
  {
    ExtensionOfName(stem, e);
    ExtensionOfName(stem, ToLower(e));
    ToLowerIdempotent(e);
  }

  /** `isAllowed`. */
  function IsAllowed(filename: string, allowed: seq<string>): (ok: bool)
    ensures ok <==> exists i :: 0 <= i < |allowed| && allowed[i] == GetExtension(filename)
    ensures allowed == [] ==> !ok
  {
    GetExtension(filename) in allowed
  }

  // ---------------------------------------------------------------- unique names

  /** `path.basename(p, suffix)` for the non-empty suffix `uniqueFilename`
      passes: the suffix is cut from the base name when the name ends with it
      and is not the suffix itself. A path with no base name (empty or all
      slashes) comes back whole when the suffix is no longer than it, and
      as "" otherwise. */
  function BasenameWithout(p: string, suffix: string): (b: string)
    requires |suffix| > 0
  {
    if suffix == p then ""
    else
      var base := Basename(p);
      if base == "" then (if |suffix| <= |p| then p else "")
      else if EndsWith(base, suffix) && base != suffix then base[..|base| - |suffix|]
      else base
  }

  /** A name without slashes is its own base name. */
  lemma PlainBasename(name: string)
    requires '/' !in name
    ensures Basename(name) == name
  {
    assert DropTrailingSlashes(name) == name;
  }

  /** The tail `uniqueFilename` appends: `-<now>.<ext>`. */
  function Stamp(now: nat, ext: string): string {
    "-" + Decimal(now) + "." + ext
  }

  /** `uniqueFilename(original)` as written, with `Date.now()` as `now`. */
  function UniqueFilename(original: string, now: nat): (r: string)
    ensures EndsWith(r, Stamp(now, GetExtension(original)))
  {
    var ext := GetExtension(original);
    var name := BasenameWithout(original, "." + ext);
    EndsWithConcat(name, Stamp(now, ext));
    name + Stamp(now, ext)
  }

  /** As written, the extension is cut from the name only when it is already
      lower case. */
  lemma UniqueFilenameAsWritten(stem: string, e: string, now: nat)
    requires stem != "" && stem[0] != '.' && '/' !in stem
    requires '.' !in e && '/' !in e
    ensures UniqueFilename(stem + "." + e, now)
      == (if ToLower(e) == e then stem else stem + "." + e) + Stamp(now, ToLower(e))
  {
    ExtensionOfName(stem, e);
    CutLowerCaseExtension(stem, e);
  }

  lemma CutLowerCaseExtension(stem: string, e: string)
    requires stem != "" && '/' !in stem && '.' !in e && '/' !in e
    ensures BasenameWithout(stem + "." + e, "." + ToLower(e))
      == if ToLower(e) == e then stem else stem + "." + e
  {
    var name := stem + "." + e;
    PlainBasename(name);
    var suffix := "." + ToLower(e);
    assert |suffix| < |name|;
    assert name[|name| - |suffix|..] == "." + e;
    var cut := BasenameWithout(name, suffix);
    if ToLower(e) == e {
      assert name[..|name| - |suffix|] == stem;
      assert cut == stem;
    } else {
      assert "." + e != suffix by {
        assert ("." + e)[1..] == e && suffix[1..] == ToLower(e);
      }
      assert !EndsWith(name, suffix);
      assert cut == name;
    }
  }

  /** "Photo.JPG" keeps its upper-case extension inside the generated name. */
  lemma UpperCaseExtensionKept(now: nat)
    ensures UniqueFilename("Photo.JPG", now) == "Photo.JPG" + Stamp(now, "jpg")
  {
    assert "Photo.JPG" == "Photo" + "." + "JPG";
    assert ToLower("JPG") == "jpg";
    UniqueFilenameAsWritten("Photo", "JPG", now);
  }

  /** A name without extension ends in a dot: "README" gives "README-<now>.". */
  lemma MissingExtensionLeavesDot(name: string, now: nat)
    requires name != "" && '.' !in name && '/' !in name
    ensures UniqueFilename(name, now) == name + "-" + Decimal(now) + "."
  {
    NoExtension(name);
    PlainBasename(name);
    assert !EndsWith(name, ".");
    assert Stamp(now, "") == "-" + Decimal(now) + ".";
  }

  /** The tail `uniqueFilename` evidently means to append: `-<now>`, then
      `.<ext>` only when there is an extension. */
  function IntendedStamp(now: nat, ext: string): string {
    if ext == "" then "-" + Decimal(now) else "-" + Decimal(now) + "." + ext
  }

  /** `uniqueFilename` as its use of `path.basename` intends: the extension is
      removed from the name whatever its case, and a name without extension
      gets no trailing dot. */
  function UniqueFilenameIntended(original: string, now: nat): (r: string)
    ensures EndsWith(r, IntendedStamp(now, GetExtension(original)))
  {
    var ext := GetExtension(original);
    var base := Basename(original);
    var name := if ext == "" then base else base[..|base| - |ext| - 1];
    EndsWithConcat(name, IntendedStamp(now, ext));
    name + IntendedStamp(now, ext)
  }

  /** The corrected name replaces the extension, whatever its case, by the stamp. */
  lemma UniqueFilenameIntendedShape(stem: string, e: string, now: nat)
    requires stem != "" && stem[0] != '.' && '/' !in stem
    requires e != "" && '.' !in e && '/' !in e
    ensures UniqueFilenameIntended(stem + "." + e, now) == stem + IntendedStamp(now, ToLower(e))
  {
    var name := stem + "." + e;
    var ext := ToLower(e);
    assert Basename(name) == name by { PlainBasename(name); }
    assert GetExtension(name) == ext by { ExtensionOfName(stem, e); }
    IntendedWithExtension(name, now, name, ext);
    assert name[..|name| - |ext| - 1] == stem;
  }

  lemma IntendedWithExtension(original: string, now: nat, base: string, ext: string)
    requires base == Basename(original) && ext == GetExtension(original) && ext != ""
    ensures |ext| < |base|
    ensures UniqueFilenameIntended(original, now) == base[..|base| - |ext| - 1] + IntendedStamp(now, ext)
  {
  }

  /** The corrected name of a file without extension has no trailing dot. */
  lemma UniqueFilenameIntendedNoExtension(name: string, now: nat)
    requires '.' !in name && '/' !in name
    ensures UniqueFilenameIntended(name, now) == name + "-" + Decimal(now)
  {
    NoExtension(name);
    PlainBasename(name);
  }
}

=== FILE: file_worker.dfy ===
/** The file job handler (src/workers/file_worker.js) run on one job at a
    time. Staged files live in a temp store; uploads and deletions go to a
    service with a state of its own (`W`) that may fail. Every file access
    and service call the handler makes is recorded, in order, in a trace. */
module FileWorker {
  import opened Wrappers
  import opened Seqs
  import opened Files
  import JsObject

  /** `fileService.uploadSingle` and `fileService.deleteFile` for a given
      provider argument. */
  datatype Services<!W> = Services(
    upload: (W, Option<string>, UploadFile, UploadOptions) -> Attempt<W>,
    delete: (W, Option<string>, string) -> Result<W, string>)

  /** What the handler does to the outside world. An upload step keeps the
      service's answer: the record it resolved to, or its error. */
  datatype Step =
    | Read(path: string)
    | Upload(file: UploadFile, options: UploadOptions, answer: Result<FileRecord, string>)
    | Unlink(path: string)
    | Delete(fileId: string)

  /** Why a job fails: an error the handler throws itself, a staged file
      that is not there, a payload value of the wrong kind, or the
      service's own error. */
  datatype JobError =
    | Thrown(message: string)
    | NoSuchFile(path: string)
    | BadPayload(key: string)
    | ServiceFailed(reason: string)

  /** `{ field: fieldName, ...result }`. */
  datatype TaggedRecord = TaggedRecord(field: string, record: FileRecord)

  /** What a successful job resolves to. */
  datatype JobResult =
    | Single(record: FileRecord)
    | Multiple(records: seq<FileRecord>)
    | Fields(tagged: seq<TaggedRecord>)
    | Deleted(filename: string)

  /** A finished job: its outcome, the steps it took, the temp store and
      the service state it leaves behind. */
  datatype Run<W> = Run(outcome: Result<JobResult, JobError>, trace: seq<Step>, temp: TempStore, world: W)

  /** One staged file to upload, with the options it is uploaded with. */
  datatype Item = Item(file: TempFile, options: UploadOptions)

  /** Uploading a list of items: the records so far, the error that
      stopped the list (if any), the steps taken and the resulting state. */
  datatype Batch<W> = Batch(records: seq<FileRecord>, error: Option<JobError>, trace: seq<Step>, temp: TempStore, world: W)

  // ---------------------------------------------------------------- trace views

  function ReadPath(s: Step): Option<string> {
    if s.Read? then Some(s.path) else None
  }

  function UnlinkPath(s: Step): Option<string> {
    if s.Unlink? then Some(s.path) else None
  }

  function UploadOptionsOf(s: Step): Option<UploadOptions> {
    if s.Upload? then Some(s.options) else None
  }

  function UploadedFile(s: Step): Option<UploadFile> {
    if s.Upload? then Some(s.file) else None
  }

  function UploadedRecord(s: Step): Option<FileRecord> {
    if s.Upload? && s.answer.Success? then Some(s.answer.value) else None
  }

  /** The paths read, unlinked, and the options uploaded with, in order. */
  function Reads(trace: seq<Step>): seq<string> { FilterMap(trace, ReadPath) }
  function Unlinks(trace: seq<Step>): seq<string> { FilterMap(trace, UnlinkPath) }
  function UploadOptionsSeq(trace: seq<Step>): seq<UploadOptions> { FilterMap(trace, UploadOptionsOf) }

  /** The files handed to the service, and the records it resolved to, in order. */
  function UploadFiles(trace: seq<Step>): seq<UploadFile> { FilterMap(trace, UploadedFile) }
  function UploadResults(trace: seq<Step>): seq<FileRecord> { FilterMap(trace, UploadedRecord) }

  lemma TraceOfMissing(p: string)
    ensures Reads([Read(p)]) == [p] && Unlinks([Read(p)]) == [] && UploadOptionsSeq([Read(p)]) == []
    ensures UploadFiles([Read(p)]) == [] && UploadResults([Read(p)]) == []
  {
    FilterMapOne(Read(p), ReadPath);
    FilterMapOne(Read(p), UnlinkPath);
    FilterMapOne(Read(p), UploadOptionsOf);
    FilterMapOne(Read(p), UploadedFile);
    FilterMapOne(Read(p), UploadedRecord);
  }

  lemma TraceOfUpload(f: UploadFile, o: UploadOptions, a: Result<FileRecord, string>)
    ensures var t := [Upload(f, o, a)];
      && Reads(t) == [] && Unlinks(t) == [] && UploadOptionsSeq(t) == [o]
      && UploadFiles(t) == [f] && UploadResults(t) == (if a.Success? then [a.value] else [])
  {
    FilterMapOne(Upload(f, o, a), ReadPath);
    FilterMapOne(Upload(f, o, a), UnlinkPath);
    FilterMapOne(Upload(f, o, a), UploadOptionsOf);
    FilterMapOne(Upload(f, o, a), UploadedFile);
    FilterMapOne(Upload(f, o, a), UploadedRecord);
  }

  lemma TraceOfUnlink(p: string)
    ensures Reads([Unlink(p)]) == [] && Unlinks([Unlink(p)]) == [p] && UploadOptionsSeq([Unlink(p)]) == []
    ensures UploadFiles([Unlink(p)]) == [] && UploadResults([Unlink(p)]) == []
  {
    FilterMapOne(Unlink(p), ReadPath);
    FilterMapOne(Unlink(p), UnlinkPath);
    FilterMapOne(Unlink(p), UploadOptionsOf);
    FilterMapOne(Unlink(p), UploadedFile);
    FilterMapOne(Unlink(p), UploadedRecord);
  }

  lemma TraceOfRefused(p: string, f: UploadFile, o: UploadOptions, e: string)
    ensures var t := [Read(p), Upload(f, o, Failure(e))];
      && Reads(t) == [p] && Unlinks(t) == [] && UploadOptionsSeq(t) == [o]
      && UploadFiles(t) == [f] && UploadResults(t) == []
  {
    var t := [Read(p)] + [Upload(f, o, Failure(e))];
    TraceViews([Read(p)], [Upload(f, o, Failure(e))]);
    TraceOfMissing(p);
    TraceOfUpload(f, o, Failure(e));
    assert [Read(p), Upload(f, o, Failure(e))] == t;
  }

  lemma TraceOfDone(p: string, f: UploadFile, o: UploadOptions, rec: FileRecord)
    ensures var t := [Read(p), Upload(f, o, Success(rec)), Unlink(p)];
      && Reads(t) == [p] && Unlinks(t) == [p] && UploadOptionsSeq(t) == [o]
      && UploadFiles(t) == [f] && UploadResults(t) == [rec]
  {
    var t0 := [Read(p)] + [Upload(f, o, Success(rec))];
    TraceViews([Read(p)], [Upload(f, o, Success(rec))]);
    TraceOfMissing(p);
    TraceOfUpload(f, o, Success(rec));
    TraceViews(t0, [Unlink(p)]);
    TraceOfUnlink(p);
    assert [Read(p), Upload(f, o, Success(rec)), Unlink(p)] == t0 + [Unlink(p)];
  }

  lemma TraceViews(t: seq<Step>, u: seq<Step>)
    ensures Reads(t + u) == Reads(t) + Reads(u)
    ensures Unlinks(t + u) == Unlinks(t) + Unlinks(u)
    ensures UploadOptionsSeq(t + u) == UploadOptionsSeq(t) + UploadOptionsSeq(u)
    ensures UploadFiles(t + u) == UploadFiles(t) + UploadFiles(u)
    ensures UploadResults(t + u) == UploadResults(t) + UploadResults(u)
  {
    FilterMapAppend(t, u, ReadPath);
    FilterMapAppend(t, u, UnlinkPath);
    FilterMapAppend(t, u, UploadOptionsOf);
    FilterMapAppend(t, u, UploadedFile);
    FilterMapAppend(t, u, UploadedRecord);
  }

  function Paths(items: seq<Item>): (ps: seq<string>)
    ensures |ps| == |items|
    ensures forall i :: 0 <= i < |items| ==> ps[i] == items[i].file.tempPath
  {
    seq(|items|, i requires 0 <= i < |items| => items[i].file.tempPath)
  }

  function OptionsOf(items: seq<Item>): (os: seq<UploadOptions>)
    ensures |os| == |items|
    ensures forall i :: 0 <= i < |items| ==> os[i] == items[i].options
  {
    seq(|items|, i requires 0 <= i < |items| => items[i].options)
  }

  function PathSet(items: seq<Item>): set<string> {
    set i | 0 <= i < |items| :: items[i].file.tempPath
  }

  // ---------------------------------------------------------------- one file

  /** Read the staged file, upload it, unlink it: a missing file stops
      before the upload, a failed upload stops before the unlink. */
  function UploadOne<W>(svc: Services<W>, provider: Option<string>, item: Item, temp: TempStore, w: W): (b: Batch<W>)
    ensures item.file.tempPath !in temp ==>
      b == Batch([], Some(NoSuchFile(item.file.tempPath)), [Read(item.file.tempPath)], temp, w)
    ensures item.file.tempPath in temp ==>
      var file := UploadFile(temp[item.file.tempPath], item.file.meta);
      var a := svc.upload(w, provider, file, item.options);
      && b.world == a.world
      && (a.result.Failure? ==>
            b == Batch([], Some(ServiceFailed(a.result.error)), [Read(item.file.tempPath), Upload(file, item.options, a.result)], temp, a.world))
      && (a.result.Success? ==>
            b == Batch([a.result.value], None,
                       [Read(item.file.tempPath), Upload(file, item.options, a.result), Unlink(item.file.tempPath)],
                       temp - {item.file.tempPath}, a.world))
  {
    var path := item.file.tempPath;
    if path !in temp then Batch([], Some(NoSuchFile(path)), [Read(path)], temp, w)
    else
      var file := UploadFile(temp[path], item.file.meta);
      var a := svc.upload(w, provider, file, item.options);
      match a.result
      case Failure(e) => Batch([], Some(ServiceFailed(e)), [Read(path), Upload(file, item.options, a.result)], temp, a.world)
      case Success(record) => Batch([record], None, [Read(path), Upload(file, item.options, a.result), Unlink(path)], temp - {path}, a.world)
  }

  /** The number of items a batch touched: the uploaded ones and, when it
      stopped, the one it stopped at. */
  function Attempted<W>(b: Batch<W>): nat {
    |b.records| + if b.error.Some? then 1 else 0
  }

  /** The number of items handed to the service: the uploaded ones and,
      when the service refused one, that one. */
  function Submitted<W>(b: Batch<W>): nat {
    |b.records| + if b.error.Some? && b.error.value.ServiceFailed? then 1 else 0
  }

  // ---------------------------------------------------------------- a list of files

  lemma PrefixCons(items: seq<Item>, n: nat)
    requires n < |items|
    ensures Paths(items[..n + 1]) == [items[0].file.tempPath] + Paths(items[1..][..n])
    ensures OptionsOf(items[..n + 1]) == [items[0].options] + OptionsOf(items[1..][..n])
    ensures PathSet(items[..n + 1]) == {items[0].file.tempPath} + PathSet(items[1..][..n])
  {
    var p := items[0].file.tempPath;
    forall q | q in PathSet(items[..n + 1]) ensures q in {p} + PathSet(items[1..][..n]) {
      var i :| 0 <= i < n + 1 && items[..n + 1][i].file.tempPath == q;
      if i > 0 {
        assert items[1..][..n][i - 1] == items[i];
      }
    }
    forall q | q in {p} + PathSet(items[1..][..n]) ensures q in PathSet(items[..n + 1]) {
      if q != p {
        var i :| 0 <= i < n && items[1..][..n][i].file.tempPath == q;
        assert items[..n + 1][i + 1] == items[i + 1];
      } else {
        assert items[..n + 1][0] == items[0];
      }
    }
  }

  /** The `for ... of` loop: items one after the other, stopping at the
      first failure. It fails only with the service's error or a missing
      staged file, and exactly the uploaded items' staged files are gone. */
  function UploadItems<W>(svc: Services<W>, provider: Option<string>, items: seq<Item>, temp: TempStore, w: W): (b: Batch<W>)
    ensures b.error.None? <==> |b.records| == |items|
    ensures Attempted(b) <= |items|
    ensures b.error.Some? ==> b.error.value.ServiceFailed? || b.error.value.NoSuchFile?
    ensures b.temp == temp - PathSet(items[..|b.records|])
    decreases |items|
  {
    if |items| == 0 then
      assert items[..0] == [];
      Batch([], None, [], temp, w)
    else
      var first := UploadOne(svc, provider, items[0], temp, w);
      if first.error.Some? then
        assert items[..0] == [];
        first
      else
        var rest := UploadItems(svc, provider, items[1..], first.temp, first.world);
        PrefixCons(items, |rest.records|);
        assert |first.records| == 1 && first.temp == temp - {items[0].file.tempPath};
        RemoveTwice(temp, {items[0].file.tempPath}, PathSet(items[1..][..|rest.records|]));
        Batch(first.records + rest.records, rest.error, first.trace + rest.trace, rest.temp, rest.world)
  }

  /** Removing two sets of keys one after the other removes their union. */
  lemma RemoveTwice<K, V>(m: map<K, V>, a: set<K>, b: set<K>)
    ensures m - a - b == m - (a + b)
  {
  }

  /** What one item contributes to the trace views: its staged path is
      read; its options reach the service unless the file is missing; its
      path is unlinked only when it was uploaded. */
  lemma UploadOneViews<W>(svc: Services<W>, provider: Option<string>, item: Item, temp: TempStore, w: W)
    ensures var b := UploadOne(svc, provider, item, temp, w);
      && |b.records| == (if b.error.None? then 1 else 0)
      && (b.error.Some? ==> b.error.value.ServiceFailed? || b.error.value.NoSuchFile?)
      && Reads(b.trace) == [item.file.tempPath]
      && Unlinks(b.trace) == (if b.error.None? then [item.file.tempPath] else [])
      && UploadOptionsSeq(b.trace) ==
           (if b.error.None? || b.error.value.ServiceFailed? then [item.options] else [])
      && (b.error.Some? && b.error.value.NoSuchFile? <==> item.file.tempPath !in temp)
      && UploadFiles(b.trace) ==
           (if item.file.tempPath in temp then [UploadFile(temp[item.file.tempPath], item.file.meta)] else [])
      && UploadResults(b.trace) == b.records
  {
    var p := item.file.tempPath;
    if p in temp {
      var file := UploadFile(temp[p], item.file.meta);
      var a := svc.upload(w, provider, file, item.options);
      if a.result.Success? {
        TraceOfDone(p, file, item.options, a.result.value);
      } else {
        TraceOfRefused(p, file, item.options, a.result.error);
      }
    } else {
      TraceOfMissing(p);
    }
  }

  /** The loop reads the staged files of the items it attempted, in order. */
  lemma {:induction false} UploadItemsReads<W>(svc: Services<W>, provider: Option<string>, items: seq<Item>, temp: TempStore, w: W)
    ensures var b := UploadItems(svc, provider, items, temp, w);
      Reads(b.trace) == Paths(items[..Attempted(b)])
    decreases |items|
  {
    if |items| > 0 {
      var first := UploadOne(svc, provider, items[0], temp, w);
      UploadOneViews(svc, provider, items[0], temp, w);
      if first.error.Some? {
        PrefixCons(items, 0);
      } else {
        var rest := UploadItems(svc, provider, items[1..], first.temp, first.world);
        var b := UploadItems(svc, provider, items, temp, w);
        UploadItemsReads(svc, provider, items[1..], first.temp, first.world);
        assert b.trace == first.trace + rest.trace;
        TraceViews(first.trace, rest.trace);
        assert Attempted(b) == Attempted(rest) + 1;
        PrefixCons(items, Attempted(rest));
      }
    } else {
      assert items[..0] == [];
    }
  }

  /** The loop unlinks the staged files of the items it uploaded, in order. */
  lemma {:induction false} UploadItemsUnlinks<W>(svc: Services<W>, provider: Option<string>, items: seq<Item>, temp: TempStore, w: W)
    ensures var b := UploadItems(svc, provider, items, temp, w);
      Unlinks(b.trace) == Paths(items[..|b.records|])
    decreases |items|
  {
    if |items| > 0 {
      var first := UploadOne(svc, provider, items[0], temp, w);
      UploadOneViews(svc, provider, items[0], temp, w);
      if first.error.Some? {
        assert items[..0] == [];
      } else {
        var rest := UploadItems(svc, provider, items[1..], first.temp, first.world);
        var b := UploadItems(svc, provider, items, temp, w);
        UploadItemsUnlinks(svc, provider, items[1..], first.temp, first.world);
        assert b.trace == first.trace + rest.trace;
        TraceViews(first.trace, rest.trace);
        assert |b.records| == |rest.records| + 1;
        PrefixCons(items, |rest.records|);
      }
    } else {
      assert items[..0] == [];
    }
  }

  /** The loop hands the service the items it read, each with its own
      options, in order. */
  lemma {:induction false} UploadItemsOptions<W>(svc: Services<W>, provider: Option<string>, items: seq<Item>, temp: TempStore, w: W)
    ensures var b := UploadItems(svc, provider, items, temp, w);
      UploadOptionsSeq(b.trace) == OptionsOf(items[..Submitted(b)])
    decreases |items|
  {
    if |items| > 0 {
      var first := UploadOne(svc, provider, items[0], temp, w);
      UploadOneViews(svc, provider, items[0], temp, w);
      if first.error.Some? {
        PrefixCons(items, 0);
        assert items[..0] == [];
      } else {
        var rest := UploadItems(svc, provider, items[1..], first.temp, first.world);
        var b := UploadItems(svc, provider, items, temp, w);
        UploadItemsOptions(svc, provider, items[1..], first.temp, first.world);
        assert b.trace == first.trace + rest.trace;
        TraceViews(first.trace, rest.trace);
        assert Submitted(b) == Submitted(rest) + 1;
        PrefixCons(items, Submitted(rest));
      }
    } else {
      assert items[..0] == [];
    }
  }

  /** The loop resolves to exactly the records the service answered with,
      in order, and hands the service every submitted item's staged bytes
      with that item's metadata, in order. */
  lemma {:induction false} UploadItemsRecords<W>(svc: Services<W>, provider: Option<string>, items: seq<Item>, temp: TempStore, w: W)
    ensures var b := UploadItems(svc, provider, items, temp, w);
      && b.records == UploadResults(b.trace)
      && |UploadFiles(b.trace)| == Submitted(b) <= |items|
      && forall i :: 0 <= i < Submitted(b) ==>
           && items[i].file.tempPath in temp
           && UploadFiles(b.trace)[i] == UploadFile(temp[items[i].file.tempPath], items[i].file.meta)
  {
    var b := UploadItems(svc, provider, items, temp, w);
    UploadItemsCounts(svc, provider, items, temp, w);
    forall i | 0 <= i < Submitted(b)
      ensures items[i].file.tempPath in temp
      ensures UploadFiles(b.trace)[i] == UploadFile(temp[items[i].file.tempPath], items[i].file.meta)
    {
      UploadItemsFileAt(svc, provider, items, temp, w, i);
    }
  }

  /** The records are the trace's upload results, one upload per submitted
      item. */
  lemma {:induction false} UploadItemsCounts<W>(svc: Services<W>, provider: Option<string>, items: seq<Item>, temp: TempStore, w: W)
    ensures var b := UploadItems(svc, provider, items, temp, w);
      && b.records == UploadResults(b.trace)
      && |UploadFiles(b.trace)| == Submitted(b) <= |items|
    decreases |items|
  {
    if |items| > 0 {
      var first := UploadOne(svc, provider, items[0], temp, w);
      UploadOneViews(svc, provider, items[0], temp, w);
      if first.error.None? {
        var rest := UploadItems(svc, provider, items[1..], first.temp, first.world);
        var b := UploadItems(svc, provider, items, temp, w);
        UploadItemsCounts(svc, provider, items[1..], first.temp, first.world);
        assert b.trace == first.trace + rest.trace;
        assert b.records == first.records + rest.records;
        TraceViews(first.trace, rest.trace);
        assert Submitted(b) == Submitted(rest) + 1;
      }
    }
  }

  /** The `i`-th upload of a batch sent the `i`-th item's staged bytes. */
  lemma {:induction false} UploadItemsFileAt<W>(svc: Services<W>, provider: Option<string>, items: seq<Item>, temp: TempStore, w: W, i: nat)
    requires i < Submitted(UploadItems(svc, provider, items, temp, w))
    ensures var b := UploadItems(svc, provider, items, temp, w);
      && i < |UploadFiles(b.trace)|
      && items[i].file.tempPath in temp
      && UploadFiles(b.trace)[i] == UploadFile(temp[items[i].file.tempPath], items[i].file.meta)
    decreases i
  {
    var b := UploadItems(svc, provider, items, temp, w);
    UploadItemsCounts(svc, provider, items, temp, w);
    var first := UploadOne(svc, provider, items[0], temp, w);
    UploadOneViews(svc, provider, items[0], temp, w);
    if first.error.None? {
      var rest := UploadItems(svc, provider, items[1..], first.temp, first.world);
      assert b.trace == first.trace + rest.trace;
      assert b.records == first.records + rest.records;
      TraceViews(first.trace, rest.trace);
      if i > 0 {
        assert Submitted(b) == Submitted(rest) + 1;
        UploadItemsFileAt(svc, provider, items[1..], first.temp, first.world, i - 1);
        assert items[1..][i - 1] == items[i];
        assert first.temp == temp - {items[0].file.tempPath};
      }
    }
  }

  /** A batch that fails at item `i` has uploaded and unlinked every item
      before `i`, leaves item `i`'s staged file and every later one in
      place unless an earlier item shared its path, and never reads or
      uploads anything after `i`. */
  lemma StopsAtFirstFailure<W>(svc: Services<W>, provider: Option<string>, items: seq<Item>, temp: TempStore, w: W)
    requires UploadItems(svc, provider, items, temp, w).error.Some?
    ensures var b := UploadItems(svc, provider, items, temp, w);
      var i := |b.records|;
      && i < |items|
      && Reads(b.trace) == Paths(items[..i + 1])
      && Unlinks(b.trace) == Paths(items[..i])
      && forall j :: i <= j < |items| && items[j].file.tempPath !in PathSet(items[..i]) ==>
           (items[j].file.tempPath in b.temp <==> items[j].file.tempPath in temp)
  {
    UploadItemsReads(svc, provider, items, temp, w);
    UploadItemsUnlinks(svc, provider, items, temp, w);
  }

  // ---------------------------------------------------------------- payload readers

  /** JavaScript falsiness of a payload value (`undefined` is `None`). */
  predicate Falsy(v: Option<PayloadValue>) {
    v.None? || v.value.Null? || v.value == Text("") || v.value == Count(0)
  }

  /** `options = {}`: absent options are `{}`. */
  function ReadOptions(payload: Payload): Result<UploadOptions, JobError> {
    match JsObject.Get(payload, "options")
    case None => Success(NoOptions)
    case Some(v) => if v.OptionsField? then Success(v.options) else Failure(BadPayload("options"))
  }

  /** `{ originalname, mimetype, size }` of a single upload. */
  function ReadMeta(payload: Payload): Result<FileMeta, JobError> {
    var name := JsObject.Get(payload, "originalname");
    var mime := JsObject.Get(payload, "mimetype");
    var size := JsObject.Get(payload, "size");
    if !(name.Some? && name.value.Text?) then Failure(BadPayload("originalname"))
    else if !(mime.Some? && mime.value.Text?) then Failure(BadPayload("mimetype"))
    else if !(size.Some? && size.value.Count?) then Failure(BadPayload("size"))
    else Success(FileMeta(name.value.text, mime.value.text, size.value.count))
  }

  /** `fieldName === "image" ? { compress: true } : {}`. */
  function FieldOptions(field: string): (o: UploadOptions)
    ensures o.compress <==> field == "image"
    ensures o.folder.None?
  {
    if field == "image" then UploadOptions(None, true) else NoOptions
  }

  function ItemFiles(items: seq<Item>): (fs: seq<TempFile>)
    ensures |fs| == |items|
    ensures forall i :: 0 <= i < |items| ==> fs[i] == items[i].file
  {
    seq(|items|, i requires 0 <= i < |items| => items[i].file)
  }

  /** The file lists of the `fields` object, in key order. */
  function FileLists(fields: JsObject.Entries<seq<TempFile>>): (ls: seq<seq<TempFile>>)
    ensures |ls| == |fields|
    ensures forall i :: 0 <= i < |fields| ==> ls[i] == fields[i].1
  {
    seq(|fields|, i requires 0 <= i < |fields| => fields[i].1)
  }

  /** The items of a fields upload: the files of every field, field by
      field in key order, each with its field's options. */
  function FieldItems(fields: JsObject.Entries<seq<TempFile>>): (items: seq<Item>)
    ensures |items| == |FieldTags(fields)|
    ensures forall i :: 0 <= i < |items| ==> items[i].options == FieldOptions(FieldTags(fields)[i])
    ensures ItemFiles(items) == Flatten(FileLists(fields))
    decreases |fields|
  {
    if |fields| == 0 then []
    else
      var (name, files) := fields[0];
      var head := seq(|files|, i requires 0 <= i < |files| => Item(files[i], FieldOptions(name)));
      var tail := FieldItems(fields[1..]);
      assert FileLists(fields) == [files] + FileLists(fields[1..]);
      assert ItemFiles(head + tail) == ItemFiles(head) + ItemFiles(tail);
      assert ItemFiles(head) == files;
      head + tail
  }

  /** The field name each uploaded file is tagged with, in the same order. */
  function FieldTags(fields: JsObject.Entries<seq<TempFile>>): seq<string>
    decreases |fields|
  {
    if |fields| == 0 then []
    else seq(|fields[0].1|, i requires 0 <= i < |fields[0].1| => fields[0].0) + FieldTags(fields[1..])
  }

  function Tag(tags: seq<string>, records: seq<FileRecord>): (tagged: seq<TaggedRecord>)
    requires |tags| == |records|
    ensures |tagged| == |records|
    ensures forall i :: 0 <= i < |records| ==> tagged[i] == TaggedRecord(tags[i], records[i])
  {
    seq(|records|, i requires 0 <= i < |records| => TaggedRecord(tags[i], records[i]))
  }

  /** A batch as a job outcome. */
  function Finish<W>(b: Batch<W>, result: JobResult): Run<W> {
    Run(if b.error.Some? then Failure(b.error.value) else Success(result), b.trace, b.temp, b.world)
  }

  // ---------------------------------------------------------------- the handler

  /** A single-upload payload the handler can act on: a non-empty string
      `tempPath`, the file's metadata and usable options. */
  predicate Readable(payload: Payload) {
    var tp := JsObject.Get(payload, "tempPath");
    && tp.Some? && tp.value.Text? && tp.value.text != ""
    && ReadMeta(payload).Success? && ReadOptions(payload).Success?
  }

  /** A payload whose `tempPath`, `originalname`, `mimetype` and `size` hold
      a non-empty path and a file's metadata, and whose `options` read as
      another payload's, is readable, with that metadata and those options. */
  lemma ReadableByKeys(p: Payload, path: string, meta: FileMeta, q: Payload)
    requires path != "" && ReadOptions(q).Success?
    requires JsObject.Get(p, "tempPath") == Some(Text(path))
    requires JsObject.Get(p, "originalname") == Some(Text(meta.originalname))
    requires JsObject.Get(p, "mimetype") == Some(Text(meta.mimetype))
    requires JsObject.Get(p, "size") == Some(Count(meta.size))
    requires JsObject.Get(p, "options") == JsObject.Get(q, "options")
    ensures Readable(p) && ReadMeta(p) == Success(meta) && ReadOptions(p) == ReadOptions(q)
  {
    assert ReadMeta(p) == Success(meta);
  }

  /** UPLOAD_SINGLE: a falsy `tempPath` fails with "File path is required"
      before anything is read. Otherwise the staged file is read and
      uploaded; the job resolves to exactly the service's record and only
      then is the staged file unlinked, so a failed upload leaves it. */
  function UploadSingleJob<W>(svc: Services<W>, provider: Option<string>, payload: Payload, temp: TempStore, w: W): (r: Run<W>)
    ensures Falsy(JsObject.Get(payload, "tempPath")) ==>
      r == Run(Failure(Thrown("File path is required")), [], temp, w)
    ensures r.outcome.Success? ==> Readable(payload)
    ensures Readable(payload) ==>
      var p := JsObject.Get(payload, "tempPath").value.text;
      var options := ReadOptions(payload).value;
      && (p !in temp ==> r == Run(Failure(NoSuchFile(p)), [Read(p)], temp, w))
      && (p in temp ==>
            var file := UploadFile(temp[p], ReadMeta(payload).value);
            var a := svc.upload(w, provider, file, options);
            && (a.result.Success? ==>
                  r == Run(Success(Single(a.result.value)), [Read(p), Upload(file, options, a.result), Unlink(p)], temp - {p}, a.world))
            && (a.result.Failure? ==>
                  r == Run(Failure(ServiceFailed(a.result.error)), [Read(p), Upload(file, options, a.result)], temp, a.world)))
    ensures r.outcome.Failure? ==> r.temp == temp
  {
    var tempPath := JsObject.Get(payload, "tempPath");
    if Falsy(tempPath) then Run(Failure(Thrown("File path is required")), [], temp, w)
    else if !tempPath.value.Text? then Run(Failure(BadPayload("tempPath")), [], temp, w)
    else match (ReadMeta(payload), ReadOptions(payload))
      case (Failure(e), _) => Run(Failure(e), [], temp, w)
      case (_, Failure(e)) => Run(Failure(e), [], temp, w)
      case (Success(meta), Success(options)) =>
        var b := UploadOne(svc, provider, Item(TempFile(tempPath.value.text, meta), options), temp, w);
        Run(if b.error.Some? then Failure(b.error.value) else Success(Single(b.records[0])), b.trace, b.temp, b.world)
  }

  /** The items of a multiple upload: every staged file with the shared options. */
  function SharedItems(files: seq<TempFile>, options: UploadOptions): (items: seq<Item>)
    ensures |items| == |files|
    ensures ItemFiles(items) == files
    ensures OptionsOf(items) == seq(|files|, _ => options)
  {
    seq(|files|, i requires 0 <= i < |files| => Item(files[i], options))
  }

  /** The `tempFiles` values for which `!tempFiles || !tempFiles.length`
      holds: falsy values, the empty list, and numbers and objects, whose
      `length` is `undefined` unless an object has a key of that name. */
  predicate NoLength(v: Option<PayloadValue>) {
    || Falsy(v)
    || v == Some(TempList([]))
    || v.value.Count? || v.value.FileField? || v.value.OptionsField?
    || (v.value.FieldLists? && "length" !in JsObject.Keys(v.value.fields))
  }

  /** UPLOAD_MULTIPLE: no staged files gives `[]` and touches nothing.
      Otherwise every file is read, its staged bytes uploaded with its
      metadata and the shared options, and unlinked, in input order, and the
      job resolves to the service's records in that order; the first
      failure ends the job (see `StopsAtFirstFailure`). */
  function UploadMultipleJob<W>(svc: Services<W>, provider: Option<string>, payload: Payload, temp: TempStore, w: W): (r: Run<W>)
    ensures var v := JsObject.Get(payload, "tempFiles");
      NoLength(v) ==> r == Run(Success(Multiple([])), [], temp, w)
    ensures var v := JsObject.Get(payload, "tempFiles");
      v.Some? && (v.value.Text? || v.value.FieldLists?) && !NoLength(v) ==>
      r == Run(Failure(BadPayload("tempFiles")), [], temp, w)
    ensures var v := JsObject.Get(payload, "tempFiles");
      v.Some? && v.value.TempList? && v.value.files != [] && ReadOptions(payload).Success? ==>
      var b := UploadItems(svc, provider, SharedItems(v.value.files, ReadOptions(payload).value), temp, w);
      && r.outcome == (if b.error.Some? then Failure(b.error.value) else Success(Multiple(b.records)))
      && r.trace == b.trace && r.temp == b.temp && r.world == b.world
  {
    var v := JsObject.Get(payload, "tempFiles");
    if NoLength(v) then Run(Success(Multiple([])), [], temp, w)
    else if !v.value.TempList? then Run(Failure(BadPayload("tempFiles")), [], temp, w)
    else match ReadOptions(payload)
      case Failure(e) => Run(Failure(e), [], temp, w)
      case Success(options) =>
        var b := UploadItems(svc, provider, SharedItems(v.value.files, options), temp, w);
        Finish(b, Multiple(b.records))
  }

  /** What a successful UPLOAD_MULTIPLE job did: each listed file, in
      order, read from its staged path and uploaded as those bytes with its
      metadata and the shared options, then unlinked; the job resolves to
      one record per file, the service's answers in order. */
  lemma UploadMultipleTrace<W>(svc: Services<W>, provider: Option<string>, payload: Payload, temp: TempStore, w: W)
    ensures var r, v := UploadMultipleJob(svc, provider, payload, temp, w), JsObject.Get(payload, "tempFiles");
      r.outcome.Success? && v.Some? && v.value.TempList? && ReadOptions(payload).Success? ==>
      var files := v.value.files;
      var items := SharedItems(files, ReadOptions(payload).value);
      && r.outcome.value.Multiple?
      && |r.outcome.value.records| == |files|
      && r.outcome.value.records == UploadResults(r.trace)
      && |UploadFiles(r.trace)| == |files|
      && (forall i :: 0 <= i < |files| ==>
            && files[i].tempPath in temp
            && UploadFiles(r.trace)[i] == UploadFile(temp[files[i].tempPath], files[i].meta))
      && r.temp == temp - PathSet(items)
      && Reads(r.trace) == Paths(items)
      && Unlinks(r.trace) == Paths(items)
      && UploadOptionsSeq(r.trace) == seq(|files|, _ => ReadOptions(payload).value)
  {
    var r := UploadMultipleJob(svc, provider, payload, temp, w);
    var v := JsObject.Get(payload, "tempFiles");
    if r.outcome.Success? && v.Some? && v.value.TempList? && ReadOptions(payload).Success? {
      var items := SharedItems(v.value.files, ReadOptions(payload).value);
      UploadItemsReads(svc, provider, items, temp, w);
      UploadItemsUnlinks(svc, provider, items, temp, w);
      UploadItemsOptions(svc, provider, items, temp, w);
      UploadItemsRecords(svc, provider, items, temp, w);
      assert items[..|items|] == items;
    }
  }

  /** The `fields` values `for (const fieldName in fields)` walks without
      reaching a file: `undefined`, `null`, numbers, and the empty string and
      list. */
  predicate NothingToWalk(v: Option<PayloadValue>) {
    v.None? || v.value.Null? || v.value.Count? || v == Some(Text("")) || v == Some(TempList([]))
  }

  /** UPLOAD_FIELDS: every file of every field, field by field in key order,
      read, uploaded with `{ compress: true }` exactly for the "image" field
      and unlinked; the job resolves to the service's records in that order,
      each tagged with its field. */
  function UploadFieldsJob<W>(svc: Services<W>, provider: Option<string>, payload: Payload, temp: TempStore, w: W): (r: Run<W>)
    ensures var v := JsObject.Get(payload, "fields");
      NothingToWalk(v) ==> r == Run(Success(Fields([])), [], temp, w)
    ensures var v := JsObject.Get(payload, "fields");
      v.Some? && (v.value.Text? || v.value.TempList?) && !NothingToWalk(v) ==>
      r == Run(Failure(BadPayload("fields")), [], temp, w)
    ensures var v := JsObject.Get(payload, "fields");
      v.Some? && v.value.FieldLists? ==>
      var b := UploadItems(svc, provider, FieldItems(v.value.fields), temp, w);
      && r.outcome == (if b.error.Some? then Failure(b.error.value) else Success(Fields(Tag(FieldTags(v.value.fields), b.records))))
      && r.trace == b.trace && r.temp == b.temp && r.world == b.world
  {
    var v := JsObject.Get(payload, "fields");
    if NothingToWalk(v) then Run(Success(Fields([])), [], temp, w)
    else if !v.value.FieldLists? then Run(Failure(BadPayload("fields")), [], temp, w)
    else
      var fields := v.value.fields;
      var b := UploadItems(svc, provider, FieldItems(fields), temp, w);
      if b.error.Some? then Run(Failure(b.error.value), b.trace, b.temp, b.world)
      else Run(Success(Fields(Tag(FieldTags(fields), b.records))), b.trace, b.temp, b.world)
  }

  /** What a successful UPLOAD_FIELDS job did: each file of each field, in
      key order, read from its staged path and uploaded as those bytes with
      its metadata, with `compress` exactly for the "image" field; the
      records come back tagged with their fields; every staged file is read
      and unlinked. */
  lemma UploadFieldsTrace<W>(svc: Services<W>, provider: Option<string>, payload: Payload, temp: TempStore, w: W)
    ensures var r, v := UploadFieldsJob(svc, provider, payload, temp, w), JsObject.Get(payload, "fields");
      r.outcome.Success? && v.Some? && v.value.FieldLists? ==>
      var fields := v.value.fields;
      var tags := FieldTags(fields);
      && r.outcome.value.Fields?
      && |r.outcome.value.tagged| == |tags|
      && (forall i :: 0 <= i < |tags| ==> r.outcome.value.tagged[i].field == tags[i])
      && |UploadResults(r.trace)| == |tags|
      && (forall i :: 0 <= i < |tags| ==> r.outcome.value.tagged[i].record == UploadResults(r.trace)[i])
      && |UploadFiles(r.trace)| == |tags|
      && (forall i :: 0 <= i < |tags| ==>
            var f := FieldItems(fields)[i].file;
            f.tempPath in temp && UploadFiles(r.trace)[i] == UploadFile(temp[f.tempPath], f.meta))
      && r.temp == temp - PathSet(FieldItems(fields))
      && Reads(r.trace) == Paths(FieldItems(fields))
      && Unlinks(r.trace) == Paths(FieldItems(fields))
      && |UploadOptionsSeq(r.trace)| == |tags|
      && (forall i :: 0 <= i < |tags| ==> (UploadOptionsSeq(r.trace)[i].compress <==> tags[i] == "image"))
  {
    var r := UploadFieldsJob(svc, provider, payload, temp, w);
    var v := JsObject.Get(payload, "fields");
    if r.outcome.Success? && v.Some? && v.value.FieldLists? {
      var items := FieldItems(v.value.fields);
      UploadItemsReads(svc, provider, items, temp, w);
      UploadItemsUnlinks(svc, provider, items, temp, w);
      UploadItemsOptions(svc, provider, items, temp, w);
      UploadItemsRecords(svc, provider, items, temp, w);
      assert items[..|items|] == items;
    }
  }

  /** DELETE_FILE: a falsy `filename` fails with "Filename is required";
      otherwise the service deletes it and the job reports it. */
  function DeleteJob<W>(svc: Services<W>, provider: Option<string>, payload: Payload, temp: TempStore, w: W): (r: Run<W>)
    ensures r.temp == temp
    ensures Falsy(JsObject.Get(payload, "filename")) ==>
      r == Run(Failure(Thrown("Filename is required")), [], temp, w)
    ensures r.outcome.Success? ==>
      var name := JsObject.Get(payload, "filename");
      && name.Some? && name.value.Text? && name.value.text != ""
      && r.outcome.value == Deleted(name.value.text)
      && r.trace == [Delete(name.value.text)]
      && svc.delete(w, provider, name.value.text) == Success(r.world)
    ensures var name := JsObject.Get(payload, "filename");
      name.Some? && name.value.Text? && name.value.text != "" ==>
      var d := svc.delete(w, provider, name.value.text);
      && r.trace == [Delete(name.value.text)]
      && (r.outcome.Success? <==> d.Success?)
      && (d.Failure? ==> r.outcome == Failure(ServiceFailed(d.error)) && r.world == w)
  {
    var v := JsObject.Get(payload, "filename");
    if Falsy(v) then Run(Failure(Thrown("Filename is required")), [], temp, w)
    else if !v.value.Text? then Run(Failure(BadPayload("filename")), [], temp, w)
    else
      var name := v.value.text;
      match svc.delete(w, provider, name)
      case Failure(e) => Run(Failure(ServiceFailed(e)), [Delete(name)], temp, w)
      case Success(w') => Run(Success(Deleted(name)), [Delete(name)], temp, w')
  }

  /** The `switch (type)`. */
  function Handle<W>(svc: Services<W>, jobType: string, provider: Option<string>, payload: Payload, temp: TempStore, w: W): (r: Run<W>)
    ensures jobType !in ["UPLOAD_SINGLE", "UPLOAD_MULTIPLE", "UPLOAD_FIELDS", "DELETE_FILE"] ==>
      r == Run(Failure(Thrown("Unknown job type: " + jobType)), [], temp, w)
  {
    if jobType == "UPLOAD_SINGLE" then UploadSingleJob(svc, provider, payload, temp, w)
    else if jobType == "UPLOAD_MULTIPLE" then UploadMultipleJob(svc, provider, payload, temp, w)
    else if jobType == "UPLOAD_FIELDS" then UploadFieldsJob(svc, provider, payload, temp, w)
    else if jobType == "DELETE_FILE" then DeleteJob(svc, provider, payload, temp, w)
    else Run(Failure(Thrown("Unknown job type: " + jobType)), [], temp, w)
  }
}

=== FILE: files.dfy ===
/** The values that travel between the job producer, the worker, the file
    service and the two storage providers. */
module Files {
  import opened Wrappers
  import opened Strings
  import JsObject

  newtype byte = x: int | 0 <= x < 256

  type Bytes = seq<byte>

  /** What multer reports about an upload, and what a job payload carries
      next to the staged path: `originalname`, `mimetype`, `size`. */
  datatype FileMeta = FileMeta(originalname: string, mimetype: string, size: int)

  /** `{ buffer, originalname, mimetype, size }`: what a provider's `upload` receives. */
  datatype UploadFile = UploadFile(buffer: Bytes, meta: FileMeta)

  /** Upload options: `folder` (`None` when the key is absent) and `compress`.
      The resize `width` is not part of the model. */
  datatype UploadOptions = UploadOptions(folder: Option<string>, compress: bool)

  /** The `{}` options object. */
  const NoOptions := UploadOptions(None, false)

  datatype ProviderKind = Local | S3

  /** The value of the record's `provider` field. */
  function ProviderName(kind: ProviderKind): string {
    match kind
    case Local => "local"
    case S3 => "s3"
  }

  /** The record an `upload` resolves to. `locator` is the `filename` field of
      a local record and the `key` field of an S3 record. */
  datatype FileRecord = FileRecord(
    provider: ProviderKind,
    locator: string,
    url: string,
    size: int,
    mimetype: string)

  /** `${Date.now()}-${originalname}`: the name under which every stage of
      the pipeline stores an upload. */
  function StampedName(now: nat, name: string): string {
    Decimal(now) + "-" + name
  }

  lemma DashAfter(d: string, x: string)
    ensures (d + "-" + x)[|d|] == '-'
  {
  }

  lemma InPrefix(d: string, x: string, i: int)
    ensures 0 <= i < |d| ==> (d + "-" + x)[i] == d[i]
  {
  }

  /** Two stamped names coincide only for the same millisecond and the
      same original name. */
  lemma StampedNameInjective(a: nat, x: string, b: nat, y: string)
    ensures StampedName(a, x) == StampedName(b, y) <==> a == b && x == y
  {
    if StampedName(a, x) == StampedName(b, y) {
      var da, db := Decimal(a), Decimal(b);
      var u := StampedName(a, x);
      assert '-' !in da && '-' !in db;
      if |da| < |db| {
        DashAfter(da, x);
        InPrefix(db, y, |da|);
        assert false;
      } else if |db| < |da| {
        DashAfter(db, y);
        InPrefix(da, x, |db|);
        assert false;
      }
      assert da == u[..|da|] && db == u[..|db|];
      DecimalRoundTrip(a);
      DecimalRoundTrip(b);
      assert x == u[|da| + 1..] && y == u[|db| + 1..];
    }
  }

  /** Every stored name ends with the original name. */
  lemma StampedNameEndsWith(now: nat, name: string)
    ensures EndsWith(StampedName(now, name), "-" + name)
  {
    assert StampedName(now, name) == Decimal(now) + ("-" + name);
    EndsWithConcat(Decimal(now), "-" + name);
  }

  /** The staging directory: staged path to the bytes written there. */
  type TempStore = map<string, Bytes>

  /** One staged file of a multi-file job: `{ tempPath, originalname, mimetype, size }`. */
  datatype TempFile = TempFile(tempPath: string, meta: FileMeta)

  /** The values a file-job payload carries. `FileField` is the multer file
      object (`buffer` absent or present), `TempList` the `tempFiles` array and
      `FieldLists` the `fields` object of a fields upload. */
  datatype PayloadValue =
    | Text(text: string)
    | Count(count: int)
    | FileField(buffer: Option<Bytes>, meta: FileMeta)
    | OptionsField(options: UploadOptions)
    | TempList(files: seq<TempFile>)
    | FieldLists(fields: JsObject.Entries<seq<TempFile>>)
    | Null

  /** A job payload: a plain object. */
  type Payload = JsObject.Entries<PayloadValue>

  /** One upload attempt against a stateful backend: its outcome and the
      state after it, which may have changed even when the upload failed. */
  datatype Attempt<W> = Attempt(result: Result<FileRecord, string>, world: W)
}

=== FILE: job_staging.dfy ===
/** The payload rewrite `FileUtils.enqueueFileJob` performs before queueing a
    job (src/utils/file.util.js): an in-memory upload is written to the
    staging directory and the job carries its path and metadata instead of
    its bytes. */
module JobStaging {
  import opened Wrappers
  import opened Strings
  import opened Files
  import JsObject

  /** `path.join(cwd, "tmp", `${now}-${originalname}`)` for a `cwd` without
      a trailing slash. */
  function StagedPath(cwd: string, now: nat, name: string): string {
    cwd + "/tmp/" + StampedName(now, name)
  }

  /** Two uploads are staged at the same path only when they were staged
      at the same millisecond under the same name. */
  lemma StagedPathInjective(cwd: string, a: nat, x: string, b: nat, y: string)
    ensures StagedPath(cwd, a, x) == StagedPath(cwd, b, y) <==> a == b && x == y
  {
    var dir := cwd + "/tmp/";
    assert StagedPath(cwd, a, x) == dir + StampedName(a, x);
    assert StagedPath(cwd, b, y) == dir + StampedName(b, y);
    if StagedPath(cwd, a, x) == StagedPath(cwd, b, y) {
      assert (dir + StampedName(a, x))[|dir|..] == StampedName(a, x);
      assert (dir + StampedName(b, y))[|dir|..] == StampedName(b, y);
    }
    StampedNameInjective(a, x, b, y);
  }

  /** The upload of a payload whose `file` has a `buffer`; any other
      `file` (absent, without bytes, not a file) stages nothing. */
  function BufferedFile(payload: Payload): Option<(Bytes, FileMeta)> {
    var v := JsObject.Get(payload, "file");
    if v.Some? && v.value.FileField? && v.value.buffer.Some? then Some((v.value.buffer.value, v.value.meta))
    else None
  }

  /** The keys the rewrite writes or deletes. */
  predicate IsStagingKey(k: string) {
    k == "file" || k == "tempPath" || k == "originalname" || k == "mimetype" || k == "size"
  }

  /** The queued payload and the staging directory after the rewrite. */
  datatype Staged = Staged(payload: Payload, temp: TempStore)

  /** The staged payload: `{ ...payload, tempPath, originalname, mimetype, size }`
      without `file`. */
  function Rewrite(payload: Payload, path: string, meta: FileMeta): Payload {
    var p1 := JsObject.Set(payload, "tempPath", Text(path));
    var p2 := JsObject.Set(p1, "originalname", Text(meta.originalname));
    var p3 := JsObject.Set(p2, "mimetype", Text(meta.mimetype));
    var p4 := JsObject.Set(p3, "size", Count(meta.size));
    JsObject.Remove(p4, "file")
  }

  /** Every key reads as the rewrite says: the staged path and metadata in
      place of the file, and every other key untouched. */
  lemma RewriteGet(payload: Payload, path: string, meta: FileMeta, k: string)
    ensures JsObject.Get(Rewrite(payload, path, meta), k) ==
      if k == "file" then None
      else if k == "tempPath" then Some(Text(path))
      else if k == "originalname" then Some(Text(meta.originalname))
      else if k == "mimetype" then Some(Text(meta.mimetype))
      else if k == "size" then Some(Count(meta.size))
      else JsObject.Get(payload, k)
  {
    var p1 := JsObject.Set(payload, "tempPath", Text(path));
    var p2 := JsObject.Set(p1, "originalname", Text(meta.originalname));
    var p3 := JsObject.Set(p2, "mimetype", Text(meta.mimetype));
    var p4 := JsObject.Set(p3, "size", Count(meta.size));
    JsObject.SetGet(payload, "tempPath", Text(path), k);
    JsObject.SetGet(p1, "originalname", Text(meta.originalname), k);
    JsObject.SetGet(p2, "mimetype", Text(meta.mimetype), k);
    JsObject.SetGet(p3, "size", Count(meta.size), k);
    JsObject.RemoveGet(p4, "file", k);
  }

  /** Lines 186-203 of `enqueueFileJob`: with a buffered file, its bytes are
      written to `<cwd>/tmp/<now>-<originalname>` and the payload carries
      that path and the file's metadata instead of the file; otherwise
      nothing is written and the payload is queued as given. */
  function Stage(payload: Payload, cwd: string, now: nat, temp: TempStore): (r: Staged)
    ensures BufferedFile(payload).None? ==> r == Staged(payload, temp)
    ensures BufferedFile(payload).Some? ==>
      var (buffer, meta) := BufferedFile(payload).value;
      var path := StagedPath(cwd, now, meta.originalname);
      && r.temp == temp[path := buffer]
      && JsObject.Get(r.payload, "file").None?
      && JsObject.Get(r.payload, "tempPath") == Some(Text(path))
      && JsObject.Get(r.payload, "originalname") == Some(Text(meta.originalname))
      && JsObject.Get(r.payload, "mimetype") == Some(Text(meta.mimetype))
      && JsObject.Get(r.payload, "size") == Some(Count(meta.size))
      && forall k :: !IsStagingKey(k) ==> JsObject.Get(r.payload, k) == JsObject.Get(payload, k)
  {
    match BufferedFile(payload)
    case None => Staged(payload, temp)
    case Some((buffer, meta)) =>
      var path := StagedPath(cwd, now, meta.originalname);
      var staged := Rewrite(payload, path, meta);
      RewriteGet(payload, path, meta, "file");
      RewriteGet(payload, path, meta, "tempPath");
      RewriteGet(payload, path, meta, "originalname");
      RewriteGet(payload, path, meta, "mimetype");
      RewriteGet(payload, path, meta, "size");
      assert forall k :: !IsStagingKey(k) ==> JsObject.Get(staged, k) == JsObject.Get(payload, k) by {
        forall k | !IsStagingKey(k) ensures JsObject.Get(staged, k) == JsObject.Get(payload, k) {
          RewriteGet(payload, path, meta, k);
        }
      }
      Staged(staged, temp[path := buffer])
  }

  /** Staging is idempotent: a staged payload has no `file` left to stage. */
  lemma StageTwice(payload: Payload, cwd: string, now: nat, later: nat, temp: TempStore)
    ensures var s := Stage(payload, cwd, now, temp);
      Stage(s.payload, cwd, later, s.temp) == s
  {
  }
}

=== FILE: js_object.dfy ===
/** Plain JavaScript objects as the ordered list of their own enumerable
    properties. Assigning an existing key replaces its value in place;
    assigning a new key appends it, so enumeration follows insertion order. */
module JsObject {
  import opened Wrappers

  type Entries<V> = seq<(string, V)>

  function Keys<V>(o: Entries<V>): (ks: seq<string>)
    ensures |ks| == |o|
    ensures forall i :: 0 <= i < |o| ==> ks[i] == o[i].0
  {
    seq(|o|, i requires 0 <= i < |o| => o[i].0)
  }

  lemma KeysSplit<V>(o: Entries<V>)
    requires |o| > 0
    ensures Keys(o) == [o[0].0] + Keys(o[1..])
    ensures Keys(o) == Keys(o[..|o| - 1]) + [o[|o| - 1].0]
  {
  }

  /** The shape every JavaScript object has: no key twice. */
  predicate DistinctKeys<V>(o: Entries<V>) {
    forall i, j :: 0 <= i < j < |o| ==> o[i].0 != o[j].0
  }

  /** Without its first entry an object still has distinct keys, none of
      them the first key. */
  lemma DistinctTail<V>(o: Entries<V>)
    requires DistinctKeys(o) && |o| > 0
    ensures DistinctKeys(o[1..])
    ensures o[0].0 !in Keys(o[1..])
  {
    var rest := o[1..];
    forall i, j | 0 <= i < j < |rest| ensures rest[i].0 != rest[j].0 {
      assert rest[i] == o[i + 1] && rest[j] == o[j + 1];
    }
    forall i | 0 <= i < |rest| ensures rest[i].0 != o[0].0 {
      assert rest[i] == o[i + 1];
    }
  }

  /** `o[k]`, `None` standing for `undefined`. */
  function Get<V>(o: Entries<V>, k: string): (r: Option<V>)
    ensures r.None? <==> k !in Keys(o)
    ensures r.Some? ==> (k, r.value) in o
  {
    if |o| == 0 then None
    else
      KeysSplit(o);
      if o[0].0 == k then Some(o[0].1) else Get(o[1..], k)
  }

  lemma GetCons<V>(e: (string, V), t: Entries<V>, j: string)
    ensures Get([e] + t, j) == if e.0 == j then Some(e.1) else Get(t, j)
  {
    assert ([e] + t)[1..] == t;
  }

  /** The value of the last entry with key `k`. */
  function GetLast<V>(o: Entries<V>, k: string): (r: Option<V>)
    ensures r.None? <==> k !in Keys(o)
    ensures r.Some? ==> (k, r.value) in o
  {
    if |o| == 0 then None
    else
      KeysSplit(o);
      if o[|o| - 1].0 == k then Some(o[|o| - 1].1) else GetLast(o[..|o| - 1], k)
  }

  /** `o[k] = v`. */
  function Set<V>(o: Entries<V>, k: string, v: V): (r: Entries<V>)
    ensures Keys(r) == if k in Keys(o) then Keys(o) else Keys(o) + [k]
  {
    if |o| == 0 then [(k, v)]
    else
      assert o == [o[0]] + o[1..];
      KeysCons(o[0], o[1..]);
      if o[0].0 == k then
        KeysCons((k, v), o[1..]);
        [(k, v)] + o[1..]
      else
        var t := Set(o[1..], k, v);
        KeysCons(o[0], t);
        assert k in Keys(o) <==> k in Keys(o[1..]);
        assert k !in Keys(o) ==> [o[0].0] + (Keys(o[1..]) + [k]) == Keys(o) + [k];
        [o[0]] + t
  }

  lemma KeysCons<V>(e: (string, V), t: Entries<V>)
    ensures Keys([e] + t) == [e.0] + Keys(t)
  {
  }

  /** After `o[k] = v`, `o[k]` is `v` and every other key reads as before. */
  lemma {:induction false} SetGet<V>(o: Entries<V>, k: string, v: V, j: string)
    ensures Get(Set(o, k, v), j) == if j == k then Some(v) else Get(o, j)
  {
    if |o| > 0 {
      var r := Set(o, k, v);
      assert Get(o, j) == if o[0].0 == j then Some(o[0].1) else Get(o[1..], j);
      if o[0].0 == k {
        assert r == [(k, v)] + o[1..];
        GetCons((k, v), o[1..], j);
      } else {
        var t := Set(o[1..], k, v);
        assert r == [o[0]] + t;
        SetGet(o[1..], k, v, j);
        GetCons(o[0], t, j);
      }
    }
  }

  /** `{...o, ...src}`: the entries of `src` assigned onto `o` from first to last. */
  function Assign<V>(o: Entries<V>, src: Entries<V>): (r: Entries<V>)
    ensures Keys(o) <= Keys(r)
    ensures forall k :: k in Keys(r) <==> k in Keys(o) || k in Keys(src)
  {
    if |src| == 0 then o
    else
      KeysSplit(src);
      var last := src[|src| - 1];
      Set(Assign(o, src[..|src| - 1]), last.0, last.1)
  }

  /** A spread key reads as its last value in `src`; any other key as in `o`. */
  lemma {:induction false} AssignGet<V>(o: Entries<V>, src: Entries<V>, k: string)
    ensures Get(Assign(o, src), k) == if k in Keys(src) then GetLast(src, k) else Get(o, k)
  {
    if |src| > 0 {
      KeysSplit(src);
      var init, last := src[..|src| - 1], src[|src| - 1];
      AssignGet(o, init, k);
      SetGet(Assign(o, init), last.0, last.1, k);
    }
  }

  /** `ks` followed by each key of `more` that is not yet present, in the
      order of its first occurrence: the key order of an object after its
      keys are assigned one by one. */
  function AppendNew(ks: seq<string>, more: seq<string>): (r: seq<string>)
    ensures |ks| <= |r| && r[..|ks|] == ks
    ensures forall k :: k in r <==> k in ks || k in more
    ensures (forall i, j :: 0 <= i < j < |ks| ==> ks[i] != ks[j]) ==> forall i, j :: 0 <= i < j < |r| ==> r[i] != r[j]
  {
    if |more| == 0 then ks
    else
      var init, last := more[..|more| - 1], more[|more| - 1];
      assert more == init + [last];
      var r := AppendNew(ks, init);
      if last in r then r else r + [last]
  }

  /** Spreading `src` onto `o` keeps `o`'s keys in place and appends the new
      keys of `src` in the order they first appear. */
  lemma {:induction false} AssignKeys<V>(o: Entries<V>, src: Entries<V>)
    ensures Keys(Assign(o, src)) == AppendNew(Keys(o), Keys(src))
  {
    if |src| > 0 {
      KeysSplit(src);
      var init := src[..|src| - 1];
      AssignKeys(o, init);
      assert Keys(src)[..|src| - 1] == Keys(init);
    }
  }

  /** Assignment keeps an object's keys distinct. */
  lemma {:induction false} SetKeepsDistinct<V>(o: Entries<V>, k: string, v: V)
    requires DistinctKeys(o)
    ensures DistinctKeys(Set(o, k, v))
  {
    var r := Set(o, k, v);
    var ko, kr := Keys(o), Keys(r);
    if k in ko {
      assert kr == ko;
    } else {
      assert kr == ko + [k];
      forall i, j | 0 <= i < j < |r| ensures r[i].0 != r[j].0 {
        assert r[i].0 == kr[i] && r[j].0 == kr[j];
        if j < |o| {
          assert kr[i] == o[i].0 && kr[j] == o[j].0;
        } else {
          assert kr[j] == k && kr[i] == ko[i];
        }
      }
    }
  }

  /** `delete o[k]`. */
  function Remove<V>(o: Entries<V>, k: string): (r: Entries<V>)
    ensures |r| <= |o|
    ensures forall j :: j in Keys(r) <==> j in Keys(o) && j != k
  {
    if |o| == 0 then []
    else
      KeysSplit(o);
      var rest := Remove(o[1..], k);
      if o[0].0 == k then rest
      else
        var r := [o[0]] + rest;
        KeysSplit(r);
        assert r[1..] == rest;
        r
  }

  /** After `delete o[k]`, `o[k]` is `undefined` and every other key reads as before. */
  lemma {:induction false} RemoveGet<V>(o: Entries<V>, k: string, j: string)
    ensures Get(Remove(o, k), j) == if j == k then None else Get(o, j)
  {
    if |o| > 0 {
      assert o == [o[0]] + o[1..];
      GetCons(o[0], o[1..], j);
      RemoveGet(o[1..], k, j);
      if o[0].0 != k {
        GetCons(o[0], Remove(o[1..], k), j);
      }
    }
  }
}

=== FILE: jwt.dfy ===
/** `JwtUtils.extractBearerToken` (src/utils/jwt.util.js): the token of an
    `Authorization: Bearer <token>` header. Signing, verification and
    decoding are library calls and are not part of this model. */
module Jwt {
  import opened Wrappers
  import opened Strings

  const BearerPrefix := "Bearer "

  /** A header that starts with the exact, case-sensitive `"Bearer "` splits
      into `"Bearer"` followed by the pieces of the rest. */
  lemma SplitBearer(h: string)
    requires StartsWith(h, BearerPrefix)
    ensures Split(h, ' ') == ["Bearer"] + Split(h[|BearerPrefix|..], ' ')
  {
    assert h == "Bearer" + [' '] + h[|BearerPrefix|..];
    assert NoSeparator("Bearer", CharIs(' '));
    SplitByAtSeparator("Bearer", ' ', h[|BearerPrefix|..], CharIs(' '));
  }

  /** `header.split(" ")[1]` of a Bearer header: the text between its first
      and second space, or up to its end when there is no second space. */
  function BearerPiece(h: string): (t: string)
    requires StartsWith(h, BearerPrefix)
    ensures ' ' !in t
    ensures StartsWith(h, BearerPrefix + t)
    ensures |h| == |BearerPrefix| + |t| || h[|BearerPrefix| + |t|] == ' '
  {
    SplitBearer(h);
    var rest := h[|BearerPrefix|..];
    SplitByHead(rest, CharIs(' '));
    assert Split(rest, ' ')[0] == Split(h, ' ')[1];
    var t := Split(h, ' ')[1];
    assert h[..|BearerPrefix| + |t|] == BearerPrefix + rest[..|t|];
    t
  }

  /** `extractBearerToken(header)`: no token for a missing or empty header
      or one without the `"Bearer "` prefix; otherwise the second
      space-separated piece, which may be empty (`"Bearer "`). */
  function ExtractBearerToken(header: Option<string>): (r: Option<string>)
    ensures r.Some? <==> header.Some? && StartsWith(header.value, BearerPrefix)
    ensures r.Some? ==> r.value == BearerPiece(header.value)
  {
    if header.None? || header.value == "" then None
    else if !StartsWith(header.value, BearerPrefix) then None
    else
      SplitBearer(header.value);
      Some(Split(header.value, ' ')[1])
  }

  /** The `i`-th character of a slice is a character of the whole. */
  lemma CharOf(h: string, off: int, u: string, i: int)
    ensures 0 <= off && off + |u| <= |h| && h[off..off + |u|] == u && 0 <= i < |u| ==> u[i] == h[off + i]
  {
  }

  /** The token is determined by the header: a space-free `t` after the
      prefix, followed by nothing or by a space, is exactly what is
      extracted. */
  lemma ExtractsBetweenSpaces(t: string, rest: string)
    requires ' ' !in t
    requires rest == "" || rest[0] == ' '
    ensures ExtractBearerToken(Some(BearerPrefix + t + rest)) == Some(t)
  {
    var h := BearerPrefix + t + rest;
    assert StartsWith(h, BearerPrefix);
    var u := BearerPiece(h);
    var n := |BearerPrefix|;
    assert h[n..n + |t|] == t && h[n + |t|..] == rest;
    assert u == h[n..n + |u|];
    CharOf(h, n, t, |u|);
    CharOf(h, n, u, |t|);
    CharOf(h, n + |t|, rest, 0);
    if |u| < |t| {
      assert false;
    } else if |u| > |t| {
      assert false;
    }
  }

  /** The extracted token never holds a space, so it is never itself a
      Bearer header. */
  lemma TokenHasNoSpace(header: Option<string>)
    requires ExtractBearerToken(header).Some?
    ensures ' ' !in ExtractBearerToken(header).value
    ensures !StartsWith(ExtractBearerToken(header).value, BearerPrefix)
  {
    var t := ExtractBearerToken(header).value;
    CharOf(t, 0, BearerPrefix, 6);
    if StartsWith(t, BearerPrefix) {
      assert false;
    }
  }
}

=== FILE: local_provider.dfy ===
/** `LocalFileProvider` (src/providers/local.provider.js): uploads written
    below the `public` directory and served from the site root. The disk is
    a map from paths relative to the working directory to bytes; image
    resizing is a byte transform given by the caller that may reject its
    input, as `sharp(...).toBuffer()` does for bytes it cannot decode. */
module LocalProvider {
  import opened Wrappers
  import opened Strings
  import opened Files

  type Disk = map<string, Bytes>

  /** `folder = ""`: the default applies only when the option is absent. */
  function Folder(options: UploadOptions): string {
    options.folder.GetOr("")
  }

  /** The public URL: `/<folder>/<filename>`, or `/<filename>` without a folder. */
  function Url(folder: string, filename: string): string {
    if folder != "" then "/" + folder + "/" + filename else "/" + filename
  }

  /** `path.join("public", folder, filename)`, without `..` normalisation. */
  function FilePath(folder: string, filename: string): string {
    if folder != "" then "public/" + folder + "/" + filename else "public/" + filename
  }

  /** A file is served at its path below `public`: the URL is the disk path
      with the `public` prefix cut off. */
  lemma UrlIsPublicPath(folder: string, filename: string)
    ensures FilePath(folder, filename) == "public" + Url(folder, filename)
  {
  }

  /** Resizing applies only to image uploads that ask for compression. */
  predicate Compresses(options: UploadOptions, mimetype: string) {
    options.compress && StartsWith(mimetype, "image/")
  }

  /** The sharp pipeline: resized bytes, or the error it rejects the input with. */
  type Resize = Bytes -> Result<Bytes, string>

  /** The upload writes something: the file is not resized, or resizing accepts it. */
  predicate Writes(file: UploadFile, options: UploadOptions, resize: Resize) {
    !Compresses(options, file.meta.mimetype) || resize(file.buffer).Success?
  }

  /** The record an upload resolves to and the disk after it. */
  datatype Uploaded = Uploaded(record: FileRecord, disk: Disk)

  /** `upload(file, options)` at time `now`: the bytes (resized when
      `Compresses`) are written to `public/<folder>/<now>-<originalname>`;
      the record reports that name and URL with the size and type the
      caller supplied, not those of the written bytes. A resize that
      rejects the bytes fails the upload with its error before anything is
      written. */
  function Upload(disk: Disk, file: UploadFile, options: UploadOptions, now: nat, resize: Resize): (r: Result<Uploaded, string>)
    ensures r.Failure? <==> !Writes(file, options, resize)
    ensures r.Failure? ==> r.error == resize(file.buffer).error
    ensures r.Success? ==>
      var u := r.value;
      && u.record.provider == Local
      && u.record.locator == StampedName(now, file.meta.originalname)
      && u.record.size == file.meta.size && u.record.mimetype == file.meta.mimetype
      && FilePath(Folder(options), u.record.locator) in u.disk
      && u.disk[FilePath(Folder(options), u.record.locator)] ==
           (if Compresses(options, file.meta.mimetype) then resize(file.buffer).value else file.buffer)
      && (forall p :: p != FilePath(Folder(options), u.record.locator) ==>
           (p in u.disk <==> p in disk) && (p in disk ==> u.disk[p] == disk[p]))
      && FilePath(Folder(options), u.record.locator) == "public" + u.record.url
  {
    var folder := Folder(options);
    var filename := StampedName(now, file.meta.originalname);
    var bytes :- if Compresses(options, file.meta.mimetype) then resize(file.buffer) else Success(file.buffer);
    UrlIsPublicPath(folder, filename);
    Success(Uploaded(
      FileRecord(Local, filename, Url(folder, filename), file.meta.size, file.meta.mimetype),
      disk[FilePath(folder, filename) := bytes]))
  }

  /** `delete(filename, folder)`: a missing file is an error and changes
      nothing; an existing one is removed, and nothing else is. */
  function Delete(disk: Disk, filename: string, folder: string): (r: Result<Disk, string>)
    ensures r.Failure? <==> FilePath(folder, filename) !in disk
    ensures r.Failure? ==> r.error == "File not found"
    ensures r.Success? ==> r.value.Keys == disk.Keys - {FilePath(folder, filename)}
    ensures r.Success? ==> forall p :: p in r.value ==> r.value[p] == disk[p]
  {
    var path := FilePath(folder, filename);
    if path !in disk then Failure("File not found") else Success(disk - {path})
  }

  /** Deleting what was just uploaded, by the record's file name and the
      upload's folder, gives back the disk as it was before the upload
      whenever the stored path was free. */
  lemma DeleteUndoesUpload(disk: Disk, file: UploadFile, options: UploadOptions, now: nat, resize: Resize)
    requires FilePath(Folder(options), StampedName(now, file.meta.originalname)) !in disk
    ensures var r := Upload(disk, file, options, now, resize);
      r.Success? ==> Delete(r.value.disk, r.value.record.locator, Folder(options)) == Success(disk)
  {
    var r := Upload(disk, file, options, now, resize);
    if r.Success? {
      var u := r.value;
      var path := FilePath(Folder(options), u.record.locator);
      assert u.disk - {path} == disk;
    }
  }
}

=== FILE: pipeline.dfy ===
/** The single-file upload path end to end: `enqueueFileJob` stages the
    upload (src/utils/file.util.js), the worker handles the job
    (src/workers/file_worker.js) through `fileService.uploadSingle`
    (src/services/file.service.js) on the local provider
    (src/providers/local.provider.js). The queue between producer and
    worker is left out: the staged payload is handed over as it is. */
module Pipeline {
  import opened Wrappers
  import opened Files
  import JsObject
  import JobStaging
  import FileWorker
  import FileService
  import Providers
  import LocalProvider

  /** The worker's services: the file service under one environment. */
  function ServicesOf(env: FileService.Env): FileWorker.Services<FileService.World> {
    FileWorker.Services(
      (w, provider, file, options) => FileService.UploadSingle(env, w, provider, Some(file), options),
      (w, provider, fileId) => FileService.DeleteFile(env, w, fileId, provider))
  }

  /** A buffered upload that is staged and then handled by the worker on
      the local provider succeeds exactly when the resize accepts it (or
      none is needed). Then it stores the buffer (resized only for a
      compressed image) under the record's name and leaves the staging
      directory as it found it when the staged path was free; otherwise the
      job fails, the staged file stays and the disk is unchanged. */
  lemma StagedUploadLandsLocally(
    env: FileService.Env, w: FileService.World, provider: Option<string>,
    payload: Payload, cwd: string, now: nat, temp: TempStore)
    requires JobStaging.BufferedFile(payload).Some?
    requires Providers.GetFileProvider(provider, env.fileStorage) == Local
    requires FileWorker.ReadOptions(payload).Success?
    requires JobStaging.StagedPath(cwd, now, JobStaging.BufferedFile(payload).value.1.originalname) !in temp
    ensures
      var (buffer, meta) := JobStaging.BufferedFile(payload).value;
      var options := FileWorker.ReadOptions(payload).value;
      var s := JobStaging.Stage(payload, cwd, now, temp);
      var r := FileWorker.Handle(ServicesOf(env), "UPLOAD_SINGLE", provider, s.payload, s.temp, w);
      && (r.outcome.Success? <==> LocalProvider.Writes(UploadFile(buffer, meta), options, env.resize))
      && (r.outcome.Failure? ==> r.temp == s.temp && r.world.disk == w.disk)
      && (r.outcome.Success? ==>
            && r.temp == temp
            && r.outcome.value.Single?
            && r.outcome.value.record.provider == Local
            && r.outcome.value.record.size == meta.size
            && r.outcome.value.record.mimetype == meta.mimetype
            && r.outcome.value.record.locator == StampedName(FileService.Now(env, w), meta.originalname)
            && var stored := LocalProvider.FilePath(LocalProvider.Folder(options), r.outcome.value.record.locator);
            && stored in r.world.disk
            && r.world.disk[stored] ==
                 if LocalProvider.Compresses(options, meta.mimetype) then env.resize(buffer).value else buffer)
  {
    var (buffer, meta) := JobStaging.BufferedFile(payload).value;
    var options := FileWorker.ReadOptions(payload).value;
    var s := JobStaging.Stage(payload, cwd, now, temp);
    var path := JobStaging.StagedPath(cwd, now, meta.originalname);
    StagedPayloadReadable(payload, cwd, now, temp);
    var svc := ServicesOf(env);
    var file := UploadFile(buffer, meta);
    assert s.temp[path] == buffer;
    var a := svc.upload(w, provider, file, options);
    var up := LocalProvider.Upload(w.disk, file, options, FileService.Now(env, w), env.resize);
    assert a == FileService.ProviderUpload(env, w, Local, file, options);
    var r := FileWorker.Handle(svc, "UPLOAD_SINGLE", provider, s.payload, s.temp, w);
    assert r == FileWorker.UploadSingleJob(svc, provider, s.payload, s.temp, w);
    if up.Success? {
      var u := up.value;
      assert a.result == Success(u.record);
      assert a.world.disk == u.disk;
      assert r == FileWorker.Run(Success(FileWorker.Single(u.record)),
        [FileWorker.Read(path), FileWorker.Upload(file, options, a.result), FileWorker.Unlink(path)], s.temp - {path}, a.world);
      assert s.temp - {path} == temp;
      assert r.outcome.value.record == u.record && r.world.disk == u.disk;
      assert LocalProvider.FilePath(LocalProvider.Folder(options), u.record.locator) in u.disk;
    } else {
      assert a.result.Failure? && a.world.disk == w.disk;
      assert r == FileWorker.Run(Failure(FileWorker.ServiceFailed(a.result.error)),
        [FileWorker.Read(path), FileWorker.Upload(file, options, a.result)], s.temp, a.world);
    }
  }

  /** The staged payload carries the staged path, the file's metadata and
      the original options, and the staging directory holds the buffer. */
  lemma StagedPayloadReadable(payload: Payload, cwd: string, now: nat, temp: TempStore)
    requires JobStaging.BufferedFile(payload).Some?
    requires FileWorker.ReadOptions(payload).Success?
    ensures var (buffer, meta) := JobStaging.BufferedFile(payload).value;
      var s := JobStaging.Stage(payload, cwd, now, temp);
      var path := JobStaging.StagedPath(cwd, now, meta.originalname);
      && FileWorker.Readable(s.payload)
      && JsObject.Get(s.payload, "tempPath") == Some(Text(path))
      && FileWorker.ReadMeta(s.payload) == Success(meta)
      && FileWorker.ReadOptions(s.payload) == FileWorker.ReadOptions(payload)
      && path in s.temp && s.temp[path] == buffer
      && (path !in temp ==> s.temp - {path} == temp)
  {
    var (buffer, meta) := JobStaging.BufferedFile(payload).value;
    var s := JobStaging.Stage(payload, cwd, now, temp);
    var path := JobStaging.StagedPath(cwd, now, meta.originalname);
    assert s.payload == JobStaging.Rewrite(payload, path, meta);
    assert path != "" by {
      assert |cwd + "/tmp/"| > 0;
    }
    RewriteReadable(payload, path, meta);
    assert s.temp == temp[path := buffer];
    if path !in temp {
      UpdateThenRemove(temp, path, buffer);
    }
  }

  /** Adding a fresh key and taking it away again gives the map back. */
  lemma UpdateThenRemove<K, V>(m: map<K, V>, k: K, v: V)
    requires k !in m
    ensures m[k := v] - {k} == m
  {
  }

  /** The rewritten payload reads back as the worker expects: a non-empty
      path, the metadata that was staged, and the options as they were. */
  lemma RewriteReadable(payload: Payload, path: string, meta: FileMeta)
    requires path != ""
    requires FileWorker.ReadOptions(payload).Success?
    ensures var p := JobStaging.Rewrite(payload, path, meta);
      && FileWorker.Readable(p)
      && FileWorker.ReadMeta(p) == Success(meta)
      && FileWorker.ReadOptions(p) == FileWorker.ReadOptions(payload)
  {
    var p := JobStaging.Rewrite(payload, path, meta);
    JobStaging.RewriteGet(payload, path, meta, "tempPath");
    JobStaging.RewriteGet(payload, path, meta, "originalname");
    JobStaging.RewriteGet(payload, path, meta, "mimetype");
    JobStaging.RewriteGet(payload, path, meta, "size");
    JobStaging.RewriteGet(payload, path, meta, "options");
    FileWorker.ReadableByKeys(p, path, meta, payload);
  }
}

=== FILE: providers.dfy ===
/** `getFileProvider` (src/providers/index.js): which storage backend a
    request is served by. */
module Providers {
  import opened Wrappers
  import opened Strings
  import opened Files

  /** A string option as JavaScript's `||` sees it: `undefined`, `null` and
      "" are falsy. */
  predicate Given(s: Option<string>) {
    s.Some? && s.value != ""
  }

  /** `provider || appConfig.FILE_STORAGE || "local"`. */
  function ProviderType(provider: Option<string>, configured: Option<string>): (t: string)
    ensures t != ""
    ensures Given(provider) ==> t == provider.value
    ensures !Given(provider) && Given(configured) ==> t == configured.value
    ensures !Given(provider) && !Given(configured) ==> t == "local"
  {
    if Given(provider) then provider.value
    else if Given(configured) then configured.value
    else "local"
  }

  /** The `switch` on the lower-cased type: "s3" selects S3, everything
      else, "local" included, the local provider. */
  function GetFileProvider(provider: Option<string>, configured: Option<string>): (k: ProviderKind)
    ensures k == S3 <==> ToLower(ProviderType(provider, configured)) == "s3"
  {
    if ToLower(ProviderType(provider, configured)) == "s3" then S3 else Local
  }

  /** The strings that lower-case to "s3" are "s3" and "S3". */
  lemma LowersToS3(s: string)
    ensures ToLower(s) == "s3" <==> s == "s3" || s == "S3"
  {
    if ToLower(s) == "s3" {
      assert |s| == 2;
      assert ToLower(s)[0] == LowerChar(s[0]) && ToLower(s)[1] == LowerChar(s[1]);
      assert s[0] == 's' || s[0] == 'S';
      assert s == [s[0], s[1]];
    } else {
      assert ToLower("s3") == "s3";
      assert ToLower("S3") == "s3";
    }
  }

  /** "s3" in either letter case selects S3; every other non-empty string
      selects the local provider. */
  lemma SelectByName(name: string, configured: Option<string>)
    requires name != ""
    ensures GetFileProvider(Some(name), configured) == S3 <==> name == "s3" || name == "S3"
    ensures GetFileProvider(Some(name), configured) == Local <==> name != "s3" && name != "S3"
  {
    LowersToS3(name);
  }

  /** With neither an argument nor a configured storage, files stay local. */
  lemma DefaultIsLocal(provider: Option<string>, configured: Option<string>)
    requires !Given(provider) && !Given(configured)
    ensures GetFileProvider(provider, configured) == Local
  {
    assert ToLower("local") == "local";
  }
}

=== FILE: query_engine.dfy ===
/** `QueryEngine` itself (src/services/query.service.js): option merging,
    the search `$or`, sorting, field selection, pagination arithmetic and
    `_buildAll`, which puts them together with the filter. */
module QueryEngine {
  import opened Wrappers
  import opened Strings
  import opened QuerySchema
  import opened QueryFilter
  import JsObject

  // ---------------------------------------------------------------- options

  /** An option as the caller wrote it: left out of the options object, or
      given (possibly as `undefined`/`null`, which is `Given(None)`). */
  datatype Supplied<T> = Omitted | Given(value: Option<T>)

  /** The `options` argument of the constructor. */
  datatype EngineOptions = EngineOptions(
    searchable: Supplied<seq<string>>,
    defaultSort: Supplied<string>,
    select: Supplied<string>)

  /** `appConfig.pagination`. */
  datatype PaginationConfig = PaginationConfig(defaultPage: int, defaultLimit: int, defaultSortBy: string)

  /** `this.options` after the merge; an `undefined` select is kept as "",
      which every reader treats the same way. */
  datatype Settings = Settings(searchable: Option<seq<string>>, defaultSort: Option<string>, select: string)

  /** `{ searchable: o.searchable || null, defaultSort: o.defaultSort || config,
      select: o.select || "", ...o }`: the fallbacks apply only to options
      left out, because the spread writes back every option given, even an
      empty or `undefined` one. */
  function MergeOptions(options: EngineOptions, config: PaginationConfig): (s: Settings)
    ensures options.defaultSort.Given? ==> s.defaultSort == options.defaultSort.value
    ensures options.defaultSort.Omitted? ==> s.defaultSort == Some(config.defaultSortBy)
    ensures options.searchable.Given? ==> s.searchable == options.searchable.value
    ensures options.searchable.Omitted? ==> s.searchable.None?
    ensures s.select != "" <==> options.select.Given? && options.select.value.Some? && options.select.value.value != ""
  {
    var fallback := Settings(None, Some(config.defaultSortBy), "");
    Settings(
      match options.searchable case Omitted => fallback.searchable case Given(v) => v,
      match options.defaultSort case Omitted => fallback.defaultSort case Given(v) => v,
      match options.select case Given(Some(v)) => v case _ => fallback.select)
  }

  /** The engine as constructed: `this.q`, `this.options` and `this.schemaInfo`. */
  datatype Engine = Engine(q: JsObject.Entries<string>, settings: Settings, info: SchemaInfo)

  /** `new QueryEngine(model, rawQuery, options)`, with the model reduced to
      its schema paths. */
  function NewEngine(paths: JsObject.Entries<SchemaPath>, q: JsObject.Entries<string>,
                     options: EngineOptions, config: PaginationConfig): Engine {
    Engine(q, MergeOptions(options, config), ExtractSchemaInfo(paths))
  }

  /** The fields a search runs over: `options.searchable || auto-detected`;
      a given list is used even when empty. */
  function SearchFields(e: Engine): seq<string> {
    e.settings.searchable.GetOr(AutoDetectStringFields(e.info))
  }

  // ---------------------------------------------------------------- search

  /** The characters of `/[,\s]+/`. */
  predicate IsSearchSeparator(c: char) {
    c == ',' || IsWhitespace(c)
  }

  /** `String(term).split(/[,\s]+/).map(t => t.trim()).filter(Boolean)`:
      cutting at every separator character and dropping the empty pieces
      gives the same tokens as cutting at separator runs. */
  function Tokens(term: string): (ts: seq<string>)
    ensures forall i :: 0 <= i < |ts| ==> ts[i] != "" && NoSeparator(ts[i], IsSearchSeparator)
  {
    var pieces := SplitBy(term, IsSearchSeparator);
    var ts := Compact(TrimAll(pieces));
    forall i | 0 <= i < |ts| ensures NoSeparator(ts[i], IsSearchSeparator) {
      assert ts[i] in ts;
      TrimmedPieceClean(pieces, IsSearchSeparator, ts[i]);
    }
    ts
  }

  /** Trimming keeps a separator-free piece separator-free. */
  lemma TrimmedPieceClean(pieces: seq<string>, isSep: char -> bool, x: string)
    requires forall i, j :: 0 <= i < |pieces| && 0 <= j < |pieces[i]| ==> !isSep(pieces[i][j])
    requires x in TrimAll(pieces)
    ensures NoSeparator(x, isSep)
  {
    var j :| 0 <= j < |pieces| && TrimAll(pieces)[j] == x;
    forall k | 0 <= k < |x| ensures !isSep(x[k]) {
      assert x[k] in pieces[j];
      var m :| 0 <= m < |pieces[j]| && pieces[j][m] == x[k];
    }
  }

  /** Words separated by single spaces are searched as exactly those words. */
  lemma TokensOfWords(words: seq<string>)
    requires |words| >= 1
    requires forall i :: 0 <= i < |words| ==> words[i] != "" && NoSeparator(words[i], IsSearchSeparator)
    ensures Tokens(Join(words, " ")) == words
  {
    SplitByJoin(words, ' ', IsSearchSeparator);
    forall i | 0 <= i < |words| ensures Trim(words[i]) == words[i] {
      TrimNoWhitespace(words[i]);
    }
    assert TrimAll(words) == words;
    CompactNonEmpty(words);
  }

  /** `{ [field]: { $regex: token, $options: "i" } }`. */
  datatype SearchClause = SearchClause(field: string, pattern: string)

  /** The clauses of one token, one per field in field order. */
  function TokenClauses(token: string, fields: seq<string>): (cs: seq<SearchClause>)
    ensures |cs| == |fields|
    ensures forall j :: 0 <= j < |fields| ==> cs[j] == SearchClause(fields[j], token)
  {
    seq(|fields|, j requires 0 <= j < |fields| => SearchClause(fields[j], token))
  }

  /** The nested loop: for every token, for every field. */
  function SearchClauses(tokens: seq<string>, fields: seq<string>): (cs: seq<SearchClause>)
    ensures |cs| == |tokens| * |fields|
  {
    if |tokens| == 0 then []
    else TokenClauses(tokens[0], fields) + SearchClauses(tokens[1..], fields)
  }

  lemma MulPred(a: int, n: int)
    ensures (a - 1) * n + n == a * n
  {
  }

  /** Clause `i * |fields| + j` searches token `i` in field `j`: token-major order. */
  lemma {:induction false} SearchClauseAt(tokens: seq<string>, fields: seq<string>, i: nat, j: nat)
    requires i < |tokens| && j < |fields|
    ensures i * |fields| + j < |SearchClauses(tokens, fields)|
    ensures SearchClauses(tokens, fields)[i * |fields| + j] == SearchClause(fields[j], tokens[i])
    decreases i
  {
    var n := |fields|;
    var head := TokenClauses(tokens[0], fields);
    var rest := SearchClauses(tokens[1..], fields);
    assert SearchClauses(tokens, fields) == head + rest;
    if i > 0 {
      SearchClauseAt(tokens[1..], fields, i - 1, j);
      MulPred(i, n);
      MulPred(|tokens|, n);
      assert (i - 1) * n + j < (|tokens| - 1) * n;
      assert i * n + j == n + ((i - 1) * n + j);
      assert (head + rest)[i * n + j] == rest[(i - 1) * n + j];
    } else {
      assert |head| == n;
    }
  }

  /** `_buildSearchQuery(term)`: `None` is `{}`, otherwise the `$or` clauses. */
  function BuildSearchQuery(term: Option<string>, fields: seq<string>): (r: Option<seq<SearchClause>>)
    ensures r.None? <==>
      term.None? || term.value == "" || |fields| == 0 || |Tokens(term.value)| == 0
    ensures r.Some? ==> r.value == SearchClauses(Tokens(term.value), fields)
  {
    if term.None? || term.value == "" then None
    else if |fields| == 0 then None
    else
      var cs := SearchClauses(Tokens(term.value), fields);
      assert |cs| == 0 <==> |Tokens(term.value)| == 0 by {
        if |Tokens(term.value)| > 0 {
          assert |cs| >= |fields|;
        }
      }
      if |cs| == 0 then None else Some(cs)
  }

  // ---------------------------------------------------------------- sorting

  function SortKey(c: string): string {
    if StartsWith(c, "-") then c[1..] else c
  }

  function SortDirection(c: string): int {
    if StartsWith(c, "-") then -1 else 1
  }

  /** Trimming and dropping empty pieces never brings back a character
      that no piece holds. */
  lemma CleanLacks(pieces: seq<string>, c: char)
    requires forall i :: 0 <= i < |pieces| ==> c !in pieces[i]
    ensures forall i :: 0 <= i < |Compact(TrimAll(pieces))| ==> c !in Compact(TrimAll(pieces))[i]
  {
    var ts := TrimAll(pieces);
    forall i | 0 <= i < |ts| ensures c !in ts[i] {
      assert ts[i] == Trim(pieces[i]);
    }
    var cs := Compact(ts);
    forall i | 0 <= i < |cs| ensures c !in cs[i] {
      assert cs[i] in ts;
    }
  }

  /** `String(sort).split(",").map(s => s.trim()).filter(Boolean)`. */
  function SortClauses(spec: string): (cs: seq<string>)
    ensures forall i :: 0 <= i < |cs| ==> cs[i] != "" && ',' !in cs[i]
  {
    CleanLacks(Split(spec, ','), ',');
    Compact(TrimAll(Split(spec, ',')))
  }

  /** The `(key, direction)` assignments the loop performs, in order. */
  function SortPairs(cs: seq<string>): (ps: JsObject.Entries<int>)
    ensures |ps| == |cs|
    ensures forall i :: 0 <= i < |cs| ==> ps[i] == (SortKey(cs[i]), SortDirection(cs[i]))
  {
    seq(|cs|, i requires 0 <= i < |cs| => (SortKey(cs[i]), SortDirection(cs[i])))
  }

  /** `_applySorting`: `None` leaves the query unsorted. */
  function ApplySorting(sortParam: Option<string>): (r: Option<JsObject.Entries<int>>)
    ensures r.None? <==> sortParam.None? || |SortClauses(sortParam.value)| == 0
    ensures r.Some? ==> forall k :: k in JsObject.Keys(r.value) <==>
      exists i :: 0 <= i < |SortClauses(sortParam.value)| && SortKey(SortClauses(sortParam.value)[i]) == k
  {
    if sortParam.None? then None
    else if sortParam.value == "" then
      NoClausesInEmpty();
      None
    else
      var cs := SortClauses(sortParam.value);
      if |cs| == 0 then None
      else
        var ps := SortPairs(cs);
        SortPairsKeys(cs);
        Some(JsObject.Assign([], ps))
  }

  lemma NoClausesInEmpty()
    ensures SortClauses("") == []
  {
    assert Split("", ',') == [""];
    assert TrimAll([""]) == [""];
  }

  /** The keys assigned are the keys of the clauses. */
  lemma SortPairsKeys(cs: seq<string>)
    ensures forall k :: k in JsObject.Keys(SortPairs(cs)) <==> exists i :: 0 <= i < |cs| && SortKey(cs[i]) == k
  {
    var ps := SortPairs(cs);
    forall k | k in JsObject.Keys(ps) ensures exists i :: 0 <= i < |cs| && SortKey(cs[i]) == k {
      var i :| 0 <= i < |ps| && JsObject.Keys(ps)[i] == k;
      assert SortKey(cs[i]) == k;
    }
    forall k | exists i :: 0 <= i < |cs| && SortKey(cs[i]) == k ensures k in JsObject.Keys(ps) {
      var i :| 0 <= i < |cs| && SortKey(cs[i]) == k;
      assert JsObject.Keys(ps)[i] == k;
    }
  }

  /** Each sort key gets the direction of its last clause: -1 after a
      leading "-", else 1. */
  lemma SortDirectionOf(spec: string, k: string)
    requires ApplySorting(Some(spec)).Some?
    ensures JsObject.Get(ApplySorting(Some(spec)).value, k) == JsObject.GetLast(SortPairs(SortClauses(spec)), k)
  {
    var ps := SortPairs(SortClauses(spec));
    JsObject.AssignGet([], ps, k);
  }

  /** The sort keys of the clauses, in clause order. */
  function ClauseKeys(cs: seq<string>): (ks: seq<string>)
    ensures |ks| == |cs|
  {
    seq(|cs|, i requires 0 <= i < |cs| => SortKey(cs[i]))
  }

  /** The sort object lists each key once, in the order of its first clause:
      a later clause for the same key changes the direction, not the order. */
  lemma SortKeyOrder(spec: string)
    requires ApplySorting(Some(spec)).Some?
    ensures JsObject.Keys(ApplySorting(Some(spec)).value) == JsObject.AppendNew([], ClauseKeys(SortClauses(spec)))
  {
    var cs := SortClauses(spec);
    JsObject.AssignKeys([], SortPairs(cs));
    assert JsObject.Keys(SortPairs(cs)) == ClauseKeys(cs);
    assert JsObject.Keys<int>([]) == [];
  }

  /** Clauses joined with commas parse back to themselves when each is
      non-empty, comma-free and already trimmed. */
  lemma SortClausesOfJoin(cs: seq<string>)
    requires |cs| >= 1
    requires forall i :: 0 <= i < |cs| ==> cs[i] != "" && ',' !in cs[i] && Trim(cs[i]) == cs[i]
    ensures SortClauses(Join(cs, ",")) == cs
  {
    SplitJoin(cs, ',');
    assert TrimAll(cs) == cs;
    CompactNonEmpty(cs);
  }

  /** Every direction is 1 or -1. */
  lemma SortDirectionsAreUnit(spec: string, k: string)
    requires ApplySorting(Some(spec)).Some?
    ensures JsObject.Get(ApplySorting(Some(spec)).value, k) in {None, Some(1), Some(-1)}
  {
    SortDirectionOf(spec, k);
    var ps := SortPairs(SortClauses(spec));
    var d := JsObject.GetLast(ps, k);
    if d.Some? {
      var i :| 0 <= i < |ps| && ps[i] == (k, d.value);
    }
  }

  // ---------------------------------------------------------------- select

  /** `selectFields`: the space-separated words of `options.select` when it
      is non-empty, otherwise the trimmed comma-separated `fields` parameter. */
  function SelectFields(select: string, fields: Option<string>): (fs: seq<string>)
    ensures forall i :: 0 <= i < |fs| ==> fs[i] != ""
    ensures select != "" ==> forall i :: 0 <= i < |fs| ==> ' ' !in fs[i]
  {
    if select != "" then
      var ws := Compact(Split(select, ' '));
      assert forall i :: 0 <= i < |ws| ==> ws[i] in Split(select, ' ');
      ws
    else if fields.Some? && fields.value != "" then Compact(TrimAll(Split(fields.value, ',')))
    else []
  }

  /** With a non-empty `options.select`, the `fields` parameter is ignored. */
  lemma SelectIgnoresFieldsParam(select: string, f1: Option<string>, f2: Option<string>)
    requires select != ""
    ensures SelectFields(select, f1) == SelectFields(select, f2)
  {
  }

  /** An `options.select` of space-separated words selects those words,
      whatever the `fields` parameter says. */
  lemma SelectFieldsOfWords(ws: seq<string>, fields: Option<string>)
    requires |ws| >= 1
    requires forall i :: 0 <= i < |ws| ==> ws[i] != "" && ' ' !in ws[i]
    ensures SelectFields(Join(ws, " "), fields) == ws
  {
    SplitJoin(ws, ' ');
    assert Join(ws, " ") != "" by {
      assert Split("", ' ') == [""];
    }
    CompactNonEmpty(ws);
  }

  /** Without `options.select`, a `fields` parameter of comma-separated
      names selects those names when each is non-empty, comma-free and
      already trimmed. */
  lemma SelectFieldsOfFields(fs: seq<string>)
    requires |fs| >= 1
    requires forall i :: 0 <= i < |fs| ==> fs[i] != "" && ',' !in fs[i] && Trim(fs[i]) == fs[i]
    ensures SelectFields("", Some(Join(fs, ","))) == fs
  {
    SplitJoin(fs, ',');
    assert Join(fs, ",") != "" by {
      assert Split("", ',') == [""];
    }
    assert TrimAll(fs) == fs;
    CompactNonEmpty(fs);
  }

  /** `_applySelect`: `None` leaves the query's projection alone. */
  function ApplySelect(fs: seq<string>): (r: Option<string>)
    ensures r.None? <==> |fs| == 0
  {
    if |fs| == 0 then None else Some(Join(fs, " "))
  }

  /** The projection string names exactly the selected fields when none of
      them holds a space (always so for `options.select`). */
  lemma SelectRoundTrip(fs: seq<string>)
    requires |fs| > 0 && forall i :: 0 <= i < |fs| ==> ' ' !in fs[i]
    ensures Split(ApplySelect(fs).value, ' ') == fs
  {
    SplitJoin(fs, ' ');
  }

  // ---------------------------------------------------------------- pagination

  /** `Math.ceil(a / b)` for integers. */
  function CeilDiv(a: int, b: int): (c: int)
    requires b != 0
    ensures b > 0 ==> (c - 1) * b < a <= c * b
    ensures b < 0 ==> c * b <= a < (c - 1) * b
    decreases if b > 0 then 0 else 1
  {
    if b > 0 then
      var q, r := (-a) / b, (-a) % b;
      assert -a == q * b + r && 0 <= r < b;
      assert -q * b == a + r;
      assert (-q - 1) * b == a + r - b;
      -q
    else CeilDiv(-a, -b)
  }

  /** The `pagination` object of `_paginate`. */
  datatype Pagination = Pagination(
    total: nat, page: int, limit: int, pages: int,
    nextPage: Option<int>, prevPage: Option<int>)

  /** `_paginate` without the database round trip: `total` is the count. */
  function Paginate(total: nat, page: int, limit: int): (p: Pagination)
    requires limit != 0
    ensures p.total == total && p.page == page && p.limit == limit
    ensures limit > 0 ==> (p.pages - 1) * limit < total <= p.pages * limit
    ensures p.nextPage.Some? <==> page * limit < total
    ensures p.nextPage.Some? ==> p.nextPage.value == page + 1
    ensures p.prevPage.Some? <==> page > 1
    ensures p.prevPage.Some? ==> p.prevPage.value == page - 1
  {
    Pagination(
      total, page, limit, CeilDiv(total, limit),
      if page * limit < total then Some(page + 1) else None,
      if page > 1 then Some(page - 1) else None)
  }

  /** With a positive limit there is a next page exactly when the page is
      before the last one. */
  lemma NextPageIffBeforeLast(total: nat, page: int, limit: int)
    requires limit > 0
    ensures Paginate(total, page, limit).nextPage.Some? <==> page < Paginate(total, page, limit).pages
  {
    var pages := Paginate(total, page, limit).pages;
    if page < pages {
      MulMonotone(page, pages - 1, limit);
    } else {
      MulMonotone(pages, page, limit);
    }
  }

  lemma MulMonotone(a: int, b: int, k: int)
    requires a <= b && k >= 0
    ensures a * k <= b * k
  {
    assert b * k - a * k == (b - a) * k;
  }

  /** No documents means no pages; otherwise there is at least one. */
  lemma PagesOfTotal(total: nat, page: int, limit: int)
    requires limit > 0
    ensures total == 0 ==> Paginate(total, page, limit).pages == 0
    ensures total > 0 ==> Paginate(total, page, limit).pages >= 1
  {
  }

  /** `(page - 1) * limit`. */
  function Skip(page: int, limit: int): int {
    (page - 1) * limit
  }

  /** Consecutive pages are adjacent windows: page `p + 1` starts where
      page `p` ends, and page 1 starts at the first document. */
  lemma SkipAdjacent(page: int, limit: int)
    ensures Skip(page + 1, limit) == Skip(page, limit) + limit
    ensures Skip(1, limit) == 0
  {
  }

  // ---------------------------------------------------------------- build

  /** `Number(param) || fallback`, the parameter defaulting to `fallback`
      when absent. */
  function NumberParam(raw: Option<string>, fallback: int, number: string -> Option<int>): (n: int)
    ensures n == fallback || (raw.Some? && number(raw.value) == Some(n) && n != 0)
    ensures raw.Some? && number(raw.value).Some? && number(raw.value).value != 0 ==> n == number(raw.value).value
  {
    if raw.Some? && number(raw.value).Some? && number(raw.value).value != 0 then number(raw.value).value
    else fallback
  }

  /** The Mongo query: the filter alone, or `{ $and: [filter, { $or }] }`. */
  datatype QueryDoc = Match(filter: Filter) | MatchAny(filter: Filter, anyOf: seq<SearchClause>)

  /** What `_buildAll` hands to `exec`: query, sort, projection and paging. */
  datatype QueryPlan = QueryPlan(
    query: QueryDoc,
    sort: Option<JsObject.Entries<int>>,
    select: Option<string>,
    page: int,
    limit: int,
    skip: int)

  /** A non-empty query-string value (`param || …`). */
  function Param(q: JsObject.Entries<string>, key: string): Option<string> {
    match JsObject.Get(q, key)
    case Some(v) => if v != "" then Some(v) else None
    case None => None
  }

  /** The plan around an already built filter: page and limit from the
      query string or the configured defaults, the filter joined with the
      search clauses when there are any, the sort (the `sort` parameter,
      else the default sort) and the projection of the selected fields. */
  function Assemble(e: Engine, parsers: Parsers, config: PaginationConfig, filter: Filter): (plan: QueryPlan)
    ensures plan.query.filter == filter
    ensures plan.skip == Skip(plan.page, plan.limit)
    ensures config.defaultLimit != 0 ==> plan.limit != 0
    ensures plan.query.MatchAny? <==> BuildSearchQuery(JsObject.Get(e.q, "term"), SearchFields(e)).Some?
    ensures plan.query.MatchAny? ==> Some(plan.query.anyOf) == BuildSearchQuery(JsObject.Get(e.q, "term"), SearchFields(e))
    ensures plan.page == NumberParam(JsObject.Get(e.q, "page"), config.defaultPage, parsers.number)
    ensures plan.limit == NumberParam(JsObject.Get(e.q, "limit"), config.defaultLimit, parsers.number)
    ensures plan.select == ApplySelect(SelectFields(e.settings.select, Param(e.q, "fields")))
    ensures Param(e.q, "sort").Some? ==> plan.sort == ApplySorting(Param(e.q, "sort"))
    ensures Param(e.q, "sort").None? ==> plan.sort == ApplySorting(e.settings.defaultSort)
  {
    var page := NumberParam(JsObject.Get(e.q, "page"), config.defaultPage, parsers.number);
    var limit := NumberParam(JsObject.Get(e.q, "limit"), config.defaultLimit, parsers.number);
    var search := BuildSearchQuery(JsObject.Get(e.q, "term"), SearchFields(e));
    var query := if search.Some? then MatchAny(filter, search.value) else Match(filter);
    var sortBy := if Param(e.q, "sort").Some? then Param(e.q, "sort") else e.settings.defaultSort;
    var selected := SelectFields(e.settings.select, Param(e.q, "fields"));
    QueryPlan(query, ApplySorting(sortBy), ApplySelect(selected), page, limit, Skip(page, limit))
  }

  /** Clause `i * |fields| + j` of `cs` searches token `i` in field `j`. */
  predicate ClauseAt(cs: seq<SearchClause>, tokens: seq<string>, fields: seq<string>, i: nat, j: nat) {
    && i < |tokens| && j < |fields|
    && i * |fields| + j < |cs|
    && cs[i * |fields| + j] == SearchClause(fields[j], tokens[i])
  }

  /** The assembled query searches every token of `term` in every search
      field: `{ $and: [filter, { $or }] }` with `|tokens| * |fields|` clauses,
      clause `i * |fields| + j` matching token `i` in field `j`. */
  lemma {:induction false} AssembleSearch(e: Engine, parsers: Parsers, config: PaginationConfig, filter: Filter, i: nat, j: nat)
    requires JsObject.Get(e.q, "term").Some?
    requires i < |Tokens(JsObject.Get(e.q, "term").value)| && j < |SearchFields(e)|
    ensures Assemble(e, parsers, config, filter).query.MatchAny?
    ensures Assemble(e, parsers, config, filter).query.anyOf ==
      SearchClauses(Tokens(JsObject.Get(e.q, "term").value), SearchFields(e))
    ensures ClauseAt(Assemble(e, parsers, config, filter).query.anyOf,
                     Tokens(JsObject.Get(e.q, "term").value), SearchFields(e), i, j)
  {
    var term := JsObject.Get(e.q, "term");
    var tokens := Tokens(term.value);
    var fields := SearchFields(e);
    NonEmptyTermWithTokens(term.value);
    var plan := Assemble(e, parsers, config, filter);
    assert plan.query.anyOf == SearchClauses(tokens, fields);
    SearchClauseAt(tokens, fields, i, j);
    assert ClauseAt(plan.query.anyOf, tokens, fields, i, j);
  }

  /** A term with a token is not empty. */
  lemma NonEmptyTermWithTokens(term: string)
    ensures |Tokens(term)| > 0 ==> term != ""
  {
    if term == "" {
      EmptyHasNoTokens();
    }
  }

  lemma EmptyHasNoTokens()
    ensures Tokens("") == []
  {
    var pieces := SplitBy("", IsSearchSeparator);
    assert forall k :: 0 <= k < |TrimAll(pieces)| ==> TrimAll(pieces)[k] == "";
  }

  /** `_buildAll` followed by the sort, select and skip of `exec`: fails
      exactly when building the filter fails. */
  function BuildAll(e: Engine, parsers: Parsers, config: PaginationConfig): (r: Result<QueryPlan, QueryError>)
    ensures r.Failure? <==> BuildFilters(e.info, parsers, e.q).Failure?
    ensures r.Failure? ==> r.error == BuildFilters(e.info, parsers, e.q).error
    ensures r.Success? ==> r.value.query.filter == BuildFilters(e.info, parsers, e.q).value
  {
    var filter :- BuildFilters(e.info, parsers, e.q);
    Success(Assemble(e, parsers, config, filter))
  }

  /** An explicitly empty default sort leaves results unsorted when the
      query string has no `sort` parameter. */
  lemma EmptyDefaultSortUnsorted(e: Engine, parsers: Parsers, config: PaginationConfig, filter: Filter)
    requires Param(e.q, "sort").None? && e.settings.defaultSort == Some("")
    ensures Assemble(e, parsers, config, filter).sort.None?
  {
  }

  /** `exec()`'s pagination for a count of `total` matching documents. */
  function Exec(plan: QueryPlan, total: nat): (p: Pagination)
    requires plan.limit != 0
    ensures p.page == plan.page && p.limit == plan.limit && p.total == total
  {
    Paginate(total, plan.page, plan.limit)
  }
}

=== FILE: query_filter.dfy ===
/** The filter half of `QueryEngine` (src/services/query.service.js):
    `_castValue`, `_lcFirst` and `_buildFiltersFromQuery`, which turn the flat
    query-string map into a Mongo filter object. */
module QueryFilter {
  import opened Wrappers
  import opened Strings
  import opened QuerySchema
  import JsObject
  import Seqs

  /** A value `_castValue` produces: the raw string, a boolean, a number or a
      `Date` (its time value). */
  datatype Value = Text(s: string) | Flag(b: bool) | Number(n: int) | Instant(ms: int)

  /** A cast result; `None` is `undefined`. */
  type Cast = Option<Value>

  /** JavaScript truthiness of a cast result; a `Date` is an object and so
      always truthy. */
  predicate Truthy(v: Cast) {
    match v
    case None => false
    case Some(Text(s)) => s != ""
    case Some(Flag(b)) => b
    case Some(Number(n)) => n != 0
    case Some(Instant(_)) => true
  }

  /** `Number(raw)` and `new Date(raw).getTime()` for query-string input,
      `None` where the result is `NaN`. */
  datatype Parsers = Parsers(number: string -> Option<int>, date: string -> Option<int>)

  /** The value kind a field type casts to. */
  predicate Fits(v: Value, t: FieldType) {
    match t
    case NumberType => v.Number?
    case BooleanType => v.Flag?
    case DateType => v.Instant?
    case StringType => v.Text?
    case ObjectIdType => v.Text?
  }

  /** `_castValue(raw, type)` for a query-string value. */
  function CastValue(parsers: Parsers, raw: string, t: FieldType): (v: Cast)
    ensures v.Some? ==> Fits(v.value, t)
    ensures t == StringType || t == ObjectIdType ==> v == Some(Text(raw))
    ensures t == BooleanType ==>
      (v == Some(Flag(true)) <==> ToLower(raw) == "true")
      && (v == Some(Flag(false)) <==> ToLower(raw) == "false")
    ensures t == NumberType ==> (v.None? <==> parsers.number(raw).None?)
    ensures t == DateType ==> (v.None? <==> parsers.date(raw).None?)
  {
    match t
    case NumberType => if parsers.number(raw).None? then None else Some(Number(parsers.number(raw).value))
    case BooleanType =>
      if ToLower(raw) == "true" then Some(Flag(true))
      else if ToLower(raw) == "false" then Some(Flag(false))
      else None
    case DateType => if parsers.date(raw).None? then None else Some(Instant(parsers.date(raw).value))
    case _ => Some(Text(raw))
  }

  /** Booleans are read without regard to letter case. */
  lemma BooleanCastIgnoresCase(parsers: Parsers, raw: string)
    ensures CastValue(parsers, raw, BooleanType) == CastValue(parsers, ToLower(raw), BooleanType)
  {
    ToLowerIdempotent(raw);
  }

  /** `_lcFirst`: the first character lower-cased. */
  function LcFirst(s: string): (r: string)
    ensures |r| == |s|
    ensures |s| > 0 ==> r[0] == LowerChar(s[0]) && r[1..] == s[1..]
  {
    if s == "" then s else [LowerChar(s[0])] + s[1..]
  }

  // ---------------------------------------------------------------- key shapes

  /** The query keys the filter never reads. */
  const ReservedKeys: seq<string> := ["term", "page", "limit", "sort", "fields"]

  /** `key.match(/^(.+)\[(.+)\]$/)`: the field and operator of an operator
      key. The first group is greedy, so the split is at the last `[` that
      leaves a non-empty operator. */
  function OperatorMatch(key: string): (m: Option<(string, string)>)
    ensures m.Some? ==> key == m.value.0 + "[" + m.value.1 + "]"
    ensures m.Some? ==> m.value.0 != "" && m.value.1 != "" && '[' !in m.value.1[..|m.value.1| - 1]
    ensures m.None? <==>
      !(NoLineTerminator(key) && |key| >= 4 && key[|key| - 1] == ']'
        && exists i :: 1 <= i <= |key| - 3 && key[i] == '[')
  {
    if !(NoLineTerminator(key) && |key| >= 4 && key[|key| - 1] == ']') then None
    else
      var s := key[..|key| - 2];
      match LastIndexOf(s, '[')
      case None =>
        assert forall i :: 1 <= i <= |key| - 3 ==> key[i] == s[i];
        None
      case Some(i) =>
        assert forall j :: i < j <= |key| - 3 ==> key[j] == s[j] && s[j] in s[i + 1..];
        if i == 0 then None
        else
          var field, op := key[..i], key[i + 1..|key| - 1];
          assert op[..|op| - 1] == s[i + 1..];
          assert key[i] == s[i] == '[';
          Around(key, i);
          Some((field, op))
  }

  lemma Around(key: string, i: int)
    requires 0 <= i < |key| - 1
    ensures key == key[..i] + [key[i]] + key[i + 1..|key| - 1] + [key[|key| - 1]]
  {
  }

  /** An operator key written as `field[op]` is read back as that pair. */
  lemma OperatorMatchOf(field: string, op: string)
    requires field != "" && op != "" && '[' !in op[..|op| - 1]
    requires NoLineTerminator(field) && NoLineTerminator(op)
    ensures OperatorMatch(field + "[" + op + "]") == Some((field, op))
  {
    var key := field + "[" + op + "]";
    assert key[|field|] == '[';
    assert NoLineTerminator(key) by {
      forall i | 0 <= i < |key| ensures !IsLineTerminator(key[i]) {
        if i < |field| {
          assert key[i] == field[i];
        } else if |field| < i < |key| - 1 {
          assert key[i] == op[i - |field| - 1];
        }
      }
    }
    var m := OperatorMatch(key);
    var f, o := m.value.0, m.value.1;
    assert f == key[..|f|] && field == key[..|field|];
  }

  /** `key.match(/^min(.+)$/i)` (with `word` "min") and the `max` twin: the
      rest of the key after a prefix equal to `word` in any letter case. */
  function RangeMatch(key: string, word: string): Option<string> {
    if |key| > |word| && ToLower(key[..|word|]) == word && NoLineTerminator(key[|word|..])
    then Some(key[|word|..])
    else None
  }

  /** A range key is its prefix, in any letter case, followed by the rest. */
  lemma RangeMatchOf(prefix: string, rest: string, word: string)
    requires ToLower(prefix) == word && rest != "" && NoLineTerminator(rest)
    ensures RangeMatch(prefix + rest, word) == Some(rest)
  {
    var key := prefix + rest;
    assert key[..|word|] == prefix && key[|word|..] == rest;
  }

  /** How `_buildFiltersFromQuery` treats one key. */
  datatype KeyKind =
    | Reserved
    | OperatorKey(field: string, op: string)
    | RangeKey(field: string, op: string)
    | PlainKey

  /** The branch a key takes: reserved keys first; any key of the operator
      shape is an operator key, in the schema or not; a `min`/`max` key is a
      range key only when its field is in the schema, otherwise it falls
      through to the plain branch. */
  function Classify(info: SchemaInfo, key: string): (k: KeyKind)
    ensures k.Reserved? <==> key in ReservedKeys
    ensures k.OperatorKey? <==> key !in ReservedKeys && OperatorMatch(key).Some?
    ensures k.OperatorKey? ==> OperatorMatch(key) == Some((k.field, k.op))
    ensures k.RangeKey? ==> k.field in JsObject.Keys(info) && (k.op == "$gte" || k.op == "$lte")
    ensures k.PlainKey? ==> key !in ReservedKeys && OperatorMatch(key).None?
    ensures key !in ReservedKeys && OperatorMatch(key).None? ==>
      var min, max := RangeMatch(key, "min"), RangeMatch(key, "max");
      && (min.Some? && LcFirst(min.value) in JsObject.Keys(info) ==> k == RangeKey(LcFirst(min.value), "$gte"))
      && (!(min.Some? && LcFirst(min.value) in JsObject.Keys(info)) && max.Some? && LcFirst(max.value) in JsObject.Keys(info)
          ==> k == RangeKey(LcFirst(max.value), "$lte"))
      && (!(min.Some? && LcFirst(min.value) in JsObject.Keys(info)) && !(max.Some? && LcFirst(max.value) in JsObject.Keys(info))
          ==> k == PlainKey)
  {
    if key in ReservedKeys then Reserved
    else match OperatorMatch(key)
      case Some((field, op)) => OperatorKey(field, op)
      case None =>
        var min, max := RangeMatch(key, "min"), RangeMatch(key, "max");
        if min.Some? && LcFirst(min.value) in JsObject.Keys(info) then RangeKey(LcFirst(min.value), "$gte")
        else if max.Some? && LcFirst(max.value) in JsObject.Keys(info) then RangeKey(LcFirst(max.value), "$lte")
        else PlainKey
  }

  // ---------------------------------------------------------------- filters

  /** The value under a Mongo operator: one cast value, or the `$in` list. */
  datatype OpValue = One(v: Cast) | Many(vs: seq<Value>)

  /** What a filter holds for a field: a plain value, or an operator object. */
  datatype Condition = Equals(v: Cast) | Operators(ops: JsObject.Entries<OpValue>)

  type Filter = JsObject.Entries<Condition>

  /** The `TypeError` strict mode raises when an operator is assigned onto a
      primitive value already stored for the field. */
  datatype QueryError = CannotCreateProperty(op: string, target: Value)

  /** The type `schemaInfo[field].type` of a schema field. */
  function FieldTypeIn(info: SchemaInfo, field: string): FieldType
    requires field in JsObject.Keys(info)
  {
    JsObject.Get(info, field).value.fieldType
  }

  /** The operators a field's current condition contributes when an operator
      is added: its own, or none when it is absent or falsy. `None` when the
      current value is a primitive that cannot take properties or a `Date`. */
  function BaseOperators(current: Option<Condition>): Option<JsObject.Entries<OpValue>> {
    match current
    case None => Some([])
    case Some(Operators(m)) => Some(m)
    case Some(Equals(c)) => if Truthy(c) then None else Some([])
  }

  /** A truthy string, boolean or number: a value that cannot take a property. */
  predicate HoldsPrimitive(current: Option<Condition>) {
    current.Some? && current.value.Equals? && Truthy(current.value.v) && !current.value.v.value.Instant?
  }

  /** `filter[field] = filter[field] || {}; filter[field][op] = v`. */
  function AddOperator(f: Filter, field: string, op: string, v: OpValue): (r: Result<Filter, QueryError>)
    ensures r.Failure? <==> HoldsPrimitive(JsObject.Get(f, field))
    ensures r.Success? ==>
      JsObject.Keys(r.value) == if field in JsObject.Keys(f) then JsObject.Keys(f) else JsObject.Keys(f) + [field]
  {
    var current := JsObject.Get(f, field);
    match BaseOperators(current)
    case Some(m) => Success(JsObject.Set(f, field, Operators(JsObject.Set(m, op, v))))
    case None =>
      var c := current.value.v.value;
      if c.Instant? then Success(f)
      else Failure(CannotCreateProperty(op, c))
  }

  /** Adding an operator merges it into the operators already set for the
      field (replacing an earlier value of the same operator) and leaves every
      other field alone; a falsy plain value is replaced by the operator
      object, and a `Date` value absorbs the property unseen. */
  lemma AddOperatorGet(f: Filter, field: string, op: string, v: OpValue, j: string)
    requires AddOperator(f, field, op, v).Success?
    ensures JsObject.Get(AddOperator(f, field, op, v).value, j) ==
      if j != field then JsObject.Get(f, j)
      else match BaseOperators(JsObject.Get(f, field))
        case Some(m) => Some(Operators(JsObject.Set(m, op, v)))
        case None => JsObject.Get(f, field)
  {
    var current := JsObject.Get(f, field);
    match BaseOperators(current)
    case Some(m) =>
      JsObject.SetGet(f, field, Operators(JsObject.Set(m, op, v)), j);
    case None =>
  }

  /** The `$in` list: each comma-separated piece trimmed and cast, the
      `undefined` ones dropped, in input order. */
  function CastPieces(parsers: Parsers, pieces: seq<string>, t: FieldType): (vs: seq<Value>)
    ensures |vs| <= |pieces|
  {
    if |pieces| == 0 then []
    else
      var head := CastValue(parsers, Trim(pieces[0]), t);
      var tail := CastPieces(parsers, pieces[1..], t);
      if head.Some? then [head.value] + tail else tail
  }

  /** Casting the pieces of two lists is casting each list in turn. */
  lemma {:induction false} CastPiecesAppend(parsers: Parsers, xs: seq<string>, ys: seq<string>, t: FieldType)
    ensures CastPieces(parsers, xs + ys, t) == CastPieces(parsers, xs, t) + CastPieces(parsers, ys, t)
    decreases |xs|
  {
    if |xs| == 0 {
      assert xs + ys == ys;
    } else {
      var h := CastValue(parsers, Trim(xs[0]), t);
      var hs := if h.Some? then [h.value] else [];
      var a, b := CastPieces(parsers, xs[1..], t), CastPieces(parsers, ys, t);
      Seqs.DropAppend(xs, ys);
      CastPiecesAppend(parsers, xs[1..], ys, t);
      assert CastPieces(parsers, xs + ys, t) == hs + (a + b);
      assert CastPieces(parsers, xs, t) == hs + a;
      Seqs.AppendAssoc(hs, a, b);
    }
  }

  /** One piece contributes its trimmed cast, or nothing when that is `undefined`. */
  lemma CastPiecesOne(parsers: Parsers, x: string, t: FieldType)
    ensures CastPieces(parsers, [x], t) ==
      if CastValue(parsers, Trim(x), t).Some? then [CastValue(parsers, Trim(x), t).value] else []
  {
    assert [x][1..] == [];
  }

  /** Every value in the list has the field's type. */
  lemma {:induction false} CastPiecesFit(parsers: Parsers, pieces: seq<string>, t: FieldType, i: int)
    requires 0 <= i < |CastPieces(parsers, pieces, t)|
    ensures Fits(CastPieces(parsers, pieces, t)[i], t)
    decreases |pieces|
  {
    var head := CastValue(parsers, Trim(pieces[0]), t);
    var tail := CastPieces(parsers, pieces[1..], t);
    if head.None? {
      CastPiecesFit(parsers, pieces[1..], t, i);
    } else if i > 0 {
      assert CastPieces(parsers, pieces, t)[i] == tail[i - 1];
      CastPiecesFit(parsers, pieces[1..], t, i - 1);
    }
  }

  /** The trimmed pieces as text values. */
  function TextPieces(pieces: seq<string>): (vs: seq<Value>)
    ensures |vs| == |pieces|
  {
    if |pieces| == 0 then [] else [Text(Trim(pieces[0]))] + TextPieces(pieces[1..])
  }

  /** The `i`-th value is the `i`-th piece, trimmed. */
  lemma {:induction false} TextPiecesAt(pieces: seq<string>, i: int)
    requires 0 <= i < |pieces|
    ensures TextPieces(pieces)[i] == Text(Trim(pieces[i]))
    decreases |pieces|
  {
    if i > 0 {
      TextPiecesAt(pieces[1..], i - 1);
      assert pieces[1..][i - 1] == pieces[i];
    }
  }

  /** For a text field every piece survives: the list is the trimmed pieces. */
  lemma {:induction false} CastPiecesText(parsers: Parsers, pieces: seq<string>, t: FieldType)
    requires t == StringType || t == ObjectIdType
    ensures CastPieces(parsers, pieces, t) == TextPieces(pieces)
    decreases |pieces|
  {
    if |pieces| > 0 {
      var rest := pieces[1..];
      CastPiecesText(parsers, rest, t);
      assert CastValue(parsers, Trim(pieces[0]), t) == Some(Text(Trim(pieces[0])));
      assert CastPieces(parsers, pieces, t) == [Text(Trim(pieces[0]))] + CastPieces(parsers, rest, t);
    }
  }

  /** One step of `_buildFiltersFromQuery`: the effect of `key=raw`. */
  function Step(info: SchemaInfo, parsers: Parsers, f: Filter, key: string, raw: string): (r: Result<Filter, QueryError>)
    ensures r.Success? ==> forall k :: k in JsObject.Keys(r.value) ==> k in JsObject.Keys(f) || k in JsObject.Keys(info)
  {
    match Classify(info, key)
    case Reserved => Success(f)
    case OperatorKey(field, op) =>
      if field !in JsObject.Keys(info) then Success(f)
      else AddOperator(f, field, "$" + op, One(CastValue(parsers, raw, FieldTypeIn(info, field))))
    case RangeKey(field, op) =>
      AddOperator(f, field, op, One(CastValue(parsers, raw, FieldTypeIn(info, field))))
    case PlainKey =>
      if key !in JsObject.Keys(info) then Success(f)
      else if ',' in raw then
        var vals := CastPieces(parsers, Split(raw, ','), FieldTypeIn(info, key));
        if |vals| > 0 then Success(JsObject.Set(f, key, Operators([("$in", Many(vals))])))
        else Success(f)
      else Success(JsObject.Set(f, key, Equals(CastValue(parsers, raw, FieldTypeIn(info, key)))))
  }

  /** `_buildFiltersFromQuery`: the steps for the query entries in order; the
      first `TypeError` aborts the build. */
  function BuildFilters(info: SchemaInfo, parsers: Parsers, q: JsObject.Entries<string>): (r: Result<Filter, QueryError>)
    ensures r.Success? ==> forall k :: k in JsObject.Keys(r.value) ==> k in JsObject.Keys(info)
  {
    if |q| == 0 then Success([])
    else
      var f :- BuildFilters(info, parsers, q[..|q| - 1]);
      Step(info, parsers, f, q[|q| - 1].0, q[|q| - 1].1)
  }

  /** Reserved keys, operator keys on unknown fields and plain keys outside
      the schema leave the filter as it was. */
  lemma IgnoredKey(info: SchemaInfo, parsers: Parsers, q: JsObject.Entries<string>, key: string, raw: string)
    requires
      || key in ReservedKeys
      || (OperatorMatch(key).Some? && OperatorMatch(key).value.0 !in JsObject.Keys(info))
      || (Classify(info, key).PlainKey? && key !in JsObject.Keys(info))
    ensures BuildFilters(info, parsers, q + [(key, raw)]) == BuildFilters(info, parsers, q)
  {
    assert (q + [(key, raw)])[..|q|] == q;
  }

  /** `f[op]=raw` on a schema field adds `$op` to the field's operators. */
  lemma OperatorKeyStep(info: SchemaInfo, parsers: Parsers, f: Filter, field: string, op: string, raw: string)
    requires field in JsObject.Keys(info) && field + "[" + op + "]" !in ReservedKeys
    requires op != "" && '[' !in op[..|op| - 1] && field != ""
    requires NoLineTerminator(field) && NoLineTerminator(op)
    ensures Step(info, parsers, f, field + "[" + op + "]", raw)
      == AddOperator(f, field, "$" + op, One(CastValue(parsers, raw, FieldTypeIn(info, field))))
  {
    OperatorMatchOf(field, op);
  }

  /** `minField=raw` or `maxField=raw` (the prefix in any letter case, the
      field's first letter in either case) on a schema field adds `$gte` or
      `$lte` to that field's operators. */
  lemma RangeKeyStep(info: SchemaInfo, parsers: Parsers, f: Filter, prefix: string, rest: string, raw: string)
    requires ToLower(prefix) == "min" || ToLower(prefix) == "max"
    requires rest != "" && NoLineTerminator(rest) && LcFirst(rest) in JsObject.Keys(info)
    requires OperatorMatch(prefix + rest).None?
    ensures Step(info, parsers, f, prefix + rest, raw) ==
      AddOperator(f, LcFirst(rest), if ToLower(prefix) == "min" then "$gte" else "$lte",
        One(CastValue(parsers, raw, FieldTypeIn(info, LcFirst(rest)))))
  {
    var key := prefix + rest;
    assert |prefix| == 3 by {
      assert |ToLower(prefix)| == |prefix|;
    }
    assert key[..3] == prefix;
    RangeMatchOf(prefix, rest, ToLower(prefix));
    NotReservedByPrefix(key, ToLower(prefix));
    if ToLower(prefix) == "max" {
      assert RangeMatch(key, "min").None?;
    }
  }

  /** No reserved key starts with `min` or `max` in any letter case. */
  lemma NotReservedByPrefix(key: string, word: string)
    requires word == "min" || word == "max"
    requires |key| > 3 && ToLower(key[..3]) == word
    ensures key !in ReservedKeys
  {
    assert LowerChar(key[0]) == ToLower(key[..3])[0] == 'm';
  }

  /** A schema key without a comma sets the field to its cast value,
      replacing whatever it held, and leaves every other field alone. */
  lemma PlainKeyStep(info: SchemaInfo, parsers: Parsers, f: Filter, key: string, raw: string, j: string)
    requires Classify(info, key).PlainKey? && key in JsObject.Keys(info) && ',' !in raw
    ensures Step(info, parsers, f, key, raw).Success?
    ensures JsObject.Get(Step(info, parsers, f, key, raw).value, j) ==
      if j == key then Some(Equals(CastValue(parsers, raw, FieldTypeIn(info, key)))) else JsObject.Get(f, j)
  {
    JsObject.SetGet(f, key, Equals(CastValue(parsers, raw, FieldTypeIn(info, key))), j);
  }

  /** A schema key with a comma sets the field to `$in` of the pieces that
      cast, replacing whatever it held, when at least one piece casts. */
  lemma InListStep(info: SchemaInfo, parsers: Parsers, f: Filter, key: string, raw: string, j: string)
    requires Classify(info, key).PlainKey? && key in JsObject.Keys(info) && ',' in raw
    requires CastPieces(parsers, Split(raw, ','), FieldTypeIn(info, key)) != []
    ensures Step(info, parsers, f, key, raw).Success?
    ensures JsObject.Get(Step(info, parsers, f, key, raw).value, j) ==
      if j == key then Some(Operators([("$in", Many(CastPieces(parsers, Split(raw, ','), FieldTypeIn(info, key))))]))
      else JsObject.Get(f, j)
  {
    var vals := CastPieces(parsers, Split(raw, ','), FieldTypeIn(info, key));
    JsObject.SetGet(f, key, Operators([("$in", Many(vals))]), j);
  }

  /** A plain key with a comma whose pieces all cast to `undefined` sets nothing. */
  lemma EmptyInListSkipped(info: SchemaInfo, parsers: Parsers, f: Filter, key: string, raw: string)
    requires Classify(info, key).PlainKey? && key in JsObject.Keys(info) && ',' in raw
    requires CastPieces(parsers, Split(raw, ','), FieldTypeIn(info, key)) == []
    ensures Step(info, parsers, f, key, raw) == Success(f)
  {
  }

  /** A plain key with a comma on a text field becomes `$in` of its trimmed
      pieces, replacing whatever the field held. */
  lemma TextInList(info: SchemaInfo, parsers: Parsers, f: Filter, key: string, raw: string, j: string)
    requires Classify(info, key).PlainKey? && key in JsObject.Keys(info) && ',' in raw
    requires FieldTypeIn(info, key) == StringType
    ensures Step(info, parsers, f, key, raw).Success?
    ensures JsObject.Get(Step(info, parsers, f, key, raw).value, j) ==
      if j == key then
        Some(Operators([("$in", Many(TextPieces(Split(raw, ','))))]))
      else JsObject.Get(f, j)
  {
    var pieces := Split(raw, ',');
    CastPiecesText(parsers, pieces, StringType);
    assert |pieces| > 1 by {
      JoinSplit(raw, ',');
    }
    var vals := CastPieces(parsers, pieces, StringType);
    JsObject.SetGet(f, key, Operators([("$in", Many(vals))]), j);
  }
}

=== FILE: query_schema.dfy ===
/** What `QueryEngine` learns from a Mongoose schema (src/services/query.service.js):
    the per-field description of `_extractSchemaInfo`, the string fields
    `_autoDetectStringFields` searches, and the `getFilterSchema` summary. */
module QuerySchema {
  import opened Wrappers
  import opened Strings
  import opened Seqs
  import JsObject

  /** A schema path as the engine reads it: `instance`, `options.type.name`
      and `options.enum` (`None` where the property is absent). */
  datatype SchemaPath = SchemaPath(
    instance: Option<string>,
    typeName: Option<string>,
    enumValues: Option<seq<string>>)

  /** The `type` string of a field: "string", "number", "boolean", "date" or "objectId". */
  datatype FieldType = StringType | NumberType | BooleanType | DateType | ObjectIdType

  /** `{ instance, enumValues, type }`. */
  datatype FieldInfo = FieldInfo(instance: string, enumValues: seq<string>, fieldType: FieldType)

  /** `schemaInfo`: field name to description, in schema order. */
  type SchemaInfo = JsObject.Entries<FieldInfo>

  /** The paths Mongoose adds on its own and the engine skips. */
  predicate IsInternalPath(name: string) {
    name == "_id" || name == "__v"
  }

  /** `schemaType.instance || schemaType.options?.type?.name || "Mixed"`. */
  function InstanceName(sp: SchemaPath): (s: string)
    ensures s != ""
    ensures s == "Mixed" || Some(s) == sp.instance || Some(s) == sp.typeName
    ensures sp.instance.Some? && sp.instance.value != "" ==> s == sp.instance.value
    ensures (sp.instance.None? || sp.instance.value == "") && sp.typeName.Some? && sp.typeName.value != ""
      ==> s == sp.typeName.value
  {
    if sp.instance.Some? && sp.instance.value != "" then sp.instance.value
    else if sp.typeName.Some? && sp.typeName.value != "" then sp.typeName.value
    else "Mixed"
  }

  /** The field type: "string" unless the instance says otherwise, and
      "objectId" for ObjectId instances and for every name ending in "Id",
      whatever its instance. */
  function TypeOf(name: string, instance: string): (t: FieldType)
    ensures t == ObjectIdType <==> instance == "ObjectID" || instance == "ObjectId" || EndsWith(name, "Id")
    ensures t == StringType <==>
      instance !in ["Number", "Boolean", "Date", "ObjectID", "ObjectId"] && !EndsWith(name, "Id")
    ensures t == NumberType <==> instance == "Number" && !EndsWith(name, "Id")
    ensures t == BooleanType <==> instance == "Boolean" && !EndsWith(name, "Id")
    ensures t == DateType <==> instance == "Date" && !EndsWith(name, "Id")
  {
    var t0 := StringType;
    var t1 := if instance == "Number" then NumberType else t0;
    var t2 := if instance == "Boolean" then BooleanType else t1;
    var t3 := if instance == "Date" then DateType else t2;
    if instance == "ObjectID" || instance == "ObjectId" || EndsWith(name, "Id") then ObjectIdType else t3
  }

  /** The description `_extractSchemaInfo` records for one path. */
  function Describe(name: string, sp: SchemaPath): FieldInfo {
    var instance := InstanceName(sp);
    FieldInfo(instance, sp.enumValues.GetOr([]), TypeOf(name, instance))
  }

  /** `_extractSchemaInfo`: every path except `_id` and `__v`, described, in
      schema order. */
  function ExtractSchemaInfo(paths: JsObject.Entries<SchemaPath>): (info: SchemaInfo)
    ensures forall k :: k in JsObject.Keys(info) <==> k in JsObject.Keys(paths) && !IsInternalPath(k)
    ensures JsObject.DistinctKeys(info)
  {
    if |paths| == 0 then []
    else
      JsObject.KeysSplit(paths);
      var init := ExtractSchemaInfo(paths[..|paths| - 1]);
      var name := paths[|paths| - 1].0;
      if IsInternalPath(name) then init
      else
        JsObject.SetKeepsDistinct(init, name, Describe(name, paths[|paths| - 1].1));
        JsObject.Set(init, name, Describe(name, paths[|paths| - 1].1))
  }

  /** Each kept field is described from its (last) schema path. */
  lemma {:induction false} ExtractSchemaInfoGet(paths: JsObject.Entries<SchemaPath>, k: string)
    ensures JsObject.Get(ExtractSchemaInfo(paths), k) ==
      if IsInternalPath(k) || k !in JsObject.Keys(paths) then None
      else Some(Describe(k, JsObject.GetLast(paths, k).value))
  {
    if |paths| > 0 {
      JsObject.KeysSplit(paths);
      var init := paths[..|paths| - 1];
      var (name, sp) := paths[|paths| - 1];
      ExtractSchemaInfoGet(init, k);
      if !IsInternalPath(name) {
        JsObject.SetGet(ExtractSchemaInfo(init), name, Describe(name, sp), k);
      }
    }
  }

  // ---------------------------------------------------------------- auto-detect

  /** The names `_autoDetectStringFields` puts first, in this order. */
  const Candidates: seq<string> := ["name", "title", "email", "username", "description", "phone"]

  predicate NotCandidate(x: string) {
    x !in Candidates
  }

  predicate IsStringField(info: SchemaInfo, k: string) {
    var d := JsObject.Get(info, k);
    d.Some? && d.value.fieldType == StringType
  }

  /** The string-typed fields in schema order (`available`). */
  function StringFields(info: SchemaInfo): (fs: seq<string>)
    ensures forall x :: x in fs <==> x in JsObject.Keys(info) && IsStringField(info, x)
  {
    Filter(JsObject.Keys(info), k => IsStringField(info, k))
  }

  /** `_autoDetectStringFields`: the string fields, the well-known candidate
      names first (in candidate order), then the rest in schema order. */
  function AutoDetectStringFields(info: SchemaInfo): (fs: seq<string>)
    ensures forall x :: x in fs <==> x in JsObject.Keys(info) && IsStringField(info, x)
    ensures forall i, j :: 0 <= i < j < |fs| && fs[j] in Candidates ==> fs[i] in Candidates
  {
    var available := StringFields(info);
    var first := Filter(Candidates, c => c in available);
    var rest := Filter(available, NotCandidate);
    Partition(Candidates, available, first, rest);
    first + rest
  }

  /** The chosen names of `cs` followed by the other names of `available`:
      exactly `available`, with every name of `cs` before every other. */
  lemma Partition(cs: seq<string>, available: seq<string>, first: seq<string>, rest: seq<string>)
    requires forall x :: x in first <==> x in cs && x in available
    requires forall x :: x in rest <==> x in available && x !in cs
    ensures forall x :: x in first + rest <==> x in available
    ensures forall i, j :: 0 <= i < j < |first + rest| && (first + rest)[j] in cs ==> (first + rest)[i] in cs
  {
    var fs := first + rest;
    forall i, j | 0 <= i < j < |fs| && fs[j] in cs ensures fs[i] in cs {
      AppendIndex(first, rest, j);
      AppendIndex(first, rest, i);
    }
  }

  /** An element of `a + b` comes from `a` before `|a|` and from `b` after. */
  lemma AppendIndex(a: seq<string>, b: seq<string>, j: int)
    requires 0 <= j < |a + b|
    ensures j < |a| ==> (a + b)[j] in a
    ensures j >= |a| ==> (a + b)[j] in b && (a + b)[j] == b[j - |a|]
  {
    if j >= |a| {
      assert (a + b)[j] == b[j - |a|];
    }
  }

  lemma CandidatesDistinct()
    ensures NoDuplicates(Candidates)
  {
  }

  /** No field is proposed twice. */
  lemma AutoDetectNoDuplicates(info: SchemaInfo)
    requires JsObject.DistinctKeys(info)
    ensures NoDuplicates(AutoDetectStringFields(info))
  {
    var keys := JsObject.Keys(info);
    KeysNoDuplicates(info);
    var available := StringFields(info);
    FilterNoDuplicates(keys, k => IsStringField(info, k));
    CandidatesDistinct();
    var first := Filter(Candidates, c => c in available);
    var rest := Filter(available, NotCandidate);
    FilterNoDuplicates(Candidates, c => c in available);
    FilterNoDuplicates(available, NotCandidate);
    var fs := first + rest;
    forall i, j | 0 <= i < j < |fs| ensures fs[i] != fs[j] {
      if i < |first| && j >= |first| {
        assert fs[i] in Candidates && fs[j] == rest[j - |first|];
      }
    }
  }

  /** A schema's distinct field names form a list without duplicates. */
  lemma KeysNoDuplicates(info: SchemaInfo)
    requires JsObject.DistinctKeys(info)
    ensures NoDuplicates(JsObject.Keys(info))
  {
    var keys := JsObject.Keys(info);
    forall i, j | 0 <= i < j < |keys| ensures keys[i] != keys[j] {
      assert keys[i] == info[i].0 && keys[j] == info[j].0;
    }
  }

  /** Within each group the order is kept: the candidates come in the order
      of the candidate list, and the other string fields in schema order. */
  lemma AutoDetectOrder(info: SchemaInfo)
    requires JsObject.DistinctKeys(info)
    ensures var fs := AutoDetectStringFields(info);
      forall i, j :: 0 <= i < j < |fs| && fs[j] in Candidates ==>
        fs[i] in Candidates && IndexOf(Candidates, fs[i]) < IndexOf(Candidates, fs[j])
    ensures var fs, keys := AutoDetectStringFields(info), JsObject.Keys(info);
      forall i, j :: 0 <= i < j < |fs| && fs[i] !in Candidates ==>
        fs[j] !in Candidates && fs[i] in keys && fs[j] in keys && IndexOf(keys, fs[i]) < IndexOf(keys, fs[j])
  {
    var fs, keys := AutoDetectStringFields(info), JsObject.Keys(info);
    forall i, j | 0 <= i < j < |fs| && fs[j] in Candidates
      ensures fs[i] in Candidates && IndexOf(Candidates, fs[i]) < IndexOf(Candidates, fs[j])
    {
      CandidateOrderAt(info, i, j);
    }
    forall i, j | 0 <= i < j < |fs| && fs[i] !in Candidates
      ensures fs[j] !in Candidates && fs[i] in keys && fs[j] in keys && IndexOf(keys, fs[i]) < IndexOf(keys, fs[j])
    {
      OtherOrderAt(info, i, j);
    }
  }

  lemma CandidateOrderAt(info: SchemaInfo, i: int, j: int)
    requires 0 <= i < j < |AutoDetectStringFields(info)|
    requires AutoDetectStringFields(info)[j] in Candidates
    ensures var fs := AutoDetectStringFields(info);
      fs[i] in Candidates && IndexOf(Candidates, fs[i]) < IndexOf(Candidates, fs[j])
  {
    var fs := AutoDetectStringFields(info);
    var available := StringFields(info);
    var first := Filter(Candidates, c => c in available);
    var rest := Filter(available, NotCandidate);
    assert fs == first + rest;
    AppendIndex(first, rest, j);
    assert fs[i] == first[i] && fs[j] == first[j];
    CandidatesDistinct();
    FilterKeepsOrder(Candidates, c => c in available, i, j);
  }

  lemma OtherOrderAt(info: SchemaInfo, i: int, j: int)
    requires JsObject.DistinctKeys(info)
    requires 0 <= i < j < |AutoDetectStringFields(info)|
    requires AutoDetectStringFields(info)[i] !in Candidates
    ensures var fs, keys := AutoDetectStringFields(info), JsObject.Keys(info);
      fs[j] !in Candidates && fs[i] in keys && fs[j] in keys && IndexOf(keys, fs[i]) < IndexOf(keys, fs[j])
  {
    var fs, keys := AutoDetectStringFields(info), JsObject.Keys(info);
    var available := StringFields(info);
    var first := Filter(Candidates, c => c in available);
    var rest := Filter(available, NotCandidate);
    assert fs == first + rest;
    AppendIndex(first, rest, i);
    AppendIndex(first, rest, j);
    KeysNoDuplicates(info);
    FilterTwiceOrder(first, keys, k => IsStringField(info, k), NotCandidate, i, j);
  }

  // ---------------------------------------------------------------- filter schema

  /** The instances `getFilterSchema` reports as filterable. */
  const FilterableInstances: seq<string> := ["String", "Number", "Boolean", "Date", "ObjectId"]

  /** `{ type, instance, enum? }`: `enum` only when there are enum values. */
  datatype FilterEntry = FilterEntry(fieldType: FieldType, instance: string, enumValues: Option<seq<string>>)

  /** `{ searchable, sortable, filterable }` without distinct values. */
  datatype FilterSchema = FilterSchema(
    searchable: seq<string>,
    sortable: seq<string>,
    filterable: JsObject.Entries<FilterEntry>)

  function EntryOf(d: FieldInfo): (e: FilterEntry)
    ensures e.enumValues.Some? <==> |d.enumValues| > 0
    ensures e.enumValues.Some? ==> e.enumValues.value == d.enumValues
  {
    FilterEntry(d.fieldType, d.instance, if |d.enumValues| > 0 then Some(d.enumValues) else None)
  }

  /** The `filterable` object: the fields with a filterable instance, in schema order. */
  function Filterable(info: SchemaInfo): (r: JsObject.Entries<FilterEntry>)
    ensures |r| <= |info|
    ensures forall i :: 0 <= i < |r| ==> r[i].1.instance in FilterableInstances
    ensures forall i :: 0 <= i < |r| ==> r[i].1.enumValues != Some([])
    ensures forall k :: k in JsObject.Keys(r) ==> k in JsObject.Keys(info)
  {
    if |info| == 0 then []
    else
      JsObject.KeysSplit(info);
      var (k, d) := info[0];
      var rest := Filterable(info[1..]);
      if d.instance in FilterableInstances then
        var r := [(k, EntryOf(d))] + rest;
        JsObject.KeysSplit(r);
        assert r[1..] == rest;
        r
      else rest
  }

  /** A field is filterable exactly when its instance is one of the five, and
      then it is reported with its own type, instance and enum. */
  lemma {:induction false} FilterableGet(info: SchemaInfo, k: string)
    requires JsObject.DistinctKeys(info)
    ensures JsObject.Get(Filterable(info), k) ==
      match JsObject.Get(info, k)
      case None => None
      case Some(d) => if d.instance in FilterableInstances then Some(EntryOf(d)) else None
  {
    if |info| > 0 {
      var (k0, d0) := info[0];
      var rest := info[1..];
      JsObject.DistinctTail(info);
      FilterableGet(rest, k);
      assert JsObject.Get(info, k) == if k0 == k then Some(d0) else JsObject.Get(rest, k);
      if d0.instance in FilterableInstances {
        JsObject.GetCons((k0, EntryOf(d0)), Filterable(rest), k);
      } else {
        assert Filterable(info) == Filterable(rest);
      }
    }
  }

  /** `FilterableGet` for every key at once, for schemas without repeated keys. */
  lemma FilterableAll(info: SchemaInfo)
    ensures JsObject.DistinctKeys(info) ==>
      forall k :: JsObject.Get(Filterable(info), k) ==
        match JsObject.Get(info, k)
        case None => None
        case Some(d) => if d.instance in FilterableInstances then Some(EntryOf(d)) else None
  {
    if JsObject.DistinctKeys(info) {
      forall k ensures JsObject.Get(Filterable(info), k) ==
        match JsObject.Get(info, k)
        case None => None
        case Some(d) => if d.instance in FilterableInstances then Some(EntryOf(d)) else None
      {
        FilterableGet(info, k);
      }
    }
  }

  /** `getFilterSchema({ includeDistinct: false })`, given the engine's
      `searchable` option (`None` when it is absent): the configured
      searchable fields, else the auto-detected string fields; every field
      as sortable, in schema order; and each field with a filterable
      instance reported with its own type, instance and enum. */
  function GetFilterSchema(info: SchemaInfo, searchable: Option<seq<string>>): (r: FilterSchema)
    ensures searchable.Some? ==> r.searchable == searchable.value
    ensures searchable.None? ==>
      && (forall x :: x in r.searchable <==> x in JsObject.Keys(info) && IsStringField(info, x))
      && (forall i, j :: 0 <= i < j < |r.searchable| && r.searchable[j] in Candidates ==> r.searchable[i] in Candidates)
    ensures |r.sortable| == |info| && forall i :: 0 <= i < |info| ==> r.sortable[i] == info[i].0
    ensures JsObject.DistinctKeys(info) ==>
      forall k :: JsObject.Get(r.filterable, k) ==
        match JsObject.Get(info, k)
        case None => None
        case Some(d) => if d.instance in FilterableInstances then Some(EntryOf(d)) else None
  {
    FilterableAll(info);
    FilterSchema(searchable.GetOr(AutoDetectStringFields(info)), JsObject.Keys(info), Filterable(info))
  }

  /** From the schema paths: a field is reported as filterable exactly when
      it is not internal and its described instance is one of the five, and
      then with the type and instance it was described with. */
  lemma FilterSchemaOfPaths(paths: JsObject.Entries<SchemaPath>, searchable: Option<seq<string>>, k: string)
    ensures JsObject.Get(GetFilterSchema(ExtractSchemaInfo(paths), searchable).filterable, k) ==
      if IsInternalPath(k) || k !in JsObject.Keys(paths) then None
      else
        var d := Describe(k, JsObject.GetLast(paths, k).value);
        if d.instance in FilterableInstances then Some(EntryOf(d)) else None
  {
    ExtractSchemaInfoGet(paths, k);
    FilterableGet(ExtractSchemaInfo(paths), k);
  }
}

=== FILE: s3_provider.dfy ===
/** `S3FileProvider` (src/providers/s3.provider.js): uploads stored under a
    key in one bucket. The bucket is a map from key to bytes; the AWS calls
    are a pair of partial functions given by the caller. */
module S3Provider {
  import opened Wrappers
  import opened Strings
  import opened Files

  type Bucket = map<string, Bytes>

  /** `s3.upload({ Key, Body, ContentType })` answers with the object's
      `Location` or an error; `s3.deleteObject({ Key })` answers with an
      error or nothing. */
  datatype S3Api = S3Api(
    put: (string, Bytes, string) -> Result<string, string>,
    remove: string -> Option<string>)

  /** `options.folder || "uploads"`. */
  function KeyFolder(options: UploadOptions): (f: string)
    ensures f != ""
    ensures options.folder.Some? && options.folder.value != "" ==> f == options.folder.value
    ensures options.folder.None? || options.folder.value == "" ==> f == "uploads"
  {
    if options.folder.Some? && options.folder.value != "" then options.folder.value else "uploads"
  }

  /** `${folder}/${Date.now()}-${originalname}`. */
  function Key(folder: string, now: nat, name: string): string {
    folder + "/" + StampedName(now, name)
  }

  /** Within one folder, two keys coincide only for the same millisecond
      and the same original name. */
  lemma KeyInjective(folder: string, a: nat, x: string, b: nat, y: string)
    ensures Key(folder, a, x) == Key(folder, b, y) <==> a == b && x == y
  {
    var dir := folder + "/";
    assert Key(folder, a, x) == dir + StampedName(a, x);
    assert Key(folder, b, y) == dir + StampedName(b, y);
    if Key(folder, a, x) == Key(folder, b, y) {
      assert (dir + StampedName(a, x))[|dir|..] == StampedName(a, x);
      assert (dir + StampedName(b, y))[|dir|..] == StampedName(b, y);
    }
    StampedNameInjective(a, x, b, y);
  }

  datatype Uploaded = Uploaded(record: FileRecord, bucket: Bucket)

  /** `upload(file, options)` at time `now`: the buffer is stored under the
      generated key; the record carries that key, the store's `Location` as
      URL, and the caller's size and type. A store error fails the upload
      and stores nothing. */
  function Upload(bucket: Bucket, api: S3Api, file: UploadFile, options: UploadOptions, now: nat): (r: Result<Uploaded, string>)
    ensures var key := Key(KeyFolder(options), now, file.meta.originalname);
      && (r.Failure? <==> api.put(key, file.buffer, file.meta.mimetype).Failure?)
      && (r.Failure? ==> r.error == api.put(key, file.buffer, file.meta.mimetype).error)
      && (r.Success? ==>
        && r.value.record.provider == S3
        && r.value.record.locator == key
        && r.value.record.url == api.put(key, file.buffer, file.meta.mimetype).value
        && r.value.record.size == file.meta.size
        && r.value.record.mimetype == file.meta.mimetype
        && r.value.bucket == bucket[key := file.buffer])
  {
    var key := Key(KeyFolder(options), now, file.meta.originalname);
    var location :- api.put(key, file.buffer, file.meta.mimetype);
    Success(Uploaded(FileRecord(S3, key, location, file.meta.size, file.meta.mimetype), bucket[key := file.buffer]))
  }

  /** `delete(key)`: a missing or empty key is refused before the store is
      contacted; otherwise the object is removed unless the store fails. */
  function Delete(bucket: Bucket, api: S3Api, key: Option<string>): (r: Result<Bucket, string>)
    ensures key.None? || key.value == "" ==> r == Failure("S3 key is required")
    ensures key.Some? && key.value != "" ==>
      (r.Failure? <==> api.remove(key.value).Some?) &&
      (r.Success? ==> r.value == bucket - {key.value})
  {
    if key.None? || key.value == "" then Failure("S3 key is required")
    else match api.remove(key.value)
      case Some(e) => Failure(e)
      case None => Success(bucket - {key.value})
  }

  /** Deleting by the key an upload reported removes exactly what the upload
      stored, when the store accepts both calls and the key was free. */
  lemma DeleteUndoesUpload(bucket: Bucket, api: S3Api, file: UploadFile, options: UploadOptions, now: nat)
    requires Upload(bucket, api, file, options, now).Success?
    requires Key(KeyFolder(options), now, file.meta.originalname) !in bucket
    requires api.remove(Key(KeyFolder(options), now, file.meta.originalname)).None?
    ensures var u := Upload(bucket, api, file, options, now).value;
      Delete(u.bucket, api, Some(u.record.locator)) == Success(bucket)
  {
    var u := Upload(bucket, api, file, options, now).value;
    var key := u.record.locator;
    assert key != "" by {
      assert |Key(KeyFolder(options), now, file.meta.originalname)| > 0;
    }
    assert u.bucket - {key} == bucket;
  }
}

=== FILE: seqs.dfy ===
/** Generic sequence operations: `Array.prototype.filter`, `flat`, and the
    "no element twice" shape. */
module Seqs {
  import opened Wrappers

  /** `xs.filter(p)`: the elements `p` accepts, in their original order. */
  function Filter<T(==,!new)>(xs: seq<T>, p: T -> bool): (ys: seq<T>)
    ensures |ys| <= |xs|
    ensures forall y :: y in ys <==> y in xs && p(y)
    ensures forall i :: 0 <= i < |ys| ==> p(ys[i])
  {
    if |xs| == 0 then []
    else if p(xs[0]) then [xs[0]] + Filter(xs[1..], p)
    else Filter(xs[1..], p)
  }

  /** Past the first element of `xs`, `xs + ys` goes on as `xs[1..] + ys`. */
  lemma DropAppend<T>(xs: seq<T>, ys: seq<T>)
    requires |xs| > 0
    ensures (xs + ys)[0] == xs[0] && (xs + ys)[1..] == xs[1..] + ys
  {
  }

  lemma AppendAssoc<T>(a: seq<T>, b: seq<T>, c: seq<T>)
    ensures a + (b + c) == (a + b) + c
  {
  }

  lemma {:induction false} FilterAppend<T(!new)>(xs: seq<T>, zs: seq<T>, p: T -> bool)
    ensures Filter(xs + zs, p) == Filter(xs, p) + Filter(zs, p)
    decreases |xs|
  {
    if |xs| > 0 {
      assert (xs + zs)[1..] == xs[1..] + zs;
      FilterAppend(xs[1..], zs, p);
    } else {
      assert xs + zs == zs;
    }
  }

  /** A filter that accepts everything changes nothing. */
  lemma {:induction false} FilterAll<T(!new)>(xs: seq<T>, p: T -> bool)
    requires forall i :: 0 <= i < |xs| ==> p(xs[i])
    ensures Filter(xs, p) == xs
    decreases |xs|
  {
    if |xs| > 0 {
      FilterAll(xs[1..], p);
    }
  }

  predicate NoDuplicates<T(==)>(xs: seq<T>) {
    forall i, j :: 0 <= i < j < |xs| ==> xs[i] != xs[j]
  }

  /** Filtering never introduces a duplicate. */
  lemma {:induction false} FilterNoDuplicates<T(!new)>(xs: seq<T>, p: T -> bool)
    requires NoDuplicates(xs)
    ensures NoDuplicates(Filter(xs, p))
    decreases |xs|
  {
    if |xs| > 0 {
      FilterNoDuplicates(xs[1..], p);
      var rest := Filter(xs[1..], p);
      assert xs[0] !in xs[1..];
      assert xs[0] !in rest;
    }
  }

  /** `xs.indexOf(x)`: the position of the first `x`. */
  function IndexOf<T(==)>(xs: seq<T>, x: T): (i: nat)
    requires x in xs
    ensures i < |xs| && xs[i] == x
  {
    if xs[0] == x then 0 else 1 + IndexOf(xs[1..], x)
  }

  /** In a list without duplicates, the element at `k` is first found at `k`. */
  lemma {:induction false} IndexOfDistinct<T>(xs: seq<T>, k: int)
    requires NoDuplicates(xs) && 0 <= k < |xs|
    ensures IndexOf(xs, xs[k]) == k
    decreases k
  {
    if k > 0 {
      assert xs[0] != xs[k];
      assert xs[1..][k - 1] == xs[k];
      IndexOfDistinct(xs[1..], k - 1);
    }
  }

  /** Where the `i`-th kept element sits in the unfiltered list. */
  function FilterPos<T(==,!new)>(xs: seq<T>, p: T -> bool, i: nat): (n: nat)
    requires i < |Filter(xs, p)|
    ensures n < |xs|
    decreases |xs|
  {
    if p(xs[0]) then
      if i == 0 then 0 else 1 + FilterPos(xs[1..], p, i - 1)
    else 1 + FilterPos(xs[1..], p, i)
  }

  /** The `i`-th kept element is the one at `FilterPos(xs, p, i)`. */
  lemma {:induction false} FilterPosAt<T(!new)>(xs: seq<T>, p: T -> bool, i: nat)
    requires i < |Filter(xs, p)|
    ensures xs[FilterPos(xs, p, i)] == Filter(xs, p)[i]
    decreases |xs|
  {
    var rest := xs[1..];
    if p(xs[0]) {
      assert Filter(xs, p) == [xs[0]] + Filter(rest, p);
      if i > 0 {
        FilterPosAt(rest, p, i - 1);
      }
    } else {
      assert Filter(xs, p) == Filter(rest, p);
      FilterPosAt(rest, p, i);
    }
  }

  /** Later kept elements come from later positions. */
  lemma {:induction false} FilterPosIncreasing<T(!new)>(xs: seq<T>, p: T -> bool, i: nat, j: nat)
    requires i < j < |Filter(xs, p)|
    ensures FilterPos(xs, p, i) < FilterPos(xs, p, j)
    decreases |xs|
  {
    var rest := xs[1..];
    if p(xs[0]) {
      assert Filter(xs, p) == [xs[0]] + Filter(rest, p);
      assert FilterPos(xs, p, j) == 1 + FilterPos(rest, p, j - 1);
      if i > 0 {
        assert FilterPos(xs, p, i) == 1 + FilterPos(rest, p, i - 1);
        FilterPosIncreasing(rest, p, i - 1, j - 1);
      } else {
        assert FilterPos(xs, p, i) == 0;
      }
    } else {
      assert Filter(xs, p) == Filter(rest, p);
      assert FilterPos(xs, p, i) == 1 + FilterPos(rest, p, i);
      assert FilterPos(xs, p, j) == 1 + FilterPos(rest, p, j);
      FilterPosIncreasing(rest, p, i, j);
    }
  }

  /** Filtering keeps the elements in their original order: in a list
      without duplicates, the element the filter keeps at `i` comes before
      the one it keeps at a later `j`. */
  lemma FilterKeepsOrder<T(!new)>(xs: seq<T>, p: T -> bool, i: nat, j: nat)
    requires NoDuplicates(xs)
    requires i < j < |Filter(xs, p)|
    ensures IndexOf(xs, Filter(xs, p)[i]) < IndexOf(xs, Filter(xs, p)[j])
  {
    FilterPosIncreasing(xs, p, i, j);
    FilterPosAt(xs, p, i);
    FilterPosAt(xs, p, j);
    IndexOfDistinct(xs, FilterPos(xs, p, i));
    IndexOfDistinct(xs, FilterPos(xs, p, j));
  }

  /** Filtering twice keeps the order too, also behind a prefix: in
      `first + Filter(Filter(keys, p), q)`, two elements past `first` come in
      the order of `keys`. */
  lemma {:induction false} FilterTwiceOrder<T(!new)>(first: seq<T>, keys: seq<T>, p: T -> bool, q: T -> bool, i: int, j: int)
    requires NoDuplicates(keys)
    requires |first| <= i < j < |first + Filter(Filter(keys, p), q)|
    ensures var fs := first + Filter(Filter(keys, p), q);
      fs[i] in keys && fs[j] in keys && IndexOf(keys, fs[i]) < IndexOf(keys, fs[j])
  {
    var available := Filter(keys, p);
    var rest := Filter(available, q);
    var fs := first + rest;
    var i', j' := i - |first|, j - |first|;
    assert fs[i] == rest[i'] && fs[j] == rest[j'];
    var m, n := FilterPos(available, q, i'), FilterPos(available, q, j');
    FilterPosIncreasing(available, q, i', j');
    FilterPosAt(available, q, i');
    FilterPosAt(available, q, j');
    var mk, nk := FilterPos(keys, p, m), FilterPos(keys, p, n);
    FilterPosIncreasing(keys, p, m, n);
    FilterPosAt(keys, p, m);
    FilterPosAt(keys, p, n);
    IndexOfDistinct(keys, mk);
    IndexOfDistinct(keys, nk);
  }

  /** `xss.flat()`: the inner sequences one after the other. */
  function Flatten<T>(xss: seq<seq<T>>): seq<T> {
    if |xss| == 0 then [] else xss[0] + Flatten(xss[1..])
  }

  lemma {:induction false} FlattenAppend<T>(xss: seq<seq<T>>, zss: seq<seq<T>>)
    ensures Flatten(xss + zss) == Flatten(xss) + Flatten(zss)
    decreases |xss|
  {
    if |xss| > 0 {
      assert (xss + zss)[1..] == xss[1..] + zss;
      FlattenAppend(xss[1..], zss);
    } else {
      assert xss + zss == zss;
    }
  }

  /** The values `f` picks out of `xs`, in order. */
  function FilterMap<T, U>(xs: seq<T>, f: T -> Option<U>): (ys: seq<U>)
    ensures |ys| <= |xs|
  {
    if |xs| == 0 then []
    else (if f(xs[0]).Some? then [f(xs[0]).value] else []) + FilterMap(xs[1..], f)
  }

  lemma {:induction false} FilterMapAppend<T, U>(xs: seq<T>, zs: seq<T>, f: T -> Option<U>)
    ensures FilterMap(xs + zs, f) == FilterMap(xs, f) + FilterMap(zs, f)
    decreases |xs|
  {
    if |xs| > 0 {
      assert (xs + zs)[1..] == xs[1..] + zs;
      FilterMapAppend(xs[1..], zs, f);
    } else {
      assert xs + zs == zs;
    }
  }

  lemma FilterMapOne<T, U>(x: T, f: T -> Option<U>)
    ensures FilterMap([x], f) == if f(x).Some? then [f(x).value] else []
  {
    assert [x][1..] == [];
  }
}

=== FILE: strings.dfy ===
/** The JavaScript string operations the repository relies on (`split`, `join`,
    `trim`, `toLowerCase`, `startsWith`, `endsWith`, `lastIndexOf`, number
    rendering), written over `string == seq<char>`. */
module Strings {
  import opened Wrappers

  /** The characters the regular-expression `.` does not match. */
  predicate IsLineTerminator(c: char) {
    c == '\n' || c == '\r' || c == '\U{2028}' || c == '\U{2029}'
  }

  /** A string the regular-expression `.+` can match as a whole (when non-empty). */
  predicate NoLineTerminator(s: string) {
    forall i :: 0 <= i < |s| ==> !IsLineTerminator(s[i])
  }

  /** JavaScript's WhiteSpace and LineTerminator characters: the class `\s`,
      and what `String.prototype.trim` removes. */
  predicate IsWhitespace(c: char) {
    || c == '\t' || c == '\U{B}' || c == '\U{C}' || c == ' '
    || c == '\U{A0}' || c == '\U{1680}'
    || ('\U{2000}' <= c <= '\U{200A}')
    || c == '\U{202F}' || c == '\U{205F}' || c == '\U{3000}' || c == '\U{FEFF}'
    || IsLineTerminator(c)
  }

  predicate IsDigit(c: char) {
    '0' <= c <= '9'
  }

  predicate IsUpper(c: char) {
    'A' <= c <= 'Z'
  }

  predicate IsLower(c: char) {
    'a' <= c <= 'z'
  }

  /** A non-empty run of decimal digits. */
  predicate IsDigits(s: string) {
    |s| > 0 && forall i :: 0 <= i < |s| ==> IsDigit(s[i])
  }

  predicate StartsWith(s: string, prefix: string) {
    |prefix| <= |s| && s[..|prefix|] == prefix
  }

  predicate EndsWith(s: string, suffix: string) {
    |suffix| <= |s| && s[|s| - |suffix|..] == suffix
  }

  lemma EndsWithConcat(a: string, b: string)
    ensures EndsWith(a + b, b)
  {
    assert (a + b)[|a|..] == b;
  }

  /** A suffix of a suffix is a suffix. */
  lemma EndsWithTrans(s: string, t: string, u: string)
    requires EndsWith(s, t) && EndsWith(t, u)
    ensures EndsWith(s, u)
  {
    assert s[|s| - |u|..] == s[|s| - |t|..][|t| - |u|..];
  }

  // ---------------------------------------------------------------- case

  /** `toLowerCase` on one character, restricted to ASCII letters. */
  function LowerChar(c: char): (d: char)
    ensures !IsUpper(d)
  {
    if IsUpper(c) then (c as int + 32) as char else c
  }

  /** `toUpperCase` on one character, restricted to ASCII letters. */
  function UpperChar(c: char): (d: char)
    ensures !IsLower(d)
  {
    if IsLower(c) then (c as int - 32) as char else c
  }

  function ToLower(s: string): (t: string)
    ensures |t| == |s|
  {
    seq(|s|, i requires 0 <= i < |s| => LowerChar(s[i]))
  }

  /** Lower-casing leaves every character that is not a letter where it was. */
  lemma ToLowerNonLetter(s: string, c: char)
    requires !IsUpper(c) && !IsLower(c)
    ensures c in ToLower(s) <==> c in s
  {
    if c in ToLower(s) {
      var i :| 0 <= i < |s| && ToLower(s)[i] == c;
      assert s[i] == c;
    }
    if c in s {
      var i :| 0 <= i < |s| && s[i] == c;
      assert ToLower(s)[i] == c;
    }
  }

  lemma LowerUpper(c: char)
    ensures LowerChar(UpperChar(c)) == LowerChar(c)
  {
  }

  lemma ToLowerAppend(a: string, b: string)
    ensures ToLower(a + b) == ToLower(a) + ToLower(b)
  {
  }

  lemma ToLowerIdempotent(s: string)
    ensures ToLower(ToLower(s)) == ToLower(s)
  {
  }

  // ---------------------------------------------------------------- search

  function LastIndexOf(s: string, c: char): (r: Option<nat>)
    ensures r.None? <==> c !in s
    ensures r.Some? ==> r.value < |s| && s[r.value] == c && c !in s[r.value + 1..]
  {
    if |s| == 0 then None
    else if s[|s| - 1] == c then Some(|s| - 1)
    else
      assert s == s[..|s| - 1] + [s[|s| - 1]];
      LastIndexOf(s[..|s| - 1], c)
  }

  /** The last `c` of `x + [c] + y` is the one after `x` when `y` holds none. */
  lemma {:induction false} LastIndexOfAfter(x: string, c: char, y: string)
    requires c !in y
    ensures LastIndexOf(x + [c] + y, c) == Some(|x|)
    decreases |y|
  {
    var s := x + [c] + y;
    if |y| > 0 {
      var y' := y[..|y| - 1];
      assert s[..|s| - 1] == x + [c] + y';
      assert s[|s| - 1] == y[|y| - 1];
      LastIndexOfAfter(x, c, y');
    }
  }

  /** Every occurrence of `from` replaced by `to` (`replace(/-/g, " ")`). */
  function ReplaceChar(s: string, from: char, to: char): (t: string)
    ensures |t| == |s|
    ensures from != to ==> from !in t
  {
    seq(|s|, i requires 0 <= i < |s| => if s[i] == from then to else s[i])
  }

  // ---------------------------------------------------------------- split / join

  /** `s.split(sep)` where `sep` is a character class: cut at every character
      `isSep` accepts; the separators themselves are dropped. */
  function SplitBy(s: string, isSep: char -> bool): (parts: seq<string>)
    ensures |parts| >= 1
    ensures forall i, j :: 0 <= i < |parts| && 0 <= j < |parts[i]| ==> !isSep(parts[i][j])
  {
    if |s| == 0 then [""]
    else
      var rest := SplitBy(s[1..], isSep);
      if isSep(s[0]) then [""] + rest
      else [[s[0]] + rest[0]] + rest[1..]
  }

  /** The separator test of a one-character separator. */
  function CharIs(sep: char): char -> bool {
    c => c == sep
  }

  /** `s.split(sep)` for a one-character separator. */
  function Split(s: string, sep: char): (parts: seq<string>)
    ensures |parts| >= 1
    ensures forall i :: 0 <= i < |parts| ==> sep !in parts[i]
  {
    SplitBy(s, CharIs(sep))
  }

  /** `parts.join(sep)`. */
  function Join(parts: seq<string>, sep: string): string {
    if |parts| == 0 then ""
    else if |parts| == 1 then parts[0]
    else parts[0] + sep + Join(parts[1..], sep)
  }

  /** A string none of whose characters is a separator. */
  predicate NoSeparator(s: string, isSep: char -> bool) {
    forall i :: 0 <= i < |s| ==> !isSep(s[i])
  }

  lemma SplitByUnfold(s: string, isSep: char -> bool)
    requires |s| > 0
    ensures isSep(s[0]) ==> SplitBy(s, isSep) == [""] + SplitBy(s[1..], isSep)
    ensures !isSep(s[0]) ==>
      SplitBy(s, isSep) == [[s[0]] + SplitBy(s[1..], isSep)[0]] + SplitBy(s[1..], isSep)[1..]
  {
  }

  /** The first piece is the longest separator-free prefix: it is followed
      by a separator or by the end of the string. */
  lemma {:induction false} SplitByHead(s: string, isSep: char -> bool)
    ensures var h := SplitBy(s, isSep)[0];
      |h| <= |s| && s[..|h|] == h && (|h| < |s| ==> isSep(s[|h|]))
    decreases |s|
  {
    if |s| > 0 {
      SplitByUnfold(s, isSep);
      if !isSep(s[0]) {
        SplitByHead(s[1..], isSep);
        ConsPrefix(s[0], s[1..], SplitBy(s[1..], isSep)[0], isSep);
        assert [s[0]] + s[1..] == s;
      }
    }
  }

  /** A separator-delimited prefix stays one when both gain the same first
      character. */
  lemma ConsPrefix(c: char, r: string, t: string, isSep: char -> bool)
    requires |t| <= |r| && r[..|t|] == t && (|t| < |r| ==> isSep(r[|t|]))
    ensures var s, h := [c] + r, [c] + t;
      |h| <= |s| && s[..|h|] == h && (|h| < |s| ==> isSep(s[|h|]))
  {
    var s, h := [c] + r, [c] + t;
    assert s[..|h|] == [c] + r[..|t|];
    assert |h| < |s| ==> s[|h|] == r[|t|];
  }

  /** Joining the pieces with the one separator the string uses gives the
      string back. */
  lemma {:induction false} JoinSplitBy(s: string, isSep: char -> bool, sep: char)
    requires forall i :: 0 <= i < |s| && isSep(s[i]) ==> s[i] == sep
    ensures Join(SplitBy(s, isSep), [sep]) == s
    decreases |s|
  {
    if |s| > 0 {
      SplitByUnfold(s, isSep);
      var rest := SplitBy(s[1..], isSep);
      JoinSplitBy(s[1..], isSep, sep);
      if !isSep(s[0]) && |rest| > 1 {
        assert Join(rest, [sep]) == rest[0] + [sep] + Join(rest[1..], [sep]);
      }
      assert s == [s[0]] + s[1..];
    }
  }

  lemma JoinSplit(s: string, sep: char)
    ensures Join(Split(s, sep), [sep]) == s
  {
    JoinSplitBy(s, CharIs(sep), sep);
  }

  lemma {:induction false} SplitByNoSeparator(x: string, isSep: char -> bool)
    requires NoSeparator(x, isSep)
    ensures SplitBy(x, isSep) == [x]
    decreases |x|
  {
    if |x| > 0 {
      SplitByUnfold(x, isSep);
      SplitByNoSeparator(x[1..], isSep);
      assert x == [x[0]] + x[1..];
    }
  }

  lemma {:induction false} SplitByAtSeparator(x: string, sep: char, y: string, isSep: char -> bool)
    requires NoSeparator(x, isSep) && isSep(sep)
    ensures SplitBy(x + [sep] + y, isSep) == [x] + SplitBy(y, isSep)
    decreases |x|
  {
    var s := x + [sep] + y;
    SplitByUnfold(s, isSep);
    if |x| == 0 {
      assert s[1..] == y;
    } else {
      assert s[1..] == x[1..] + [sep] + y;
      SplitByAtSeparator(x[1..], sep, y, isSep);
      assert x == [x[0]] + x[1..];
    }
  }

  /** Splitting a join recovers the pieces, when no piece holds a separator. */
  lemma {:induction false} SplitByJoin(parts: seq<string>, sep: char, isSep: char -> bool)
    requires |parts| >= 1 && isSep(sep)
    requires forall i :: 0 <= i < |parts| ==> NoSeparator(parts[i], isSep)
    ensures SplitBy(Join(parts, [sep]), isSep) == parts
    decreases |parts|
  {
    if |parts| == 1 {
      SplitByNoSeparator(parts[0], isSep);
    } else {
      SplitByJoin(parts[1..], sep, isSep);
      SplitByAtSeparator(parts[0], sep, Join(parts[1..], [sep]), isSep);
      assert parts == [parts[0]] + parts[1..];
    }
  }

  /** A character in no part and not in the separator is not in the joined string. */
  lemma {:induction false} JoinLacks(parts: seq<string>, sep: string, c: char)
    requires c !in sep
    requires forall i :: 0 <= i < |parts| ==> c !in parts[i]
    ensures c !in Join(parts, sep)
    decreases |parts|
  {
    if |parts| > 1 {
      JoinLacks(parts[1..], sep, c);
      assert Join(parts, sep) == parts[0] + sep + Join(parts[1..], sep);
    }
  }

  lemma SplitJoin(parts: seq<string>, sep: char)
    requires |parts| >= 1
    requires forall i :: 0 <= i < |parts| ==> sep !in parts[i]
    ensures Split(Join(parts, [sep]), sep) == parts
  {
    forall i | 0 <= i < |parts| ensures NoSeparator(parts[i], CharIs(sep)) {
    }
    SplitByJoin(parts, sep, CharIs(sep));
  }

  // ---------------------------------------------------------------- trim / filter

  function TrimStart(s: string): (t: string)
    ensures |t| <= |s| && t == s[|s| - |t|..]
    ensures forall i :: 0 <= i < |s| - |t| ==> IsWhitespace(s[i])
    ensures |t| > 0 ==> !IsWhitespace(t[0])
  {
    if |s| > 0 && IsWhitespace(s[0]) then TrimStart(s[1..]) else s
  }

  function TrimEnd(s: string): (t: string)
    ensures |t| <= |s| && t == s[..|t|]
    ensures forall i :: |t| <= i < |s| ==> IsWhitespace(s[i])
    ensures |t| > 0 ==> !IsWhitespace(t[|t| - 1])
  {
    if |s| > 0 && IsWhitespace(s[|s| - 1]) then TrimEnd(s[..|s| - 1]) else s
  }

  /** `s.trim()`. */
  function Trim(s: string): (t: string)
    ensures |t| > 0 ==> !IsWhitespace(t[0]) && !IsWhitespace(t[|t| - 1])
    ensures (forall i :: 0 <= i < |s| ==> IsWhitespace(s[i])) ==> t == ""
    ensures forall c :: c in t ==> c in s
  {
    var u := TrimStart(s);
    var t := TrimEnd(u);
    assert |t| > 0 ==> t[0] == u[0];
    t
  }

  lemma TrimNoWhitespace(s: string)
    requires forall i :: 0 <= i < |s| ==> !IsWhitespace(s[i])
    ensures Trim(s) == s
  {
  }

  /** `xs.map(x => x.trim())`. */
  function TrimAll(xs: seq<string>): (ys: seq<string>)
    ensures |ys| == |xs|
  {
    seq(|xs|, i requires 0 <= i < |xs| => Trim(xs[i]))
  }

  /** `xs.filter(Boolean)`: the non-empty strings, in order. */
  function Compact(xs: seq<string>): (ys: seq<string>)
    ensures |ys| <= |xs|
    ensures forall i :: 0 <= i < |ys| ==> ys[i] != ""
    ensures forall x :: x in ys <==> x in xs && x != ""
  {
    if |xs| == 0 then []
    else if xs[0] == "" then Compact(xs[1..])
    else [xs[0]] + Compact(xs[1..])
  }

  lemma CompactNonEmpty(xs: seq<string>)
    requires forall i :: 0 <= i < |xs| ==> xs[i] != ""
    ensures Compact(xs) == xs
  {
  }

  // ---------------------------------------------------------------- numbers

  function DigitChar(d: nat): (c: char)
    requires d < 10
    ensures IsDigit(c)
  {
    ('0' as int + d) as char
  }

  function DigitValue(c: char): nat
    requires IsDigit(c)
  {
    c as int - '0' as int
  }

  /** The decimal rendering of a natural number, as template literals and
      `String(n)` produce it (`${Date.now()}`). */
  function Decimal(n: nat): (s: string)
    ensures IsDigits(s)
    ensures |s| > 1 ==> s[0] != '0'
  {
    if n < 10 then [DigitChar(n)] else Decimal(n / 10) + [DigitChar(n % 10)]
  }

  /** The value of a run of decimal digits. */
  function DigitsValue(s: string): nat
    requires forall i :: 0 <= i < |s| ==> IsDigit(s[i])
  {
    if |s| == 0 then 0 else DigitsValue(s[..|s| - 1]) * 10 + DigitValue(s[|s| - 1])
  }

  /** Rendering then reading a number gives it back. */
  lemma {:induction false} DecimalRoundTrip(n: nat)
    ensures DigitsValue(Decimal(n)) == n
  {
    if n >= 10 {
      DecimalRoundTrip(n / 10);
      var s := Decimal(n);
      assert s[..|s| - 1] == Decimal(n / 10);
    }
  }
}

=== FILE: wrappers.dfy ===
/** Failure-compatible wrappers shared by every module of the model:
    `Option` stands for a JavaScript value that may be `undefined`/`null`,
    `Result` for a call that either returns a value or throws. */
module Wrappers {

  datatype Option<+T> = None | Some(value: T) {

    predicate IsFailure() {
      None?
    }

    function PropagateFailure<U>(): Option<U>
      requires None?
    {
      None
    }

    function Extract(): T
      requires Some?
    {
      value
    }

    /** The value, or `default` when there is none (JavaScript's destructuring default). */
    function GetOr(default: T): T {
      match this
      case Some(v) => v
      case None => default
    }
  }

  datatype Result<+R, +E> = Success(value: R) | Failure(error: E) {

    predicate IsFailure() {
      Failure?
    }

    function PropagateFailure<U>(): Result<U, E>
      requires Failure?
    {
      Failure(error)
    }

    function Extract(): R
      requires Success?
    {
      value
    }
  }
}
